=== FILE: README.md ===
# Natlaupa website core, modelled in Dafny

Natlaupa is a luxury-travel website: a Next.js front end with a few API route handlers
that forward to an upstream REST service. This project models the parts of it that make
decisions, as pure Dafny functions over immutable data, and proves what they promise:

- **Slugs** (`Slug`, `Backfill`): `slugify`, `isCuid`, `generateUniqueSlug`, and the script
  that backfills missing hotel and offer slugs one row at a time.
- **Consent and tracking in the browser** (`LocalStorage`, `Tracking`, `ConsentBanner`):
  `localStorage` is an explicit `Store` value. Each exported function of the tracking
  service and each button of the cookie banner is a transition from one store to the next.
  A transition also returns the events it would send to `/api/track`.
- **Route handlers** (`ConsentRoute`, `TrackRoute`, `ContactRoute`, `NewsletterRoute`,
  `AngelRoute`, `InquiryRoute`, on top of `Json`, `Http` and `Email`):
  - each handler maps a parsed request body and the upstream's answer to the body it
    forwards and the reply it gives;
  - the answer is a parameter: fetch failed, or a status with a JSON body or an
    unreadable one;
  - JavaScript's truthiness, `||`, `??`, `?.` and `JSON.stringify` dropping `undefined`
    are modelled exactly.
- **List pipelines** (`Lists`, `Hotels`, `Offers`, `Destinations`, `Experience`): filter,
  stable sort and `slice(0, n)`, with subsequence, permutation, ordering and
  top-of-ranking properties.
- **Classifiers and lookups** (`LocationInfo`, `LocationTables`, `Navbar`, `Text`):
  - the hour-to-sentence tables;
  - the image precedence of the location route;
  - the landmark matcher;
  - the navigation bar's brightness rule;
  - `parseInt`, `trim` and the `\s` class.

Inputs that come from outside the program are parameters:

- the clock (`now`, `nowMs`, `Clock`);
- the random part of a session id (`random`);
- `toISOString` (`iso`);
- the collation of `localeCompare` (`rank`);
- the static hotel catalogue (`all`);
- the reverse geocoder's answer (`Geocode`);
- the text generator's answer (`Generated`);
- the colour the browser computes behind the navigation bar (`Sample`).

Errors that the handlers catch are modelled by `Option`: `None` is the thrown error, and
`Http.OrCrash` turns it into the handler's 500 reply.

## Model

| member | source | states |
|---|---|---|
| Slug.Slugify | src/lib/slugify.ts:5-15 | The result is a slug: only `[a-z0-9-]`, never `--`, never a hyphen at either end |
| Slug.StripEdgeHyphens | src/lib/slugify.ts:14 | The input is the result with at most one hyphen added at each end. Applied to a collapsed string, the result is a slug |
| Slug.StripCombiningMarksKeepsOthers | src/lib/slugify.ts:10 | Removing U+0300..U+036F keeps every other character, in order and with its multiplicity |
| Slug.KeepSlugCharsKeepsClass | src/lib/slugify.ts:11 | `[^a-z0-9\s-]` removal keeps exactly the slug characters and `\s`, in order and with their multiplicities |
| Slug.CollapseHyphens | src/lib/slugify.ts:13 | No two hyphens are adjacent afterwards, and the first character is a hyphen exactly when it was before |
| Slug.CollapseHyphensOfRuns | src/lib/slugify.ts:13 | Hyphen-free text is kept, and each maximal run of hyphens becomes exactly one hyphen between the text before and after it |
| Slug.CleanKeepsClass | src/lib/slugify.ts:7-11 | The character-level steps give the trimmed, lower-cased text with every character outside the slug characters and `\s` removed, order and multiplicities kept |
| Slug.HyphenateCollapsesSeparators | src/lib/slugify.ts:12-14 | The run-level steps turn each maximal run of white space and hyphens into one hyphen, then drop at most one hyphen from each end |
| Slug.CollapseBothRuns | src/lib/slugify.ts:12-13 | Hyphenating white space and then collapsing hyphens turns every mixed run of them into one hyphen |
| Slug.SlugifyOfSlug | src/lib/slugify.ts:5-15 | Every slug is a fixed point of `slugify` |
| Slug.SlugifyIdempotent | src/lib/slugify.ts:5-15 | `slugify(slugify(s)) == slugify(s)` for every string |
| Slug.SlugifyTwoWords | src/lib/slugify.ts:12 | Two non-empty slugs separated by one space slugify to the two joined by one hyphen |
| Slug.SlugifyOfThreeWords | src/lib/slugify.ts:12-14 | Text that cleans to three slug words separated by single spaces slugifies to them joined by hyphens |
| Slug.SlugifyDocExample | src/lib/slugify.ts:3 | "Ultimate Mykonos Adventure" slugifies to "ultimate-mykonos-adventure" |
| Slug.IsCuid | src/lib/slugify.ts:20-24 | True exactly for `c` followed by 24 of `[a-z0-9]`, or `h` followed by one or more digits |
| Slug.CandidateInjective | src/lib/slugify.ts:37 | Different counters give different candidate names, so every attempt is a new name |
| Slug.TakenBound | src/lib/slugify.ts:36-39 | If the first `n` attempts are all taken, at least `n` slugs are taken: the loop cannot outrun a finite set |
| Slug.FirstFree | src/lib/slugify.ts:33-39 | Returns the first of `slug`, `slug-2`, `slug-3`, ... that is free, and its position |
| Slug.GenerateUniqueSlug | src/lib/slugify.ts:29-42 | The result is never taken, and every earlier candidate of `slugify(base)` is taken |
| Backfill.BackfillTable | prisma/backfill-slugs.ts:21-37 | Every pending row (null or empty slug) gets the first free candidate of its slugified name, judged against the table as written so far. Every other row is unchanged |
| Backfill.BackfillRow | prisma/backfill-slugs.ts:22-34 | One iteration assigns row `i` and keeps what earlier iterations established |
| Backfill.WriteKeepsEarlier | prisma/backfill-slugs.ts:31-34 | Writing one row's slug invalidates no earlier row's assignment |
| Backfill.WriteAssigns | prisma/backfill-slugs.ts:26-34 | The slug found by the search, once written, satisfies the row's assignment |
| Backfill.BackfillUnique | prisma/backfill-slugs.ts:21-37 | A written slug differs from every other row's slug: rows written before it, rows written after it, and rows that already had one |
| Backfill.BackfillKeepsSlugged | prisma/backfill-slugs.ts:10-17 | Rows that already had a non-empty slug leave the script unchanged |
| Backfill.BackfillSlugs | prisma/backfill-slugs.ts:42-69 | Hotels are slugged by name and offers by title, each table against itself only |
| LocalStorage.GetConsentState | src/services/trackingService.ts:53-64 | The stored consent when it parses; `null` when nothing is stored or the JSON is corrupt |
| LocalStorage.HasConsent | src/services/trackingService.ts:67-70 | True only when a consent is stored and readable, and then it is exactly that consent's flag |
| LocalStorage.NoStoredConsent | src/components/CookieConsentBanner.tsx:295-311 | With nothing readable stored, `getConsentState` is `null` and both kinds of consent are refused |
| LocalStorage.NewSessionId | src/services/trackingService.ts:45 | A generated id starts with `sess_` |
| LocalStorage.GetOrCreateSessionId | src/services/trackingService.ts:39-50 | A stored non-empty id is returned and nothing is written; otherwise a new `sess_` id is stored and returned. The result is never empty |
| LocalStorage.SessionIdIdempotent | src/components/CookieConsentBanner.tsx:282-292 | Once an id exists, a later call returns the same id and changes nothing, whatever the clock and the random source give |
| Tracking.GetLocalUserData | src/services/trackingService.ts:73-101 | Stored data is returned as is. Otherwise fresh empty data under the session id is created and stored. Consent is never touched |
| Tracking.Save | src/services/trackingService.ts:104-108 | Stores the data stamped with the clock and touches neither the consent nor the session id |
| Tracking.EventIf | src/services/trackingService.ts:125-132 | An event is sent exactly when analytics consent holds, and it is the given event |
| Tracking.ViewedList | src/services/trackingService.ts:117-120 | The viewed hotel comes first and appears only once. The list holds 1 to 50 entries, and the rest are the earlier entries for other hotels |
| Tracking.TrackHotelView | src/services/trackingService.ts:111-133 | Without personalisation consent nothing is stored or sent. Otherwise the views become the list above, the moods stay, and the view event goes out only with analytics consent |
| Tracking.TrackHotelViewList | src/services/trackingService.ts:117-120 | After a view, the hotel heads the list exactly once, and the list has at most 50 entries. The tail is a subsequence of the old list in the old order, and while the old list is under 50 no other hotel is lost |
| Tracking.FindView | src/services/trackingService.ts:142 | `findIndex`: the first position holding the hotel, or none exactly when the hotel is absent |
| Tracking.ClickedList | src/services/trackingService.ts:142-150 | A listed hotel only has that entry's timestamp refreshed, in place. An unlisted one is put in front and the list is cut to 50 |
| Tracking.TrackHotelClick | src/services/trackingService.ts:136-163 | Consent-gated like a view. The views become the clicked list, the moods stay, and the click event goes out only with analytics consent |
| Tracking.ClickKeepsOrder | src/services/trackingService.ts:143-144 | Clicking a listed hotel keeps the length and the order of hotel ids |
| Tracking.IncrementMood | src/services/trackingService.ts:172 | The selected mood's count rises by exactly 1, from 0 when absent. Every other count is unchanged, existing moods keep their positions, and a new mood is appended |
| Tracking.IncrementMoodDistinct | src/services/trackingService.ts:172 | Counting a mood keeps the mood ids distinct, as object keys are |
| Tracking.MoodCountFound | src/services/trackingService.ts:172 | In a table with distinct ids, reading a mood gives the count stored in its entry |
| Tracking.TrackMoodSelection | src/services/trackingService.ts:166-185 | Consent-gated. The chosen mood's count rises by 1 and the others and the views stay. The event carries the mood in both `hotelId` and `moodContext` |
| Tracking.MaxCount | src/services/trackingService.ts:195 | The maximum count: no count exceeds it and some count equals it |
| Tracking.Ratio | src/services/trackingService.ts:199 | A normalised score lies in [0, 1] and is 1 exactly for a positive maximum count |
| Tracking.Normalise | src/services/trackingService.ts:197-199 | One score per mood, in the moods' order, each in [0, 1] and equal to 1 exactly for the moods with the maximum count |
| Tracking.MoodScores | src/services/trackingService.ts:188-201 | The scores are a permutation of the normalised moods, sorted from best to worst, all in [0, 1] |
| Tracking.TopScoreIsOne | src/services/trackingService.ts:195-200 | When any mood has been counted, the best score is exactly 1 |
| Tracking.GetUserMoodPreferences | src/services/trackingService.ts:188-192 | The preferences are the scores of the stored moods, and `[]` when there are none |
| Tracking.GetTopMood | src/services/trackingService.ts:210-213 | `null` exactly when no mood is stored. Otherwise it is the mood of the first preference |
| Tracking.GetTopMoodIsFirstMax | src/services/trackingService.ts:187-213 | `getTopMood()` is the first stored mood, in table order, whose count is the maximum |
| Tracking.TopMoodIsFirstMax | src/services/trackingService.ts:187-200 | Because the sort is stable, the top preference is the first mood, in table order, with the maximum count |
| Tracking.GetRecentViews | src/services/trackingService.ts:204-207 | The first `limit` stored views, by the rules of `slice` |
| Tracking.GetRecentViewsByDefault | src/services/trackingService.ts:204-207 | With the default limit of 10: the first ten stored views, or all when fewer are stored |
| Tracking.ClearTrackingData | src/services/trackingService.ts:234-239 | The user data and the session id are removed and the consent is kept |
| Tracking.ClearThenView | src/services/trackingService.ts:234-239 | After clearing, the next view starts a one-entry list under a newly generated session id |
| ConsentBanner.Initial | src/components/CookieConsentBanner.tsx:17-24 | Hidden, not customising, essential only |
| ConsentBanner.OnMount | src/components/CookieConsentBanner.tsx:27-42 | A readable stored consent is adopted and hides the banner. A corrupt or missing one shows the banner |
| ConsentBanner.SaveConsent | src/components/CookieConsentBanner.tsx:44-65 | Stores and adopts the choice stamped with the clock, closes both panels, leaves the user data alone, and posts the choice under the session id |
| ConsentBanner.AcceptAll | src/components/CookieConsentBanner.tsx:67-74 | All three categories are granted |
| ConsentBanner.RejectAll | src/components/CookieConsentBanner.tsx:76-83 | Only essential cookies are granted |
| ConsentBanner.SaveCustom | src/components/CookieConsentBanner.tsx:85-87 | Saves exactly what the toggles hold, restamped |
| ConsentBanner.Toggle | src/components/CookieConsentBanner.tsx:224-231 | A non-required option flips, and the required essential option never changes. Nothing else moves |
| ConsentBanner.ToggleTwice | src/components/CookieConsentBanner.tsx:224-231 | Toggling the same option twice restores the state |
| ConsentBanner.SaveThenHasConsent | src/components/CookieConsentBanner.tsx:44-46 | After a save, the tracking service's `hasConsent` answers with the flags chosen |
| ConsentBanner.SaveThenMount | src/components/CookieConsentBanner.tsx:27-46 | A reload after any save keeps the banner hidden and the saved choice in force |
| ConsentRoute.Post | src/app/api/consent/route.ts:6-50 | Malformed body gives 500. A falsy session id gives 400 and forwards nothing. Otherwise the flags are forwarded as `??` leaves them. A failed or `null` upstream gives 500, a readable reply gives 200 on 2xx, and any other status passes through as the upstream error: its status and `{ error: data.error?.message \|\| fallback }` with the save fallback |
| ConsentRoute.SavedReply | src/app/api/consent/route.ts:39-42 | The success reply is 200, and it throws exactly when the upstream body is `null` |
| ConsentRoute.PostDefaultsFlags | src/app/api/consent/route.ts:22-27 | Nullish flags become essential true and analytics and personalisation false. Any other value, `false` and `0` included, is forwarded as given |
| ConsentRoute.PostKeepsExplicitFalse | src/app/api/consent/route.ts:24 | An explicit `essential: false` is forwarded as `false`, where `||` would have made it `true` |
| ConsentRoute.PostSuccessBody | src/app/api/consent/route.ts:39-42 | A 2xx answers `success: true` with `data.data`, else `data.consent` |
| ConsentRoute.Get | src/app/api/consent/route.ts:53-92 | A missing or empty session id gives 400. An upstream 404 gives 200 with `consent: null`. A 2xx gives 200 with `{ consent: data.data \|\| data.consent }`, and a `null` body gives 500. Other failures pass through as the upstream error: their status and `{ error: data.error?.message \|\| fallback }` with the fetch fallback. Fetch or JSON failure gives 500 |
| ConsentRoute.GetNotFoundIsNull | src/app/api/consent/route.ts:69-75 | A 404 answers 200 and `consent: null`, whatever body came with it |
| ConsentRoute.GetSuccessBody | src/app/api/consent/route.ts:82-84 | A 2xx answers 200 and its `consent` reads back as `data.data`, else `data.consent` |
| TrackRoute.Post | src/app/api/track/route.ts:9-69 | The session id is checked first, then the action against the five valid ones. A valid request is forwarded. An upstream 403 becomes 200. Other failures pass through as the upstream error: their status and `{ error: data.error?.message \|\| fallback }`. A 2xx gives 200 |
| TrackRoute.RecordedReply | src/app/api/track/route.ts:58-61 | The success reply is 200, and it throws exactly when the upstream body is `null` |
| TrackRoute.PostDropsFalsyOptionals | src/app/api/track/route.ts:30-40 | Falsy `userId` and `moodContext` are left out. `hotelId` and `action` are forwarded as sent |
| TrackRoute.EventBody | src/services/trackingService.ts:216-227 | The event serialises to an object with exactly `action`, `hotelId` and `sessionId`, plus `moodContext` exactly when the event has one, each carrying the event's value |
| TrackRoute.ServiceEventsForwarded | src/app/api/track/route.ts:6 | Every event the tracking service sends under a session id passes both checks |
| TrackRoute.StatsQuery | src/app/api/track/route.ts:80-83 | `hotelId` and `sessionId` appear exactly when non-empty and carry their values. `days` always comes last |
| TrackRoute.Unauthorised | src/app/api/track/route.ts:89-107 | An unreadable `days` throws (500). A readable one within the `Date` range answers 200 with the empty report from `days` days before now until now, with `period.days` the parsed number. Outside the range `toISOString` throws (500) |
| TrackRoute.Get | src/app/api/track/route.ts:72-126 | `days` defaults to "7". A 401 or 403 is answered with the empty report without reading the body. Other failures pass through as the upstream error: their status and `{ error: data.error?.message \|\| fallback }`. A 2xx answers 200 with `data.data \|\| data`, or 500 on a `null` body |
| TrackRoute.GetDefaultsToSevenDays | src/app/api/track/route.ts:77-107 | With no `days`, the query says 7 and the empty report spans the seven days before now |
| TrackRoute.GetUnreadableDays | src/app/api/track/route.ts:92 | A blank `days` reaches `parseInt` as NaN and the handler answers 500 |
| TrackRoute.GetSuccessBody | src/app/api/track/route.ts:118 | A 2xx object body is unwrapped: a truthy `data` field is answered alone, and a body without one is answered whole |
| TrackRoute.EmptyStatsContents | src/app/api/track/route.ts:94-106 | The unauthorised report reads back its start, end and day count, no actions, zero sessions, no top hotels and no moods |
| ContactRoute.Phone | src/app/api/contact/route.ts:35 | A falsy or blank phone is dropped, a non-blank string is kept, and a truthy non-string throws |
| ContactRoute.Post | src/app/api/contact/route.ts:8-75 | The checks run in order: required fields, then e-mail shape. A valid form is forwarded. The newsletter call goes out exactly when the upstream accepted and `subscribeNewsletter` is truthy |
| ContactRoute.PostSubjectAndPhone | src/app/api/contact/route.ts:35-36 | The subject is always "Contact Form Submission", and a phone that trims to nothing is omitted |
| ContactRoute.NewsletterDoesNotChangeReply | src/app/api/contact/route.ts:50-67 | Bodies differing only in `subscribeNewsletter` get the same reply |
| NewsletterRoute.SuccessReply | src/app/api/newsletter/route.ts:44-47 | A success reply carries `success: true` and the given status |
| NewsletterRoute.Refused | src/app/api/newsletter/route.ts:41-53 | A 409, or the code `ALREADY_SUBSCRIBED`, is a 200 success. A `null` body throws. Any other failure passes through as the upstream error: its status and `{ error: data.error?.message \|\| fallback }` with "Failed to subscribe" |
| NewsletterRoute.Post | src/app/api/newsletter/route.ts:8-66 | A missing e-mail gives 400, then a malformed one gives 400. Only a valid address is forwarded. A 2xx gives 201 |
| NewsletterRoute.PostOmitsEmptyNames | src/app/api/newsletter/route.ts:32-36 | Falsy first and last names are omitted, and truthy ones are forwarded as sent |
| NewsletterRoute.DuplicateIsSuccess | src/app/api/newsletter/route.ts:43-48 | A duplicate subscription, by status or by error code, is answered 200 with `success: true` |
| AngelRoute.Post | src/app/api/angel/route.ts:5-71 | All seven fields are required (400), then the e-mail is checked (400). Only a valid application is forwarded, and then it gets the shared upstream tail |
| AngelRoute.ZeroYearsIsMissing | src/app/api/angel/route.ts:20-25 | `yearsInHospitality: 0` is refused as missing |
| AngelRoute.ForwardsExactlySevenFields | src/app/api/angel/route.ts:37-49 | The forwarded object has exactly the seven keys, with the values sent. Nothing else from the body reaches the upstream |
| InquiryRoute.Post | src/app/api/inquiry/route.ts:5-62 | The five required fields give 400 when missing, then a malformed e-mail gives 400. Only a valid inquiry is forwarded, and then it gets the shared upstream tail |
| InquiryRoute.PostOptionalPhone | src/app/api/inquiry/route.ts:37 | A falsy phone is omitted and a truthy one is forwarded as sent |
| Email.IsEmailMatchesPattern | src/app/api/contact/route.ts:19-20 | The scan accepts exactly the strings `^[^\s@]+@[^\s@]+\.[^\s@]+$` matches: one `@` not first, no white space, and a dot strictly inside the domain |
| Email.PatternOfScan | src/app/api/contact/route.ts:19-20 | Every string the scan accepts matches the pattern |
| Email.ScanOfPattern | src/app/api/contact/route.ts:19-20 | Every string the pattern matches is accepted by the scan |
| Email.IndexOf | src/app/api/contact/route.ts:19-20 | The first position of a character, or the length when it is absent |
| Http.ErrorReply | src/app/api/consent/route.ts:12-15 | `{ error: message }` with the given status |
| Http.Field | src/app/api/contact/route.ts:9 | Destructuring reads the property, or `undefined` when the object lacks it |
| Http.UpstreamError | src/app/api/consent/route.ts:32-37 | The upstream's `error.message` when truthy, else the fallback, under the upstream status. It throws exactly on a `null` body |
| Http.UpstreamMessageRelayed | src/app/api/inquiry/route.ts:44-49 | A refusal carrying a non-empty `error.message` is answered with that message under the upstream's status |
| Http.UpstreamFallbackUsed | src/app/api/inquiry/route.ts:44-49 | A refusal without a truthy `error.message` is answered with the route's fallback under the upstream's status |
| Http.OrCrash | src/app/api/consent/route.ts:43-49 | A thrown error becomes 500 with the handler's message, and anything else passes unchanged |
| Http.CreatedId | src/app/api/contact/route.ts:65 | `data.data?.id`, throwing exactly on a `null` body |
| Http.CreatedReply | src/app/api/inquiry/route.ts:51-54 | 201 with `success: true` and `id` equal to `data.data?.id`, throwing exactly on a `null` body |
| Http.FormAnswer | src/app/api/inquiry/route.ts:42-61 | After forwarding, a failure passes through as the upstream error: its status and `{ error: data.error?.message \|\| fallback }`. A 2xx gives 201 with `success: true` and the new record's `data.data?.id`. Fetch or JSON failure, or a `null` body, gives 500 |
| Http.FormAnswerEchoesId | src/app/api/inquiry/route.ts:51-54 | A 2xx answer `{ data: { id } }` gives 201 whose `id` is that id |
| Json.NullishIsFalsy | src/app/api/consent/route.ts:24-26 | Nullish values are falsy. The falsy values that are not nullish are exactly `false`, `0` and `""` |
| Json.Or | src/app/api/track/route.ts:35 | `a \|\| b` is `a` when truthy, else `b` |
| Json.Coalesce | src/app/api/consent/route.ts:24 | `a ?? b` is `b` exactly when `a` is nullish |
| Json.CoalesceVersusOr | src/app/api/consent/route.ts:24-26 | `??` and `\|\|` differ exactly on falsy, non-nullish values different from the default |
| Json.Prop | src/app/api/consent/route.ts:9 | A property read throws exactly on `null` and `undefined`, and a missing key reads `undefined` |
| Json.OptProp | src/app/api/consent/route.ts:34 | Optional chaining gives `undefined` instead of throwing |
| Json.ObjMap | src/app/api/track/route.ts:33-39 | A serialised object literal has no `undefined` values and only written keys |
| Json.ObjMapLookup | src/app/api/newsletter/route.ts:32-36 | With distinct keys, each written pair survives serialisation unless its value is `undefined` |
| Json.ObjGet | src/app/api/consent/route.ts:22-27 | Reading a written key back gives the value written |
| Hotels.Transform | src/hooks/useHotels.ts:28-46 | Throws exactly for a `null` hotel or unusable `images`. Otherwise each field is the first truthy value of its `\|\|` chain: location, then address, then ""; category, then the style's name, then "Hotels"; and likewise country, image, description, reviews, coordinates, rating, trending and amenities. id, name and phrase are copied and the gallery is `Gallery` |
| Hotels.ImageUrls | src/hooks/useHotels.ts:43 | `images.map(img => img.url)` throws exactly when some image is nullish |
| Hotels.Gallery | src/hooks/useHotels.ts:43 | Truthy given gallery images win. Otherwise nullish images give `[]`, an array gives the image URLs and throws when one image is nullish, and any other value throws |
| Hotels.TransformOfEmpty | src/hooks/useHotels.ts:32-44 | A hotel with no fields gets every default |
| Hotels.TransformCategoryFromStyle | src/hooks/useHotels.ts:36 | Without a category, the style's name is used, and "Hotels" when that is empty |
| Hotels.TransformAll | src/hooks/useHotels.ts:76 | The list transforms exactly when every hotel does, element by element |
| Lists.MapAll | src/hooks/useHotels.ts:76 | `map` with a callback that may throw: a result exactly when no element throws, and then one result per element, in order |
| Hotels.StaticFallback | src/hooks/useHotels.ts:81-113 | Never longer than the catalogue |
| Hotels.SearchStepIsFilter | src/hooks/useHotels.ts:83-90 | The search step keeps the hotels whose name, location or country contains the query, ignoring case |
| Hotels.CountryStepIsFilter | src/hooks/useHotels.ts:92-96 | The country step is a case-insensitive equality filter |
| Hotels.CategoryStepIsFilter | src/hooks/useHotels.ts:98-102 | The category step is a case-insensitive equality filter |
| Hotels.TrendingStepIsFilter | src/hooks/useHotels.ts:104-106 | The trending step keeps exactly the hotels with the requested flag |
| Hotels.StepsAreOneFilter | src/hooks/useHotels.ts:83-106 | The four steps in a row are one filter by their conjunction |
| Hotels.StaticFallbackSpec | src/hooks/useHotels.ts:81-110 | The fallback is the catalogue's matching hotels in order, cut to `limit` only when it is truthy. Style and page play no part |
| Hotels.StaticFallbackSelects | src/hooks/useHotels.ts:81-110 | The fallback is a subsequence of the catalogue and every hotel in it matches. Without a limit it holds all matching hotels |
| Hotels.LoadHotels | src/hooks/useHotels.ts:56-151 | Each outcome is stated. A failed fetch, unreadable or `null` body, a throwing transform, or non-empty string `items` shows the whole catalogue. A non-2xx shows the filtered fallback. A 2xx with non-empty array `items` that all transform shows them with `total \|\| length`. Every other 2xx shows the filtered fallback. A static `total` is the length shown |
| Hotels.TrendingFallback | src/hooks/useHotels.ts:234 | A prefix of the catalogue's trending hotels, in order, of length `min(limit, count)`, or `count + limit` floored at 0 for a negative limit |
| Hotels.TrendingFallbackSelects | src/hooks/useHotels.ts:234 | In catalogue order, and with a large enough limit no trending hotel is missed |
| Hotels.LoadTrending | src/hooks/useHotels.ts:226-242 | Server hotels are shown exactly for a 2xx whose `data` is a non-empty array that all transforms, and then they are its transformed items. Every other outcome, thrown or not, shows the trending fallback |
| Hotels.LoadTrendingByDefault | src/hooks/useHotels.ts:216 | With the default limit of 6, the trending fallback is a prefix of the trending hotels, and it has six when at least six are trending |
| Offers.FilteredOffers | src/app/offers/page.tsx:19-36 | A permutation of the matching offers, ordered by duration or by the title collation |
| Offers.FilteredOffersSelects | src/app/offers/page.tsx:21-30 | An offer is listed exactly when one of its five fields contains the query, ignoring case, and its type is the selected one or none is selected |
| Offers.EmptyQueryKeepsAll | src/app/offers/page.tsx:21-29 | With an empty query and no type, every offer is listed |
| Offers.SameDurationKeepsOrder | src/app/offers/page.tsx:32-35 | Offers of equal duration keep their order |
| Offers.Toggle | src/app/offers/page.tsx:133-138 | Clicking the selected item clears the selection, and clicking another item selects it (also the destination buttons of the home page) |
| Offers.ToggleTwice | src/app/offers/page.tsx:133-138 | Clicking the same item twice restores a selection that was empty or on it |
| Destinations.ImageOr | src/app/destinations/page.tsx:46 | A missing or empty URL gives the placeholder, and a present one is kept |
| Destinations.Ranked | src/app/destinations/page.tsx:38-40 | A permutation of the active destinations with hotels, most hotels first |
| Destinations.Cards | src/app/destinations/page.tsx:38-47 | Card i is the card of the i-th ranked destination, one per ranked destination |
| Destinations.RankedSelects | src/app/destinations/page.tsx:39 | A destination is ranked exactly when it is in the input, active and has hotels |
| Destinations.RankedStable | src/app/destinations/page.tsx:38-40 | Ties keep the API's order: the listed destinations with any one hotel count come in input order |
| Destinations.CardsSpec | src/app/destinations/page.tsx:35-48 | A card for exactly the listed destinations, no more cards than inputs, most hotels first, never an empty image |
| Destinations.CountLabel | src/app/destinations/page.tsx:131 | "Property" exactly for one hotel |
| Experience.SunMoonStatus | src/components/ExperienceSelector.tsx:138-146 | Each sentence holds exactly on its hour band. Only NaN reaches the fallback, because the bands cover every integer |
| Experience.Noun | src/components/ExperienceSelector.tsx:236 | "property" exactly for one hotel |
| Experience.Blurb | src/components/ExperienceSelector.tsx:236 | The description opens "Discover " and ends " in <name>", and reads "Discover 1 luxury property" before the name exactly for one hotel |
| Experience.BlurbStatesCount | src/components/ExperienceSelector.tsx:236 | The blurb opens "Discover " and then the count, which `parseInt` reads back |
| Experience.TopDestinations | src/components/ExperienceSelector.tsx:223-226 | The first four ranked destinations, or all when fewer |
| Experience.TopDestinationsSpec | src/components/ExperienceSelector.tsx:220-237 | At most four, all active with hotels, most hotels first. No destination left out has more hotels than one featured |
| Experience.ToFeatured | src/components/ExperienceSelector.tsx:227-237 | A card copies id, name and slug, and uses the name as its country. Its image is the destination's non-empty image or the placeholder. Temperature is 20 and both coordinates 0. Its description is "Discover <count> luxury property/properties in <name>" and reads back the hotel count |
| Experience.FeaturedDestinations | src/components/ExperienceSelector.tsx:223-237 | Card i is the card of the i-th top destination, one per destination, in order |
| Experience.ShowcaseAfterLoad | src/components/ExperienceSelector.tsx:210-239 | When either fetch rejects or either body is not JSON, the showcase stays. Otherwise a readable list replaces it, even an empty one, and anything else leaves it unchanged |
| Experience.TopStyles | src/components/ExperienceSelector.tsx:245-248 | The first four of the active styles sorted by hotel count, descending and stable: exactly min(4, number active) of them, most hotels first |
| Experience.TopStylesSpec | src/components/ExperienceSelector.tsx:245-248 | Featured styles are active input styles, and styles without hotels qualify. No active style left out has more hotels than one featured. With at most four active, all are featured, and otherwise exactly four are |
| Experience.FeaturedStyles | src/components/ExperienceSelector.tsx:249-254 | Card i carries the i-th top style's id, name and count, and its image or the placeholder, so never an empty image |
| Experience.Shorten | src/components/ExperienceSelector.tsx:1121-1123 | Up to 120 characters is unchanged. Longer text becomes its first 120 characters plus "..." |
| Experience.ShortenIdempotent | src/components/ExperienceSelector.tsx:1121-1123 | At most 123 characters, it starts like the text, and shortening twice changes nothing |
| Experience.StyleHrefOfRuns | src/components/ExperienceSelector.tsx:1147-1149 | The link is `/styles/` and the lower-cased name. A name without white space is only lower-cased, and each run of white space becomes one hyphen |
| Experience.StyleHref | src/components/ExperienceSelector.tsx:1147-1149 | The link starts `/styles/` and its path has no white space and no upper-case letter |
| LocationInfo.SunMoonStatement | src/app/api/location-info/route.ts:10-21 | Each of the nine sentences holds exactly on its band. Only NaN reaches the fallback |
| LocationInfo.Lookup | src/app/api/location-info/route.ts:149-150 | A value is found exactly when the key is in the table, and it is that key's value |
| LocationInfo.ScenicImage | src/app/api/location-info/route.ts:147-160 | The city's picture, else the country's, else the default |
| LocationInfo.BeforeColon | src/app/api/location-info/route.ts:198 | The text before the first colon, or all of it |
| LocationInfo.RemoveQuotes | src/app/api/location-info/route.ts:288 | Every double quote is removed and every other character kept |
| LocationInfo.CityOf | src/app/api/location-info/route.ts:230-236 | The first present field of city, town, village, municipality, county, state, else "Your Location" |
| LocationInfo.CityOfFirstPresent | src/app/api/location-info/route.ts:230-236 | The first present field decides the city |
| LocationInfo.Translated | src/app/api/location-info/route.ts:264-266 | A city changes only when the translation table lists it |
| LocationInfo.Geocoded | src/app/api/location-info/route.ts:209-273 | Without a geocoder answer the placeholders stay. With one, the city is the translated fallback chain, the country is the address's country when present and else "Earth", and the picture follows them |
| LocationInfo.LandmarkImage | src/app/api/location-info/route.ts:288-380 | An empty landmark, or one of 50 or more characters, changes nothing. Otherwise the first matching table entry wins, then the country's picture, else the picture stays |
| LocationInfo.LandmarkFirstMatchWins | src/app/api/location-info/route.ts:368-373 | The first entry in table order that matches gives the picture |
| LocationInfo.GeneratedStatement | src/app/api/location-info/route.ts:390-394 | Generated text is used only when, trimmed, it is non-empty and under 100 characters, and then without quotes |
| LocationInfo.Enhanced | src/app/api/location-info/route.ts:276-399 | No generator, or a throw on the first question, changes nothing. A throw on the second keeps the landmark picture |
| LocationInfo.Paris | src/app/api/location-info/route.ts:413-436 | The default answer: Paris, France, its picture, marked default, with the sentence for the Paris hour |
| LocationInfo.Get | src/app/api/location-info/route.ts:172-438 | An unreadable request, or both coordinates zero or NaN, gives Paris. Otherwise city and country are the geocoded place's, the image and statement are the generator's enhancement of them over the local-hour statement, and the time and hour are local. The location text is always "city, country" |
| LocationInfo.DefaultIgnoresServices | src/app/api/location-info/route.ts:179-215 | At the default location the geocoder and generator are not consulted |
| LocationInfo.GeocodedWithoutGenerator | src/app/api/location-info/route.ts:205-268 | Away from the default, without a generator, the city is the translated fallback chain and the picture follows it. The local hour always has a real sentence |
| Navbar.LogoAfterScroll | src/components/Navbar.tsx:72 | Past 50 pixels of scroll the dark logo is never chosen; otherwise the background decides |
| Navbar.DarkLogo | src/components/Navbar.tsx:18-67 | Scrolled gives the white logo, no navigation bar changes nothing, and nothing behind gives white. Otherwise the logo is dark exactly when the colour matches and is light |
| Navbar.RgbMatch | src/components/Navbar.tsx:52 | No match exactly when the pattern matches at no position. Otherwise the match is the one at the leftmost position that matches |
| Navbar.LightIsIntegerTest | src/components/Navbar.tsx:59-62 | `(299r + 587g + 114b) / 1000 > 128` is the integer test `299r + 587g + 114b > 128000` |
| Navbar.MatchComputed | src/components/Navbar.tsx:48-56 | A colour written as `rgb(r, g, b` or `rgba(r, g, b` is read back exactly |
| Navbar.DarkLogoOfComputed | src/components/Navbar.tsx:52-62 | Over a computed colour, the dark logo is chosen exactly when `299r + 587g + 114b > 128000` |
| Navbar.MatchDigits | src/components/Navbar.tsx:52 | The pattern reads three digit runs written as the browser writes them |
| Navbar.SpacedNumber | src/components/Navbar.tsx:52 | `\s*\d+` consumes at least one character |
| Lists.Filter | src/app/destinations/page.tsx:39 | Never longer than its input, and everything kept satisfies the predicate |
| Lists.FilterSpec | src/hooks/useHotels.ts:85 | `filter` keeps exactly the elements satisfying the predicate, in their order |
| Lists.SubsequenceTransitive | src/hooks/useHotels.ts:81-110 | Chained filters keep the catalogue's order |
| Lists.SliceTo | src/services/trackingService.ts:120 | `slice(0, n)` is a prefix of the right length, a negative end counting back |
| Lists.SortBy | src/app/offers/page.tsx:32-35 | A permutation of the input, sorted ascending by the key |
| Lists.SortByStable | src/app/offers/page.tsx:32-35 | For every key, the elements with that key keep their order |
| Lists.SortByDescending | src/app/destinations/page.tsx:40 | A permutation of the input, sorted descending by the key |
| Lists.SortByDescendingStable | src/app/destinations/page.tsx:40 | The descending sort is stable: elements with equal keys keep their order |
| Lists.SortByDescendingHead | src/services/trackingService.ts:200 | No input element ranks above the head |
| Lists.SortByDescendingFirstMax | src/services/trackingService.ts:200 | The head of a descending sort is the first maximal element in input order |
| Lists.TopOfDescending | src/components/ExperienceSelector.tsx:225-226 | Cutting a descending sort keeps its top: nothing left out ranks above anything kept |
| Lists.FilterFilter | src/hooks/useHotels.ts:83-106 | Two filters in a row are one filter by both predicates |
| Lists.FilterChain | src/hooks/useHotels.ts:83-106 | Four filters in a row are one filter by their conjunction |
| Lists.SliceToSubsequence | src/hooks/useHotels.ts:108-110 | `slice(0, n)` keeps the order |
| Lists.IndexWhere | src/services/trackingService.ts:142 | The first position satisfying the predicate, or the length when none does |
| Text.ToLowerIdempotent | src/app/offers/page.tsx:23 | Lower-casing leaves no capital, so doing it twice changes nothing |
| Text.TrimStart | src/components/Navbar.tsx:52 | Drops exactly the leading `\s` characters |
| Text.TrimEnd | src/app/api/contact/route.ts:35 | Drops exactly the trailing `\s` characters |
| Text.TrimEmptyIffAllSpace | src/app/api/contact/route.ts:35 | `trim()` is empty exactly when every character is `\s` |
| Text.HyphenateSpacesOfRuns | src/lib/slugify.ts:12 | `replace(/\s+/g, '-')`: white-space-free text is kept, and each maximal run of white space becomes exactly one hyphen between the text before and after it |
| Text.DecimalRoundTrip | src/lib/slugify.ts:37 | Reading back a rendered counter gives the counter |
| Text.NatToStringInjective | src/lib/slugify.ts:37 | Distinct counters render to distinct strings |
| Text.ParseIntOfRendered | src/app/api/track/route.ts:92-98 | `parseInt` reads back every rendered number, with or without a minus sign |
| Text.ParseIntOfRenderedThen | src/components/ExperienceSelector.tsx:236 | `parseInt` stops at the first character after the number that is not a digit |
| Text.ParseIntOfBlank | src/app/api/track/route.ts:92 | `parseInt` of white space alone is NaN |
| Text.LeadingDigits | src/components/Navbar.tsx:52 | The longest prefix of digits |

## Left out

- Network, `NextResponse` and the upstream service: a handler's upstream answer is the
  `Upstream` parameter. Stats aggregation and consent enforcement live upstream.
- `localStorage` I/O and `JSON.parse`: the store is the `Store` value. A slot that parses
  to JSON `null` is not modelled; `LocalStorage.Slot` has only absent, unparseable and
  parsed.
- The `typeof window === 'undefined'` server-side branches of the tracking service: the
  model is the browser side.
- `Date.now`, `Math.random`, `new Date()`, `getHours`, `toLocaleTimeString` and
  `toISOString`: they are parameters.
- `TrackRoute.Unauthorised`: the start date is `now` minus whole days in milliseconds.
  `setDate` in a time zone with daylight saving can differ by an hour, and that offset is
  not modelled.
- `sendTrackingEvent`'s `fetch`: the events are returned instead of sent, and a failed
  send changes nothing in the source either.
- The cookie banner's 1.5 s timer: `ConsentBanner.OnMount` shows the banner at once.
  Its markup and animation are not modelled.
- The Gemini and Nominatim services: their answers are the `Generated` and `Geocode`
  inputs. Geocoder fields that are not strings are not modelled.
- `parseFloat` of the coordinates: `LocationInfo.Request` carries its result, with
  `None` for NaN.
- Unicode: `toLowerCase` is ASCII-only, `normalize('NFD')` is not modelled (a precomposed
  accented letter is dropped by the `[^a-z0-9\s-]` step instead of being decomposed), and
  string length counts code points, not UTF-16 units.
- `localeCompare`: `Offers.FilteredOffers` takes the collation as a `rank` key.
- `Json.Prop`: array indices, `length` and `Object.prototype` members as keys are not
  modelled. `Http.EmailAccepted` does not model arrays as e-mail values; they stringify to
  their joined elements.
- The location tables are passed in as `LocationTables.Tables`, instantiated by
  `LocationTables.Site` with the route's four tables in their written order. Their keys are
  distinct; this is a note, not a proved fact.
- The destinations page's error message, and the `useHotels` fetches of categories and
  countries, are not modelled.
- `useHotel(id)`, the single-hotel hook, is not modelled.
- Tracking.IncrementMood: the mood table is a list in insertion order, which is how
  `Object.entries` lists ordinary property names. A mood id that is a canonical array index
  (`"0"`, `"42"`) is listed before all others in numeric order, and `"__proto__"` is never
  stored as an own property. For such ids the order, and so the tie-break of
  `Tracking.TopMoodIsFirstMax` and `Tracking.GetTopMoodIsFirstMax`, differs from the model.
- The styles half of the featured-data effect is modelled by `Experience.FeaturedStyles`
  only. The categories state it updates is not modelled as a transition.
- `Navbar.DarkLogo`: brightness is compared exactly, not in floating point. For integer
  components the two agree except at rounding distance from 128, which the integer test
  (`Navbar.LightIsIntegerTest`) settles exactly. The DOM sampling is the `Sample` input.
- `Backfill.BackfillTable`: rows are processed in table order, since `findMany` has no
  `orderBy`. Each table is assumed to have no concurrent writers. A name that slugifies to
  the empty string meets the pending rows' own empty slugs and gets `-2` onward.
- Hotels: `Hotels.ClientHotel` keeps the server's JSON values as they are, because the
  `as` casts check nothing.
- Rendering-only code, layouts, static pages, browser-automation scripts, the hotel proxy
  routes, the insights route and the map component are outside this model.

=== FILE: angel_route.dfy ===
/**
 * `POST /api/angel` (src/app/api/angel/route.ts): an application to become a local "angel"
 * host. Every field is required, the e-mail is checked, and exactly the seven fields are
 * forwarded to the upstream `/angel-applications`.
 */
module AngelRoute {
  import opened Wrappers
  import opened Json
  import opened Http

  const AllRequired := "All fields are required"
  const InvalidEmail := "Invalid email format"
  const Failed := "Failed to submit angel application"

  const Fields: seq<string> :=
    ["firstName", "lastName", "email", "phone", "currentPosition", "yearsInHospitality", "motivation"]

  datatype Posted = Posted(forwarded: Option<Json>, reply: Reply)

  /** Every one of the seven fields is truthy; `yearsInHospitality: 0` is not. */
  predicate AllPresent(body: Option<Json>)
    requires Destructurable(body)
  {
    forall i | 0 <= i < |Fields| :: Truthy(Field(body, Fields[i]))
  }

  /** The seven fields as written in the forwarded object literal. */
  function Pairs(body: Option<Json>): (kvs: seq<(string, Json)>)
    requires Destructurable(body)
    ensures |kvs| == |Fields|
    ensures forall i | 0 <= i < |kvs| :: kvs[i] == (Fields[i], Field(body, Fields[i]))
  {
    seq(|Fields|, i requires 0 <= i < |Fields| => (Fields[i], Field(body, Fields[i])))
  }

  function ForwardedApplication(body: Option<Json>): Json
    requires Destructurable(body)
  {
    Obj(Pairs(body))
  }

  function Post(body: Option<Json>, up: Upstream): (r: Posted)
    ensures !Destructurable(body) ==> r == Posted(None, ErrorReply(500, Failed))
    ensures Destructurable(body) && !AllPresent(body) ==> r == Posted(None, ErrorReply(400, AllRequired))
    ensures Destructurable(body) && AllPresent(body) && !EmailAccepted(Field(body, "email")) ==>
      r == Posted(None, ErrorReply(400, InvalidEmail))
    ensures r.forwarded.Some? <==> Destructurable(body) && AllPresent(body) && EmailAccepted(Field(body, "email"))
    ensures r.forwarded.Some? ==> r.forwarded.value == ForwardedApplication(body) && r.reply == FormAnswer(up, Failed)
  {
    if !Destructurable(body) then Posted(None, ErrorReply(500, Failed))
    else if !AllPresent(body) then Posted(None, ErrorReply(400, AllRequired))
    else if !EmailAccepted(Field(body, "email")) then Posted(None, ErrorReply(400, InvalidEmail))
    else Posted(Some(ForwardedApplication(body)), FormAnswer(up, Failed))
  }

  /** A years-of-experience of `0` counts as missing. */
  lemma ZeroYearsIsMissing(body: Option<Json>, up: Upstream)
    requires Destructurable(body) && Field(body, "yearsInHospitality") == JNum(0.0)
    ensures Post(body, up) == Posted(None, ErrorReply(400, AllRequired))
  {
    assert Fields[5] == "yearsInHospitality";
  }

  /**
   * Exactly the seven fields are forwarded, each with the value it was sent with: nothing
   * else the client put in the body reaches the upstream.
   */
  lemma ForwardsExactlySevenFields(body: Option<Json>, up: Upstream)
    requires Destructurable(body) && AllPresent(body) && EmailAccepted(Field(body, "email"))
    ensures var f := Post(body, up).forwarded.value;
      && f.JObj?
      && f.fields.Keys == (set i | 0 <= i < |Fields| :: Fields[i])
      && (forall i | 0 <= i < |Fields| :: f.fields[Fields[i]] == Field(body, Fields[i]))
  {
    var kvs := Pairs(body);
    assert DistinctKeys(kvs);
    forall i | 0 <= i < |Fields| ensures Fields[i] in ObjMap(kvs) && ObjMap(kvs)[Fields[i]] == Field(body, Fields[i]) {
      ObjMapLookup(kvs, i);
    }
  }
}

=== FILE: backfill.dfy ===
/**
 * The slug backfill script (prisma/backfill-slugs.ts): every hotel, then every offer, whose
 * slug is null or empty receives the first free `slug`, `slug-2`, `slug-3`, ... derived from
 * its name (hotels) or title (offers), checked against its own table as it stands after the
 * previous rows were written.
 */
module Backfill {
  import opened Wrappers
  import opened Slug

  /** A hotel or offer row: `name` is the hotel's name or the offer's title. */
  datatype Row = Row(id: string, name: string, slug: Option<string>)

  /** The rows the script selects: `slug` is null or `''`. */
  predicate Pending(row: Row) {
    row.slug == None || row.slug == Some("")
  }

  /** The slugs present in a table; `findUnique({ where: { slug } })` finds exactly these. */
  function Slugs(rows: seq<Row>): set<string> {
    set i | 0 <= i < |rows| && rows[i].slug.Some? :: rows[i].slug.value
  }

  /** The table as the `i`-th row sees it: rows before it already written, the rest not yet. */
  function Snapshot(before: seq<Row>, after: seq<Row>, i: nat): seq<Row>
    requires |before| == |after| && i <= |after|
  {
    after[..i] + before[i..]
  }

  /** What the loop leaves in row `i`, given the final table `after`. */
  ghost predicate Assigned(before: seq<Row>, after: seq<Row>, i: nat)
    requires |before| == |after| && i < |after|
  {
    if Pending(before[i]) then
      && after[i].id == before[i].id && after[i].name == before[i].name
      && exists k: nat ::
           && IsFirstFree(Slugify(before[i].name), Slugs(Snapshot(before, after, i)), k)
           && after[i].slug == Some(Candidate(Slugify(before[i].name), k))
    else after[i] == before[i]
  }

  /**
   * One table's loop. Rows are processed in table order, each slug written before the next
   * row is looked at; the counter restarts at 2 for every row.
   */
  method BackfillTable(rows: seq<Row>) returns (out: seq<Row>)
    ensures |out| == |rows|
    ensures forall i | 0 <= i < |rows| :: Assigned(rows, out, i)
  {
    out := rows;
    var i := 0;
    while i < |rows|
      invariant 0 <= i <= |rows| && |out| == |rows|
      invariant out[i..] == rows[i..]
      invariant forall j | 0 <= j < i :: Assigned(rows, out, j)
    {
      out := BackfillRow(rows, out, i);
      i := i + 1;
    }
  }

  /** The loop body for row `i`: a pending row gets its slug written, any other is skipped. */
  method BackfillRow(rows: seq<Row>, out: seq<Row>, i: nat) returns (written: seq<Row>)
    requires |out| == |rows| && i < |rows| && out[i..] == rows[i..]
    requires forall j | 0 <= j < i :: Assigned(rows, out, j)
    ensures |written| == |rows| && written[i + 1..] == rows[i + 1..]
    ensures forall j | 0 <= j <= i :: Assigned(rows, written, j)
  {
    if Pending(rows[i]) {
      var slug, k := FirstFree(Slugify(rows[i].name), Slugs(out));
      written := out[i := rows[i].(slug := Some(slug))];
      WriteKeepsEarlier(rows, out, written, i);
      WriteAssigns(rows, out, i, slug, k);
      assert written[i + 1..] == out[i + 1..] == rows[i + 1..];
      forall j | 0 <= j <= i ensures Assigned(rows, written, j) {
        if j == i {
          assert written == out[i := rows[i].(slug := Some(slug))];
        }
      }
    } else {
      written := out;
      assert out[i] == rows[i];
      assert out[i + 1..] == rows[i + 1..];
    }
  }

  /** Writing row `i` changes no earlier row and none of the snapshots they were assigned in. */
  lemma WriteKeepsEarlier(rows: seq<Row>, prev: seq<Row>, out: seq<Row>, i: nat)
    requires |prev| == |rows| && i < |rows|
    requires |out| == |prev| && out == prev[i := out[i]]
    requires forall j | 0 <= j < i :: Assigned(rows, prev, j)
    ensures forall j | 0 <= j < i :: Assigned(rows, out, j)
  {
    forall j | 0 <= j < i ensures Assigned(rows, out, j) {
      assert Assigned(rows, prev, j);
      assert out[j] == prev[j];
      assert out[..j] == prev[..j];
      assert Snapshot(rows, out, j) == Snapshot(rows, prev, j);
    }
  }

  /** Row `i` gets the first free candidate against the table just before it is written. */
  lemma WriteAssigns(rows: seq<Row>, prev: seq<Row>, i: nat, slug: string, k: nat)
    requires |prev| == |rows| && i < |rows| && prev[i..] == rows[i..] && Pending(rows[i])
    requires IsFirstFree(Slugify(rows[i].name), Slugs(prev), k)
    requires slug == Candidate(Slugify(rows[i].name), k)
    ensures Assigned(rows, prev[i := rows[i].(slug := Some(slug))], i)
  {
    var out := prev[i := rows[i].(slug := Some(slug))];
    assert out[..i] == prev[..i];
    assert prev == prev[..i] + prev[i..];
    assert Snapshot(rows, out, i) == prev;
  }

  /**
   * The uniqueness the loop keeps: a slug the script writes is shared with no other row of
   * the table, whether that row was written before it, after it, or already had a slug.
   */
  lemma {:induction false} BackfillUnique(rows: seq<Row>, out: seq<Row>, i: nat, j: nat)
    requires |out| == |rows|
    requires forall n | 0 <= n < |rows| :: Assigned(rows, out, n)
    requires i < |rows| && j < |rows| && i != j && Pending(rows[i])
    ensures out[i].slug.Some? && out[i].slug != out[j].slug
  {
    assert Assigned(rows, out, i);
    var k: nat :| IsFirstFree(Slugify(rows[i].name), Slugs(Snapshot(rows, out, i)), k)
                 && out[i].slug == Some(Candidate(Slugify(rows[i].name), k));
    if j < i {
      var snap := Snapshot(rows, out, i);
      assert snap[j] == out[j];
    } else {
      assert Assigned(rows, out, j);
      var snapJ := Snapshot(rows, out, j);
      assert snapJ[i] == out[i];
      if Pending(rows[j]) {
        var m: nat :| IsFirstFree(Slugify(rows[j].name), Slugs(snapJ), m)
                     && out[j].slug == Some(Candidate(Slugify(rows[j].name), m));
      } else {
        var snapI := Snapshot(rows, out, i);
        assert snapI[j] == rows[j] == out[j];
      }
    }
  }

  /** Rows that already had a non-empty slug leave the script exactly as they came. */
  lemma BackfillKeepsSlugged(rows: seq<Row>, out: seq<Row>, i: nat)
    requires |out| == |rows|
    requires forall n | 0 <= n < |rows| :: Assigned(rows, out, n)
    requires i < |rows| && rows[i].slug.Some? && rows[i].slug.value != ""
    ensures out[i] == rows[i]
  {
    assert Assigned(rows, out, i);
  }

  /**
   * `backfillSlugs()`: hotels by name, then offers by title. Each table is its own
   * uniqueness domain: the offers' result is a function of the offer table alone.
   */
  method BackfillSlugs(hotels: seq<Row>, offers: seq<Row>) returns (hotelsOut: seq<Row>, offersOut: seq<Row>)
    ensures |hotelsOut| == |hotels| && |offersOut| == |offers|
    ensures forall i | 0 <= i < |hotels| :: Assigned(hotels, hotelsOut, i)
    ensures forall i | 0 <= i < |offers| :: Assigned(offers, offersOut, i)
  {
    hotelsOut := BackfillTable(hotels);
    offersOut := BackfillTable(offers);
  }
}

=== FILE: consent_banner.dfy ===
/**
 * The cookie consent banner (src/components/CookieConsentBanner.tsx) as a state machine:
 * what it shows, the consent it holds, and what each button stores and posts to
 * `/api/consent`. `Date.now()` is the parameter `now`.
 */
module ConsentBanner {
  import opened Wrappers
  import opened LocalStorage

  /** The component's three pieces of React state. */
  datatype Banner = Banner(showBanner: bool, showCustomize: bool, consent: Consent)

  /** The three rows of the customise panel; only `Essential` is marked required. */
  datatype ConsentOption = Essential | AnalyticsOption | PersonalizationOption

  predicate Required(o: ConsentOption) { o == Essential }

  /** The body `saveConsent` posts: the session id spread together with the chosen consent. */
  datatype ConsentPost = ConsentPost(sessionId: string, consent: Consent)

  /** The state before the mount effect runs: hidden, essential cookies only. */
  function Initial(): (b: Banner)
    ensures !b.showBanner && !b.showCustomize
    ensures b.consent.essential && !b.consent.analytics && !b.consent.personalization
  {
    Banner(false, false, DefaultConsent)
  }

  /**
   * The mount effect: a readable stored consent is adopted and the banner stays hidden; a
   * corrupt one shows the banner; none at all shows it once the 1.5 s timer fires.
   */
  function OnMount(b: Banner, st: Store): (r: Banner)
    ensures st.consent.Parsed? ==> !r.showBanner && r.consent == st.consent.value
    ensures !st.consent.Parsed? ==> r.showBanner && r.consent == b.consent
    ensures r.showCustomize == b.showCustomize
  {
    match st.consent
    case Parsed(c) => b.(consent := c, showBanner := false)
    case Unparseable => b.(showBanner := true)
    case Absent => b.(showBanner := true)
  }

  /**
   * `saveConsent(newConsent)`: stores it stamped with the clock, adopts it, closes both
   * panels, and posts it (with the timestamp it came with) under the session id.
   */
  function SaveConsent(b: Banner, st: Store, newConsent: Consent, now: nat, random: string)
    : (r: (Banner, Store, ConsentPost))
    ensures !r.0.showBanner && !r.0.showCustomize
    ensures r.0.consent == newConsent.(timestamp := now)
    ensures r.1.consent == Parsed(newConsent.(timestamp := now))
    ensures r.1.userData == st.userData
    ensures r.2.consent == newConsent && r.2.sessionId != ""
    ensures HasSessionId(st) ==> r.2.sessionId == st.sessionId.value
  {
    var stamped := newConsent.(timestamp := now);
    var st1 := st.(consent := Parsed(stamped));
    var (sid, st2) := GetOrCreateSessionId(st1, now, random);
    (Banner(false, false, stamped), st2, ConsentPost(sid, newConsent))
  }

  /** Accept All: every category granted. */
  function AcceptAll(b: Banner, st: Store, now: nat, random: string): (r: (Banner, Store, ConsentPost))
    ensures var c := r.0.consent; c.essential && c.analytics && c.personalization
  {
    SaveConsent(b, st, Consent(true, true, true, now), now, random)
  }

  /** Reject All: essential cookies only. */
  function RejectAll(b: Banner, st: Store, now: nat, random: string): (r: (Banner, Store, ConsentPost))
    ensures var c := r.0.consent; c.essential && !c.analytics && !c.personalization
  {
    SaveConsent(b, st, Consent(true, false, false, now), now, random)
  }

  /** Save Preferences: whatever the toggles currently hold. */
  function SaveCustom(b: Banner, st: Store, now: nat, random: string): (r: (Banner, Store, ConsentPost))
    ensures r.0.consent == b.consent.(timestamp := now)
  {
    SaveConsent(b, st, b.consent, now, random)
  }

  /** What a consent record says about one option. */
  function OptionFlag(c: Consent, o: ConsentOption): bool {
    match o
    case Essential => c.essential
    case AnalyticsOption => c.analytics
    case PersonalizationOption => c.personalization
  }

  /** A toggle click: a non-required option flips, a required one is left alone. */
  function Toggle(b: Banner, o: ConsentOption): (r: Banner)
    ensures Required(o) ==> r == b
    ensures !Required(o) ==> OptionFlag(r.consent, o) == !OptionFlag(b.consent, o)
    ensures forall p | p != o :: OptionFlag(r.consent, p) == OptionFlag(b.consent, p)
    ensures r.consent.essential == b.consent.essential && r.consent.timestamp == b.consent.timestamp
    ensures r.showBanner == b.showBanner && r.showCustomize == b.showCustomize
  {
    match o
    case Essential => b
    case AnalyticsOption => b.(consent := b.consent.(analytics := !b.consent.analytics))
    case PersonalizationOption => b.(consent := b.consent.(personalization := !b.consent.personalization))
  }

  /** Toggling the same option twice restores the state. */
  lemma ToggleTwice(b: Banner, o: ConsentOption)
    ensures Toggle(Toggle(b, o), o) == b
  {
  }

  /**
   * What the banner stores is what the tracking service later reads: after a save,
   * `hasConsent` answers with the flags that were chosen.
   */
  lemma SaveThenHasConsent(b: Banner, st: Store, newConsent: Consent, now: nat, random: string)
    ensures var st1 := SaveConsent(b, st, newConsent, now, random).1;
      && HasConsent(st1, Analytics) == newConsent.analytics
      && HasConsent(st1, Personalization) == newConsent.personalization
  {
  }

  /** A reload after any save finds the banner hidden and the saved choice in force. */
  lemma SaveThenMount(b: Banner, st: Store, newConsent: Consent, now: nat, random: string, reloaded: Banner)
    ensures var (b1, st1, _) := SaveConsent(b, st, newConsent, now, random);
      OnMount(reloaded, st1).consent == b1.consent && !OnMount(reloaded, st1).showBanner
  {
  }
}

=== FILE: consent_route.dfy ===
/**
 * `/api/consent` (src/app/api/consent/route.ts): POST forwards a visitor's cookie choice to
 * the upstream `/consent` endpoint, GET fetches it back by session id.
 */
module ConsentRoute {
  import opened Wrappers
  import opened Json
  import opened Http

  const SaveFailed := "Failed to save consent preferences"
  const FetchFailedMessage := "Failed to fetch consent preferences"
  const SessionRequired := "Session ID is required"

  /** What a POST did: the body it forwarded upstream (if it got that far) and its reply. */
  datatype Posted = Posted(forwarded: Option<Json>, reply: Reply)

  /** The forwarded consent: the session id, each flag defaulted with `??`. */
  function ForwardedConsent(body: Option<Json>): Json
    requires Destructurable(body)
  {
    Obj([
      ("sessionId", Field(body, "sessionId")),
      ("essential", Coalesce(Field(body, "essential"), JBool(true))),
      ("analytics", Coalesce(Field(body, "analytics"), JBool(false))),
      ("personalization", Coalesce(Field(body, "personalization"), JBool(false)))
    ])
  }

  /** `{ success: true, consent: data.data || data.consent }`, or the TypeError on `null`. */
  function SavedReply(data: Json): (r: Option<Reply>)
    ensures r.None? <==> Nullish(data)
    ensures r.Some? ==> r.value.status == 200
  {
    match Prop(data, "data")
    case None => None
    case Some(d) => Some(Reply(200, Obj([("success", JBool(true)), ("consent", Or(d, Prop(data, "consent").value))])))
  }

  /** POST: a missing session id is refused before anything is sent upstream. */
  function Post(body: Option<Json>, up: Upstream): (r: Posted)
    ensures !Destructurable(body) ==> r == Posted(None, ErrorReply(500, SaveFailed))
    ensures Destructurable(body) && !Truthy(Field(body, "sessionId")) ==>
      r == Posted(None, ErrorReply(400, SessionRequired))
    ensures Destructurable(body) && Truthy(Field(body, "sessionId")) ==>
      r.forwarded == Some(ForwardedConsent(body))
    ensures r.forwarded.Some? && up.Answered? && up.data.Some? && !Nullish(up.data.value) ==>
      r.reply.status == (if Ok(up.status) then 200 else up.status)
    ensures r.forwarded.Some? && up.Answered? && up.data.Some? && !Nullish(up.data.value) && !Ok(up.status) ==>
      r.reply == UpstreamError(up.status, up.data.value, SaveFailed).value
    ensures r.forwarded.Some? && (up.FetchFailed? || up.data.None? || Nullish(up.data.value)) ==>
      r.reply == ErrorReply(500, SaveFailed)
  {
    if !Destructurable(body) then Posted(None, ErrorReply(500, SaveFailed))
    else if !Truthy(Field(body, "sessionId")) then Posted(None, ErrorReply(400, SessionRequired))
    else
      var reply := match up
        case FetchFailed => ErrorReply(500, SaveFailed)
        case Answered(_, None) => ErrorReply(500, SaveFailed)
        case Answered(status, Some(data)) =>
          if !Ok(status) then OrCrash(UpstreamError(status, data, SaveFailed), SaveFailed)
          else OrCrash(SavedReply(data), SaveFailed);
      Posted(Some(ForwardedConsent(body)), reply)
  }

  /**
   * The flags reach the upstream as `??` leaves them: `null` or missing becomes essential
   * `true` and the others `false`, while any other value, `false` and `0` included, is
   * forwarded as given.
   */
  lemma PostDefaultsFlags(body: Option<Json>, up: Upstream)
    requires Destructurable(body) && Truthy(Field(body, "sessionId"))
    ensures var f := Post(body, up).forwarded.value;
      && Prop(f, "sessionId") == Some(Field(body, "sessionId"))
      && Prop(f, "essential") == Some(if Nullish(Field(body, "essential")) then JBool(true) else Field(body, "essential"))
      && Prop(f, "analytics") == Some(if Nullish(Field(body, "analytics")) then JBool(false) else Field(body, "analytics"))
      && Prop(f, "personalization") == Some(if Nullish(Field(body, "personalization")) then JBool(false) else Field(body, "personalization"))
  {
    var kvs := [
      ("sessionId", Field(body, "sessionId")),
      ("essential", Coalesce(Field(body, "essential"), JBool(true))),
      ("analytics", Coalesce(Field(body, "analytics"), JBool(false))),
      ("personalization", Coalesce(Field(body, "personalization"), JBool(false)))
    ];
    ObjGet(kvs, 0);
    ObjGet(kvs, 1);
    ObjGet(kvs, 2);
    ObjGet(kvs, 3);
  }

  /** An explicit `essential: false` is forwarded as `false`; `||` would have turned it into `true`. */
  lemma PostKeepsExplicitFalse(body: Option<Json>, up: Upstream)
    requires Destructurable(body) && Truthy(Field(body, "sessionId"))
    requires Field(body, "essential") == JBool(false)
    ensures Prop(Post(body, up).forwarded.value, "essential") == Some(JBool(false))
    ensures Or(Field(body, "essential"), JBool(true)) == JBool(true)
  {
    PostDefaultsFlags(body, up);
  }

  /** A successful POST echoes the saved record: `data.data`, else `data.consent`. */
  lemma PostSuccessBody(body: Option<Json>, status: int, data: Json)
    requires Destructurable(body) && Truthy(Field(body, "sessionId"))
    requires Ok(status) && !Nullish(data)
    ensures var reply := Post(body, Answered(status, Some(data))).reply;
      && reply.status == 200
      && Prop(reply.body, "success") == Some(JBool(true))
      && Prop(reply.body, "consent") == Some(Or(Prop(data, "data").value, Prop(data, "consent").value))
  {
    var kvs := [("success", JBool(true)), ("consent", Or(Prop(data, "data").value, Prop(data, "consent").value))];
    ObjGet(kvs, 0);
    ObjGet(kvs, 1);
  }

  /** What a GET did: the session id it put in the upstream path (if any) and its reply. */
  datatype Fetched = Fetched(requested: Option<string>, reply: Reply)

  /**
   * GET: `searchParams.get('sessionId')` is `None` when absent. An upstream 404 means "no
   * consent yet" and answers 200 with `consent: null`.
   */
  function Get(sessionId: Option<string>, up: Upstream): (r: Fetched)
    ensures sessionId.None? || sessionId == Some("") ==> r == Fetched(None, ErrorReply(400, SessionRequired))
    ensures sessionId.Some? && sessionId.value != "" ==> r.requested == sessionId
    ensures r.requested.Some? && up.Answered? && up.data.Some? && up.status == 404 ==>
      r.reply == Reply(200, Obj([("consent", JNull)]))
    ensures r.requested.Some? && up.Answered? && up.data.Some? && !Nullish(up.data.value) ==>
      r.reply.status == (if Ok(up.status) || up.status == 404 then 200 else up.status)
    ensures r.requested.Some? && up.Answered? && up.data.Some? && !Nullish(up.data.value) && !Ok(up.status) && up.status != 404 ==>
      r.reply == UpstreamError(up.status, up.data.value, FetchFailedMessage).value
    ensures r.requested.Some? && (up.FetchFailed? || up.data.None?) ==>
      r.reply == ErrorReply(500, FetchFailedMessage)
    ensures r.requested.Some? && up.Answered? && Ok(up.status) && up.data.Some? && !Nullish(up.data.value) ==>
      r.reply == Reply(200, Obj([("consent", Or(Prop(up.data.value, "data").value, Prop(up.data.value, "consent").value))]))
    ensures r.requested.Some? && up.Answered? && Ok(up.status) && up.data.Some? && Nullish(up.data.value) ==>
      r.reply == ErrorReply(500, FetchFailedMessage)
  {
    if sessionId.None? || sessionId.value == "" then Fetched(None, ErrorReply(400, SessionRequired))
    else
      var reply := match up
        case FetchFailed => ErrorReply(500, FetchFailedMessage)
        case Answered(_, None) => ErrorReply(500, FetchFailedMessage)
        case Answered(status, Some(data)) =>
          if !Ok(status) then
            if status == 404 then Reply(200, Obj([("consent", JNull)]))
            else OrCrash(UpstreamError(status, data, FetchFailedMessage), FetchFailedMessage)
          else
            match Prop(data, "data")
            case None => ErrorReply(500, FetchFailedMessage)
            case Some(d) => Reply(200, Obj([("consent", Or(d, Prop(data, "consent").value))]));
      Fetched(sessionId, reply)
  }

  /** A 404 answers `consent: null`, whatever JSON body the upstream sent with it. */
  lemma GetNotFoundIsNull(sessionId: string, data: Json)
    requires sessionId != ""
    ensures var reply := Get(Some(sessionId), Answered(404, Some(data))).reply;
      reply.status == 200 && Prop(reply.body, "consent") == Some(JNull)
  {
    ObjGet([("consent", JNull)], 0);
  }

  /** A successful GET answers the stored record: `data.data`, else `data.consent`. */
  lemma GetSuccessBody(sessionId: string, status: int, data: Json)
    requires sessionId != ""
    requires Ok(status) && !Nullish(data)
    ensures var reply := Get(Some(sessionId), Answered(status, Some(data))).reply;
      && reply.status == 200
      && Prop(reply.body, "consent") == Some(Or(Prop(data, "data").value, Prop(data, "consent").value))
  {
    ObjGet([("consent", Or(Prop(data, "data").value, Prop(data, "consent").value))], 0);
  }
}

=== FILE: contact_route.dfy ===
/**
 * `POST /api/contact` (src/app/api/contact/route.ts): checks the contact form, forwards it
 * to the upstream `/contact-messages`, and on success optionally subscribes the sender to
 * the newsletter without letting that second call affect the answer.
 */
module ContactRoute {
  import opened Wrappers
  import opened Text
  import opened Json
  import opened Http

  const Required := "Name, email, and message are required"
  const InvalidEmail := "Invalid email format"
  const Failed := "Failed to submit contact form"
  const Subject := "Contact Form Submission"

  /** What the handler did: the contact message and newsletter body it sent, and its reply. */
  datatype Submitted = Submitted(forwarded: Option<Json>, newsletter: Option<Json>, reply: Reply)

  /**
   * `phone && phone.trim() !== '' ? phone : undefined`: a falsy or blank phone becomes
   * `undefined`; a truthy value without `trim` (a number, `true`, an array or object)
   * throws, given as `None`.
   */
  function Phone(phone: Json): (r: Option<Json>)
    ensures !Truthy(phone) ==> r == Some(JUndefined)
    ensures Truthy(phone) && phone.JStr? ==> r == Some(if Trim(phone.s) == "" then JUndefined else phone)
    ensures Truthy(phone) && !phone.JStr? ==> r.None?
  {
    if !Truthy(phone) then Some(JUndefined)
    else if phone.JStr? then Some(if Trim(phone.s) != "" then phone else JUndefined)
    else None
  }

  function ForwardedMessage(body: Option<Json>, phone: Json): Json
    requires Destructurable(body)
  {
    Obj([
      ("name", Field(body, "name")),
      ("email", Field(body, "email")),
      ("phone", phone),
      ("subject", JStr(Subject)),
      ("message", Field(body, "message"))
    ])
  }

  /** The first check: name, e-mail and message are all truthy. */
  predicate HasRequired(body: Option<Json>)
    requires Destructurable(body)
  {
    Truthy(Field(body, "name")) && Truthy(Field(body, "email")) && Truthy(Field(body, "message"))
  }

  /** The form passes both checks: the three required fields, then the e-mail's shape. */
  predicate Valid(body: Option<Json>) {
    Destructurable(body) && HasRequired(body) && EmailAccepted(Field(body, "email"))
  }

  /**
   * The newsletter call goes out exactly when the contact message was accepted upstream
   * (a 2xx with a JSON body) and `subscribeNewsletter` is truthy; its outcome is ignored.
   */
  function Post(body: Option<Json>, up: Upstream): (r: Submitted)
    ensures !Destructurable(body) ==> r == Submitted(None, None, ErrorReply(500, Failed))
    ensures Destructurable(body) && !HasRequired(body) ==> r == Submitted(None, None, ErrorReply(400, Required))
    ensures Destructurable(body) && HasRequired(body) && !EmailAccepted(Field(body, "email")) ==>
      r == Submitted(None, None, ErrorReply(400, InvalidEmail))
    ensures Valid(body) && Phone(Field(body, "phone")).None? ==> r == Submitted(None, None, ErrorReply(500, Failed))
    ensures r.forwarded.Some? <==> Valid(body) && Phone(Field(body, "phone")).Some?
    ensures r.forwarded.Some? ==> r.reply == FormAnswer(up, Failed)
    ensures r.newsletter.Some? <==>
      (r.forwarded.Some? && up.Answered? && up.data.Some? && Ok(up.status) && Truthy(Field(body, "subscribeNewsletter")))
    ensures r.newsletter.Some? ==> r.newsletter.value == Obj([("email", Field(body, "email"))])
  {
    if !Destructurable(body) then Submitted(None, None, ErrorReply(500, Failed))
    else if !HasRequired(body) then Submitted(None, None, ErrorReply(400, Required))
    else if !EmailAccepted(Field(body, "email")) then Submitted(None, None, ErrorReply(400, InvalidEmail))
    else match Phone(Field(body, "phone"))
      case None => Submitted(None, None, ErrorReply(500, Failed))
      case Some(phone) =>
        var subscribed := up.Answered? && up.data.Some? && Ok(up.status) && Truthy(Field(body, "subscribeNewsletter"));
        var newsletter := if subscribed then Some(Obj([("email", Field(body, "email"))])) else None;
        Submitted(Some(ForwardedMessage(body, phone)), newsletter, FormAnswer(up, Failed))
  }

  /** The forwarded message carries the fixed subject, and a blank phone is left out. */
  lemma PostSubjectAndPhone(body: Option<Json>, up: Upstream)
    requires Valid(body) && Field(body, "phone").JStr?
    ensures var f := Post(body, up).forwarded.value;
      && Prop(f, "subject") == Some(JStr(Subject))
      && (Trim(Field(body, "phone").s) == "" ==> Prop(f, "phone") == Some(JUndefined))
      && (Trim(Field(body, "phone").s) != "" ==> Prop(f, "phone") == Some(Field(body, "phone")))
  {
    var phone := Phone(Field(body, "phone")).value;
    var kvs := [
      ("name", Field(body, "name")),
      ("email", Field(body, "email")),
      ("phone", phone),
      ("subject", JStr(Subject)),
      ("message", Field(body, "message"))
    ];
    ObjGet(kvs, 2);
    ObjGet(kvs, 3);
  }

  /**
   * Subscribing to the newsletter changes what is sent, never the answer: two bodies that
   * differ only in `subscribeNewsletter` get the same reply.
   */
  lemma NewsletterDoesNotChangeReply(body: Option<Json>, flag: Json, up: Upstream)
    requires Destructurable(body) && body.value.JObj?
    ensures var other := Some(JObj(body.value.fields["subscribeNewsletter" := flag]));
      Post(body, up).reply == Post(other, up).reply
  {
    var other := Some(JObj(body.value.fields["subscribeNewsletter" := flag]));
    assert forall k | k != "subscribeNewsletter" :: Field(other, k) == Field(body, k);
    assert Field(other, "phone") == Field(body, "phone");
  }
}

=== FILE: destinations.dfy ===
/**
 * The destinations page (src/app/destinations/page.tsx): of the destinations the API
 * returns, the active ones that have hotels, most hotels first, each as a card whose
 * missing image is replaced by a placeholder.
 */
module Destinations {
  import opened Wrappers
  import opened Lists

  const PagePlaceholder := "https://picsum.photos/600/400?random=50"

  /** A destination as the API lists it; `imageUrl` is `None` for `null` or absent. */
  datatype Destination = Destination(
    id: string,
    name: string,
    slug: string,
    imageUrl: Option<string>,
    hotelCount: int,
    isActive: bool)

  datatype Card = Card(id: string, name: string, slug: string, hotelCount: int, imageUrl: string)

  /** `d.isActive && d.hotelCount > 0`. */
  predicate Listed(d: Destination) {
    d.isActive && d.hotelCount > 0
  }

  function CountKey(d: Destination): real {
    d.hotelCount as real
  }

  /** `url || placeholder`: an absent or empty URL gives the placeholder. */
  function ImageOr(url: Option<string>, placeholder: string): (r: string)
    ensures url.Some? && url.value != "" ==> r == url.value
    ensures url.None? || url.value == "" ==> r == placeholder
    ensures placeholder != "" ==> r != ""
  {
    if url.Some? && url.value != "" then url.value else placeholder
  }

  /** The listed destinations, most hotels first; ties keep the API's order. */
  function Ranked(ds: seq<Destination>): (r: seq<Destination>)
    ensures multiset(r) == multiset(Filter(ds, Listed))
    ensures forall i, j | 0 <= i < j < |r| :: r[i].hotelCount >= r[j].hotelCount
  {
    var r := SortByDescending(Filter(ds, Listed), CountKey);
    assert forall i, j | 0 <= i < j < |r| :: CountKey(r[i]) >= CountKey(r[j]);
    r
  }

  /** Ties keep the API's order: the listed destinations with any one hotel count come in input order. */
  lemma RankedStable(ds: seq<Destination>, count: int)
    ensures WithKey(Ranked(ds), CountKey, count as real) == WithKey(Filter(ds, Listed), CountKey, count as real)
  {
    SortByDescendingStable(Filter(ds, Listed), CountKey, count as real);
  }

  /** Every ranked destination is a listed one of the input, and every listed one is ranked. */
  lemma RankedSelects(ds: seq<Destination>)
    ensures |Ranked(ds)| <= |ds|
    ensures forall d :: d in Ranked(ds) <==> d in ds && Listed(d)
  {
    var kept := Filter(ds, Listed);
    var r := Ranked(ds);
    FilterSpec(ds, Listed);
    assert |r| == |multiset(r)| == |multiset(kept)| == |kept|;
    forall d ensures d in r <==> d in kept {
      assert d in r <==> d in multiset(r);
      assert d in kept <==> d in multiset(kept);
    }
  }

  function ToCard(d: Destination): Card {
    Card(d.id, d.name, d.slug, d.hotelCount, ImageOr(d.imageUrl, PagePlaceholder))
  }

  /** The cards the page shows, in order. */
  function Cards(ds: seq<Destination>): (r: seq<Card>)
    ensures |r| == |Ranked(ds)|
    ensures forall i | 0 <= i < |r| :: r[i] == ToCard(Ranked(ds)[i])
  {
    var ranked := Ranked(ds);
    seq(|ranked|, i requires 0 <= i < |ranked| => ToCard(ranked[i]))
  }

  /**
   * The page shows a card for exactly the listed destinations, no more cards than
   * destinations, most hotels first, and never an empty image.
   */
  lemma CardsSpec(ds: seq<Destination>)
    ensures var r := Cards(ds);
      && |r| <= |ds|
      && (forall i | 0 <= i < |r| :: r[i].hotelCount > 0 && r[i].imageUrl != "")
      && (forall i, j | 0 <= i < j < |r| :: r[i].hotelCount >= r[j].hotelCount)
      && (forall d | d in ds && Listed(d) :: ToCard(d) in r)
      && (forall i | 0 <= i < |r| :: exists d :: d in ds && Listed(d) && r[i] == ToCard(d))
  {
    var ranked := Ranked(ds);
    var r := Cards(ds);
    RankedSelects(ds);
    forall d | d in ds && Listed(d) ensures ToCard(d) in r {
      var k :| 0 <= k < |ranked| && ranked[k] == d;
      assert r[k] == ToCard(d);
    }
    forall i | 0 <= i < |r| ensures exists d :: d in ds && Listed(d) && r[i] == ToCard(d) {
      assert ranked[i] in ranked;
    }
  }

  /** `hotelCount === 1 ? 'Property' : 'Properties'`. */
  function CountLabel(hotelCount: int): (r: string)
    ensures r == "Property" <==> hotelCount == 1
    ensures r == "Properties" <==> hotelCount != 1
  {
    if hotelCount == 1 then "Property" else "Properties"
  }
}

=== FILE: email.dfy ===
/**
 * The e-mail check shared by the contact, newsletter, angel and inquiry routes: the pattern
 * `^[^\s@]+@[^\s@]+\.[^\s@]+$`, once as the pattern reads and once as a scan a program
 * would run, with a proof that the two accept the same strings.
 */
module Email {
  import opened Text

  /** One run of the class `[^\s@]+`: non-empty, no white space, no `@`. */
  predicate Atom(s: string) {
    |s| > 0 && forall k | 0 <= k < |s| :: !IsSpace(s[k]) && s[k] != '@'
  }

  /**
   * The pattern as written: some `@` at `i` and some `.` at `j` cut the string into three
   * atoms. Backtracking lets the `.` be any dot of the part after the `@`.
   */
  ghost predicate MatchesPattern(s: string) {
    exists i, j | 0 < i && i + 1 < j && j + 1 < |s| ::
      && s[i] == '@' && s[j] == '.'
      && Atom(s[..i]) && Atom(s[i + 1..j]) && Atom(s[j + 1..])
  }

  /** The index of the first `c` in `s`, or `|s|` when there is none. */
  function IndexOf(s: string, c: char): (r: nat)
    ensures r <= |s|
    ensures r < |s| ==> s[r] == c
    ensures forall k | 0 <= k < r :: s[k] != c
  {
    if |s| == 0 then 0
    else if s[0] == c then 0
    else 1 + IndexOf(s[1..], c)
  }

  /** A domain with a dot somewhere strictly inside it. */
  predicate InnerDot(d: string) {
    |d| >= 3 && '.' in d[1..|d| - 1]
  }

  /**
   * The scan: no white space anywhere, a first `@` that is not the first character, no
   * second `@`, and a dot strictly inside the domain.
   */
  predicate IsEmail(s: string) {
    var i := IndexOf(s, '@');
    && NoSpace(s)
    && 0 < i < |s|
    && '@' !in s[i + 1..]
    && InnerDot(s[i + 1..])
  }

  /** The scan accepts exactly the strings the pattern matches. */
  lemma IsEmailMatchesPattern(s: string)
    ensures IsEmail(s) <==> MatchesPattern(s)
  {
    if IsEmail(s) {
      PatternOfScan(s);
    }
    if MatchesPattern(s) {
      var i, j :| 0 < i && i + 1 < j && j + 1 < |s|
                  && s[i] == '@' && s[j] == '.'
                  && Atom(s[..i]) && Atom(s[i + 1..j]) && Atom(s[j + 1..]);
      ScanOfPattern(s, i, j);
    }
  }

  lemma PatternOfScan(s: string)
    requires IsEmail(s)
    ensures MatchesPattern(s)
  {
    var i := IndexOf(s, '@');
    var d := s[i + 1..];
    var inner := d[1..|d| - 1];
    var m :| 0 <= m < |inner| && inner[m] == '.';
    var j := i + 2 + m;
    assert inner[m] == d[m + 1];
    assert d[m + 1] == s[j];
    forall k | i + 1 <= k < |s| ensures s[k] != '@' {
      assert s[k] == d[k - i - 1];
    }
    AtomSlice(s, 0, i);
    AtomSlice(s, i + 1, j);
    AtomSlice(s, j + 1, |s|);
    assert s[0..i] == s[..i];
  }

  /** A non-empty stretch of a white-space-free string without `@` is an atom. */
  lemma AtomSlice(s: string, lo: nat, hi: nat)
    requires NoSpace(s) && lo < hi <= |s|
    requires forall k | lo <= k < hi :: s[k] != '@'
    ensures Atom(s[lo..hi])
  {
    assert forall k | 0 <= k < hi - lo :: s[lo..hi][k] == s[lo + k];
  }

  lemma ScanOfPattern(s: string, i: nat, j: nat)
    requires 0 < i && i + 1 < j && j + 1 < |s| && s[i] == '@' && s[j] == '.'
    requires Atom(s[..i]) && Atom(s[i + 1..j]) && Atom(s[j + 1..])
    ensures IsEmail(s)
  {
    forall k | 0 <= k < |s| && k != i ensures !IsSpace(s[k]) && s[k] != '@' {
      if k < i {
        assert s[k] == s[..i][k];
      } else if k < j {
        assert s[k] == s[i + 1..j][k - i - 1];
      } else if k > j {
        assert s[k] == s[j + 1..][k - j - 1];
      }
    }
    assert IndexOf(s, '@') == i;
    var d := s[i + 1..];
    assert d[1..|d| - 1][j - i - 2] == s[j];
  }
}

=== FILE: experience.dfy ===
/**
 * The home page selector (src/components/ExperienceSelector.tsx): the status line for the
 * local hour, the featured destinations and styles taken from the API, the description
 * shortening, the style link, and the destination buttons.
 */
module Experience {
  import opened Wrappers
  import opened Text
  import opened Lists
  import opened Destinations

  const GoldenDawn := "Golden hour begins..."
  const Morning := "Morning light bathes the city"
  const Midday := "The sun shines bright"
  const GoldenDusk := "Golden hour magic"
  const Twilight := "Twilight descends"
  const Night := "Stars illuminate the night"
  const Fallback := "A beautiful moment"

  const FeaturedPlaceholder := "https://picsum.photos/600/400"
  const FeaturedCount := 4
  const DescriptionLimit := 120

  /**
   * `getSunMoonStatus(hour)`, where the hour comes from `parseInt`; `None` is NaN, for which
   * every comparison is false. The bands cover every integer, so only NaN reaches the
   * fallback.
   */
  function SunMoonStatus(hour: Option<int>): (r: string)
    ensures r == GoldenDawn <==> hour.Some? && 5 <= hour.value < 7
    ensures r == Morning <==> hour.Some? && 7 <= hour.value < 12
    ensures r == Midday <==> hour.Some? && 12 <= hour.value < 17
    ensures r == GoldenDusk <==> hour.Some? && 17 <= hour.value < 19
    ensures r == Twilight <==> hour.Some? && 19 <= hour.value < 21
    ensures r == Night <==> hour.Some? && (hour.value >= 21 || hour.value < 5)
    ensures r == Fallback <==> hour.None?
  {
    match hour
    case None => Fallback
    case Some(h) =>
      if 5 <= h < 7 then GoldenDawn
      else if 7 <= h < 12 then Morning
      else if 12 <= h < 17 then Midday
      else if 17 <= h < 19 then GoldenDusk
      else if 19 <= h < 21 then Twilight
      else if h >= 21 || h < 5 then Night
      else Fallback
  }

  /** A featured destination card; temperature and coordinates are fixed placeholders. */
  datatype Featured = Featured(
    id: string,
    name: string,
    slug: string,
    country: string,
    imageUrl: string,
    temp: int,
    lat: real,
    lng: real,
    description: string)

  const PlaceholderTemp := 20

  /** `property` for one hotel, `properties` otherwise. */
  function Noun(hotelCount: int): (r: string)
    ensures r == "property" <==> hotelCount == 1
  {
    if hotelCount == 1 then "property" else "properties"
  }

  /** `Discover ${n} luxury ${noun} in ${name}`, for a count the filter has kept positive. */
  function Blurb(name: string, hotelCount: nat): (r: string)
    ensures |r| > 9 + 4 + |name| && r[..9] == "Discover "
    ensures r[|r| - |name| - 4..] == " in " + name
    ensures hotelCount == 1 <==> r[..|r| - |name| - 4] == "Discover 1 luxury property"
  {
    var head := "Discover " + NatToString(hotelCount) + " luxury " + Noun(hotelCount);
    var tail := " in " + name;
    BlurbOpening(hotelCount);
    assert (head + tail)[..|head|] == head && (head + tail)[|head|..] == tail;
    head + tail
  }

  /** The blurb before the name is the singular phrase exactly for one hotel. */
  lemma BlurbOpening(hotelCount: nat)
    ensures var head := "Discover " + NatToString(hotelCount) + " luxury " + Noun(hotelCount);
      |head| > 9 && head[..9] == "Discover " && (hotelCount == 1 <==> head == "Discover 1 luxury property")
  {
    var head := "Discover " + NatToString(hotelCount) + " luxury " + Noun(hotelCount);
    if hotelCount == 1 {
      assert NatToString(1) == "1";
    } else {
      assert |head| >= 9 + 1 + 8 + 10;
    }
  }

  /** The blurb opens with the hotel count, which `parseInt` reads back from it. */
  lemma BlurbStatesCount(name: string, hotelCount: nat)
    ensures var b := Blurb(name, hotelCount);
      |b| > 9 && b[..9] == "Discover " && ParseInt(b[9..]) == Some(hotelCount as int)
  {
    var b := Blurb(name, hotelCount);
    var rest := " luxury " + Noun(hotelCount) + " in " + name;
    assert b == "Discover " + (NatToString(hotelCount) + rest);
    assert b[9..] == NatToString(hotelCount) + rest;
    ParseIntOfRenderedThen(hotelCount, rest);
  }

  /** The four destinations with most hotels among the listed ones: a prefix of the stable ranking. */
  function TopDestinations(ds: seq<Destination>): (r: seq<Destination>)
    ensures |r| <= |Ranked(ds)| && r == Ranked(ds)[..|r|]
    ensures |r| == if |Ranked(ds)| < FeaturedCount then |Ranked(ds)| else FeaturedCount
  {
    SliceTo(Ranked(ds), FeaturedCount)
  }

  /**
   * At most four destinations are featured, all listed, most hotels first, and no listed
   * destination left out has more hotels than one featured.
   */
  lemma TopDestinationsSpec(ds: seq<Destination>)
    ensures var r := TopDestinations(ds);
      && |r| <= FeaturedCount
      && (forall d | d in r :: d in ds && Listed(d))
      && (forall i, j | 0 <= i < j < |r| :: r[i].hotelCount >= r[j].hotelCount)
      && (forall d, i | d in ds && Listed(d) && d !in r && 0 <= i < |r| :: d.hotelCount <= r[i].hotelCount)
  {
    var kept := Filter(ds, Listed);
    var r := TopDestinations(ds);
    RankedSelects(ds);
    assert r == SliceTo(SortByDescending(kept, CountKey), FeaturedCount);
    forall d, i | d in ds && Listed(d) && d !in r && 0 <= i < |r| ensures d.hotelCount <= r[i].hotelCount {
      FilterSpec(ds, Listed);
      TopOfDescending(kept, CountKey, FeaturedCount, d, i);
    }
  }

  /** The card of one featured destination: its name doubles as the country. */
  function ToFeatured(d: Destination): (r: Featured)
    requires Listed(d)
    ensures r.id == d.id && r.name == d.name && r.slug == d.slug && r.country == d.name
    ensures r.temp == 20 && r.lat == 0.0 && r.lng == 0.0
    ensures r.imageUrl != ""
    ensures d.imageUrl.Some? && d.imageUrl.value != "" ==> r.imageUrl == d.imageUrl.value
    ensures d.imageUrl.None? || d.imageUrl.value == "" ==> r.imageUrl == FeaturedPlaceholder
    ensures r.description == Blurb(d.name, d.hotelCount)
    ensures |r.description| > 9 && r.description[..9] == "Discover "
    ensures ParseInt(r.description[9..]) == Some(d.hotelCount)
  {
    BlurbStatesCount(d.name, d.hotelCount);
    Featured(d.id, d.name, d.slug, d.name, ImageOr(d.imageUrl, FeaturedPlaceholder), PlaceholderTemp, 0.0, 0.0,
      Blurb(d.name, d.hotelCount))
  }

  function FeaturedDestinations(ds: seq<Destination>): (r: seq<Featured>)
    ensures |r| == |TopDestinations(ds)|
    ensures forall i | 0 <= i < |r| :: Listed(TopDestinations(ds)[i])
    ensures forall i | 0 <= i < |r| :: r[i] == ToFeatured(TopDestinations(ds)[i])
    ensures forall i | 0 <= i < |r| :: r[i].id == TopDestinations(ds)[i].id
  {
    var top := TopDestinations(ds);
    RankedSelects(ds);
    seq(|top|, i requires 0 <= i < |top| => ToFeatured(top[i]))
  }

  /**
   * The showcase after the two parallel fetches. `read` says that both fetches resolved and
   * both bodies parsed as JSON; otherwise the shared `catch` runs before any update. Then
   * `if (res.ok && data.data?.items)`: a readable list replaces the showcase, even an empty
   * one (an empty array is truthy); otherwise the showcase stays as it was.
   */
  function ShowcaseAfterLoad(current: seq<Featured>, read: bool, ok: bool, items: Option<seq<Destination>>): (r: seq<Featured>)
    ensures read && ok && items.Some? ==> r == FeaturedDestinations(items.value)
    ensures read && ok && items == Some([]) ==> r == []
    ensures !read || !ok || items.None? ==> r == current
  {
    if read && ok && items.Some? then FeaturedDestinations(items.value) else current
  }

  /** A travel style as the API lists it. */
  datatype Style = Style(id: string, name: string, imageUrl: Option<string>, hotelCount: int, isActive: bool)

  datatype StyleCard = StyleCard(id: string, name: string, imageUrl: string, count: int)

  predicate Active(s: Style) { s.isActive }

  function StyleCountKey(s: Style): real { s.hotelCount as real }

  /** The four active styles with most hotels; unlike destinations, empty styles qualify. */
  function TopStyles(ss: seq<Style>): (r: seq<Style>)
    ensures |r| <= FeaturedCount
    ensures |r| == if |Filter(ss, Active)| < FeaturedCount then |Filter(ss, Active)| else FeaturedCount
    ensures |r| <= |SortByDescending(Filter(ss, Active), StyleCountKey)|
    ensures r == SortByDescending(Filter(ss, Active), StyleCountKey)[..|r|]
    ensures forall i, j | 0 <= i < j < |r| :: r[i].hotelCount >= r[j].hotelCount
  {
    var sorted := SortByDescending(Filter(ss, Active), StyleCountKey);
    var r := SliceTo(sorted, FeaturedCount);
    assert forall i | 0 <= i < |r| :: r[i] == sorted[i];
    assert forall i, j | 0 <= i < j < |r| :: StyleCountKey(r[i]) >= StyleCountKey(r[j]);
    r
  }

  /**
   * Every featured style is an active one of the input; an active style left out has no more
   * hotels than any featured one; when at most four styles are active, all are featured, and
   * otherwise exactly four are.
   */
  lemma TopStylesSpec(ss: seq<Style>)
    ensures var r := TopStyles(ss);
      && (forall s | s in r :: s in ss && s.isActive)
      && (forall s, i | s in ss && s.isActive && s !in r && 0 <= i < |r| :: s.hotelCount <= r[i].hotelCount)
      && (|Filter(ss, Active)| <= FeaturedCount ==> forall s | s in ss && s.isActive :: s in r)
      && (|Filter(ss, Active)| >= FeaturedCount ==> |r| == FeaturedCount)
  {
    TopStylesFromInput(ss);
    TopStylesLeftOut(ss);
    if |Filter(ss, Active)| <= FeaturedCount {
      TopStylesAllWhenFew(ss);
    }
  }

  lemma TopStylesFromInput(ss: seq<Style>)
    ensures forall s | s in TopStyles(ss) :: s in ss && s.isActive
  {
    var kept := Filter(ss, Active);
    var sorted := SortByDescending(kept, StyleCountKey);
    FilterSpec(ss, Active);
    assert TopStyles(ss) == SliceTo(sorted, FeaturedCount);
    forall s | s in TopStyles(ss) ensures s in ss && s.isActive {
      assert s in sorted;
      assert s in multiset(sorted);
      assert s in multiset(kept);
    }
  }

  lemma TopStylesLeftOut(ss: seq<Style>)
    ensures var r := TopStyles(ss);
      forall s, i | s in ss && s.isActive && s !in r && 0 <= i < |r| :: s.hotelCount <= r[i].hotelCount
  {
    var kept := Filter(ss, Active);
    var r := TopStyles(ss);
    FilterSpec(ss, Active);
    assert r == SliceTo(SortByDescending(kept, StyleCountKey), FeaturedCount);
    forall s, i | s in ss && s.isActive && s !in r && 0 <= i < |r| ensures s.hotelCount <= r[i].hotelCount {
      TopOfDescending(kept, StyleCountKey, FeaturedCount, s, i);
    }
  }

  lemma TopStylesAllWhenFew(ss: seq<Style>)
    requires |Filter(ss, Active)| <= FeaturedCount
    ensures forall s | s in ss && s.isActive :: s in TopStyles(ss)
  {
    var kept := Filter(ss, Active);
    var sorted := SortByDescending(kept, StyleCountKey);
    var r := TopStyles(ss);
    FilterSpec(ss, Active);
    assert |sorted| == |multiset(sorted)| == |multiset(kept)| == |kept|;
    assert r == sorted;
    forall s | s in ss && s.isActive ensures s in r {
      assert s in multiset(kept);
      assert s in multiset(sorted);
    }
  }

  function FeaturedStyles(ss: seq<Style>): (r: seq<StyleCard>)
    ensures |r| == |TopStyles(ss)|
    ensures forall i | 0 <= i < |r| :: r[i].id == TopStyles(ss)[i].id && r[i].count == TopStyles(ss)[i].hotelCount
    ensures forall i | 0 <= i < |r| :: r[i].name == TopStyles(ss)[i].name
    ensures forall i | 0 <= i < |r| :: r[i].imageUrl == ImageOr(TopStyles(ss)[i].imageUrl, FeaturedPlaceholder)
    ensures forall i | 0 <= i < |r| :: r[i].imageUrl != ""
  {
    var top := TopStyles(ss);
    seq(|top|, i requires 0 <= i < |top| =>
      StyleCard(top[i].id, top[i].name, ImageOr(top[i].imageUrl, FeaturedPlaceholder), top[i].hotelCount))
  }

  /** `desc.length > 120 ? desc.substring(0, 120) + "..." : desc`. */
  function Shorten(desc: string): (r: string)
    ensures |desc| <= DescriptionLimit ==> r == desc
    ensures |desc| > DescriptionLimit ==> |r| == DescriptionLimit + 3 && r[..DescriptionLimit] == desc[..DescriptionLimit] && r[DescriptionLimit..] == "..."
  {
    if |desc| > DescriptionLimit then desc[..DescriptionLimit] + "..." else desc
  }

  /**
   * Shortening keeps the text's beginning, never exceeds 123 characters, and is stable:
   * shortening a shortened description changes nothing.
   */
  lemma ShortenIdempotent(desc: string)
    ensures |Shorten(desc)| <= DescriptionLimit + 3
    ensures IsPrefixOf(Shorten(desc)[..if |desc| < DescriptionLimit then |desc| else DescriptionLimit], desc)
    ensures Shorten(Shorten(desc)) == Shorten(desc)
  {
    var r := Shorten(desc);
    if |desc| > DescriptionLimit {
      assert r[..DescriptionLimit] + "..." == r;
    }
  }

  /** The link of a style card: `/styles/` then the name lower-cased, space runs hyphenated. */
  function StyleHref(name: string): (r: string)
    ensures |r| >= 8 && r[..8] == "/styles/"
    ensures forall i | 8 <= i < |r| :: !IsSpace(r[i]) && !IsUpperAlpha(r[i])
  {
    var path := HyphenateSpaces(ToLower(name));
    ToLowerIdempotent(name);
    assert forall i | 0 <= i < |path| :: !IsUpperAlpha(path[i]) by {
      forall i | 0 <= i < |path| ensures !IsUpperAlpha(path[i]) {
        if path[i] != '-' {
          var k :| 0 <= k < |ToLower(name)| && ToLower(name)[k] == path[i];
        }
      }
    }
    "/styles/" + path
  }

  lemma ToLowerKeepsSpaces(s: string)
    ensures forall i | 0 <= i < |s| :: IsSpace(ToLower(s)[i]) <==> IsSpace(s[i])
  {
  }

  /**
   * A space-free word followed by a run of white space of any length and mix gives the word
   * lower-cased, one hyphen, and the rest's path; a single word is only lower-cased.
   */
  lemma StyleHrefOfRuns(a: string, w: string, b: string)
    requires NoSpace(a)
    requires |w| > 0 && forall i | 0 <= i < |w| :: IsSpace(w[i])
    requires |b| > 0 ==> !IsSpace(b[0])
    ensures StyleHref(a) == "/styles/" + ToLower(a)
    ensures StyleHref(a + w + b) == StyleHref(a) + "-" + HyphenateSpaces(ToLower(b))
  {
    var la, lw, lb := ToLower(a), ToLower(w), ToLower(b);
    ToLowerKeepsSpaces(a);
    ToLowerKeepsSpaces(w);
    ToLowerKeepsSpaces(b);
    assert NoSpace(la);
    assert forall i | 0 <= i < |lw| :: IsSpace(lw[i]);
    ToLowerAppend(a, w);
    ToLowerAppend(a + w, b);
    assert ToLower(a + w + b) == la + lw + lb;
    HyphenateSpacesOfNoSpace(la);
    HyphenateSpacesOfRuns(la, lw, lb);
    StyleHrefIs(a);
    StyleHrefIs(a + w + b);
  }

  lemma StyleHrefIs(name: string)
    ensures StyleHref(name) == "/styles/" + HyphenateSpaces(ToLower(name))
  {
  }
}

=== FILE: hotels.dfy ===
/**
 * The hotel list hooks (src/hooks/useHotels.ts): how a hotel from the server is turned into
 * the client's `Hotel`, and what is shown when the server gives nothing usable, namely the
 * static catalogue `ALL_HOTELS` (a parameter here) filtered the way the server would have.
 */
module Hotels {
  import opened Wrappers
  import opened Text
  import opened Lists
  import opened Json
  import opened Http

  const DefaultImage := "https://picsum.photos/600/400"

  /** A hotel of the static catalogue, reduced to the fields the fallback filters read. */
  datatype Hotel = Hotel(id: string, name: string, location: string, country: string, category: string, isTrending: bool)

  /**
   * `transformServerHotel`'s result. The `as` casts check nothing, so every field is
   * whatever JSON value the server sent, or the default the `||` chain falls back to.
   */
  datatype ClientHotel = ClientHotel(
    id: Json, name: Json, location: Json, country: Json, rating: Json, imageUrl: Json,
    category: Json, isTrending: Json, lat: Json, lng: Json, amenities: Json,
    description: Json, ctaPhrase: Json, galleryImages: Json, reviews: Json)

  /** `serverHotel.key` on a hotel that is not `null`. */
  function P(s: Json, key: string): Json
    requires !Nullish(s)
  {
    Prop(s, key).value
  }

  /** `images.map(img => img.url)`: an image that is `null` throws. */
  function ImageUrls(images: seq<Json>): (r: Option<seq<Json>>)
    ensures r.None? <==> exists i | 0 <= i < |images| :: Nullish(images[i])
    ensures r.Some? ==> |r.value| == |images| && forall i | 0 <= i < |images| :: r.value[i] == P(images[i], "url")
  {
    if |images| == 0 then Some([])
    else if Nullish(images[0]) then None
    else match ImageUrls(images[1..])
      case None => None
      case Some(rest) => Some([P(images[0], "url")] + rest)
  }

  /**
   * `galleryImages || images?.map(img => img.url) || []`: `images` that is neither an array
   * nor nullish has no `map` and throws.
   */
  function Gallery(s: Json): (r: Option<Json>)
    requires !Nullish(s)
    ensures Truthy(P(s, "galleryImages")) ==> r == Some(P(s, "galleryImages"))
    ensures !Truthy(P(s, "galleryImages")) && Nullish(P(s, "images")) ==> r == Some(JArr([]))
    ensures r.Some? ==> Truthy(r.value) || r.value == JArr([])
    ensures !Truthy(P(s, "galleryImages")) && P(s, "images").JArr? ==>
      (r.Some? <==> ImageUrls(P(s, "images").items).Some?) &&
      (r.Some? ==> r == Some(JArr(ImageUrls(P(s, "images").items).value)))
    ensures !Truthy(P(s, "galleryImages")) && !Nullish(P(s, "images")) && !P(s, "images").JArr? ==> r.None?
  {
    var given := P(s, "galleryImages");
    var images := P(s, "images");
    if Truthy(given) then Some(given)
    else if Nullish(images) then Some(JArr([]))
    else if images.JArr? then
      match ImageUrls(images.items)
      case None => None
      case Some(urls) => Some(JArr(urls))
    else None
  }

  /** `transformServerHotel`: `None` when it throws (a `null` hotel, or unusable `images`). */
  function Transform(s: Json): (r: Option<ClientHotel>)
    ensures r.None? <==> Nullish(s) || Gallery(s).None?
    ensures r.Some? ==> Truthy(r.value.category) && Truthy(r.value.imageUrl)
    ensures r.Some? ==> r.value.id == P(s, "id") && r.value.name == P(s, "name") && r.value.ctaPhrase == P(s, "ctaPhrase")
    ensures r.Some? ==> r.value.galleryImages == Gallery(s).value
    ensures r.Some? ==> (r.value.location ==
      if Truthy(P(s, "location")) then P(s, "location") else if Truthy(P(s, "address")) then P(s, "address") else JStr(""))
    ensures r.Some? ==> (r.value.country ==
      if Truthy(P(s, "country")) then P(s, "country")
      else if Truthy(OptProp(P(s, "destination"), "country")) then OptProp(P(s, "destination"), "country")
      else JStr(""))
    ensures r.Some? ==> (r.value.imageUrl ==
      if Truthy(P(s, "imageUrl")) then P(s, "imageUrl")
      else if Truthy(P(s, "mainImage")) then P(s, "mainImage")
      else JStr(DefaultImage))
    ensures r.Some? ==> (r.value.category ==
      if Truthy(P(s, "category")) then P(s, "category")
      else if Truthy(OptProp(P(s, "style"), "name")) then OptProp(P(s, "style"), "name")
      else JStr("Hotels"))
    ensures r.Some? ==> r.value.lat == (if Truthy(P(s, "lat")) then P(s, "lat") else P(s, "latitude"))
    ensures r.Some? ==> r.value.lng == (if Truthy(P(s, "lng")) then P(s, "lng") else P(s, "longitude"))
    ensures r.Some? ==> r.value.description == (if Truthy(P(s, "description")) then P(s, "description") else JStr(""))
    ensures r.Some? ==> r.value.reviews == (if Truthy(P(s, "reviews")) then P(s, "reviews") else JArr([]))
    ensures r.Some? ==> r.value.rating == (if Truthy(P(s, "rating")) then P(s, "rating") else JNum(0.0))
    ensures r.Some? ==> r.value.isTrending == (if Truthy(P(s, "isTrending")) then P(s, "isTrending") else JBool(false))
    ensures r.Some? ==> r.value.amenities == (if Truthy(P(s, "amenities")) then P(s, "amenities") else JArr([]))
  {
    if Nullish(s) then None
    else match Gallery(s)
      case None => None
      case Some(gallery) =>
        Some(ClientHotel(
          id := P(s, "id"),
          name := P(s, "name"),
          location := Or(P(s, "location"), Or(P(s, "address"), JStr(""))),
          country := Or(P(s, "country"), Or(OptProp(P(s, "destination"), "country"), JStr(""))),
          rating := Or(P(s, "rating"), JNum(0.0)),
          imageUrl := Or(P(s, "imageUrl"), Or(P(s, "mainImage"), JStr(DefaultImage))),
          category := Or(P(s, "category"), Or(OptProp(P(s, "style"), "name"), JStr("Hotels"))),
          isTrending := Or(P(s, "isTrending"), JBool(false)),
          lat := Or(P(s, "lat"), P(s, "latitude")),
          lng := Or(P(s, "lng"), P(s, "longitude")),
          amenities := Or(P(s, "amenities"), JArr([])),
          description := Or(P(s, "description"), JStr("")),
          ctaPhrase := P(s, "ctaPhrase"),
          galleryImages := gallery,
          reviews := Or(P(s, "reviews"), JArr([]))))
  }

  /** A server hotel with no fields at all gets every default. */
  lemma TransformOfEmpty()
    ensures Transform(JObj(map[])) == Some(ClientHotel(
      JUndefined, JUndefined, JStr(""), JStr(""), JNum(0.0), JStr(DefaultImage), JStr("Hotels"),
      JBool(false), JUndefined, JUndefined, JArr([]), JStr(""), JUndefined, JArr([]), JArr([])))
  {
    var s := JObj(map[]);
    forall key: string ensures P(s, key) == JUndefined {
      assert key !in s.fields;
    }
    assert Gallery(s) == Some(JArr([]));
  }

  /** The category falls back to the style's name before the literal 'Hotels'. */
  lemma TransformCategoryFromStyle(s: Json, style: string)
    requires s.JObj? && "category" !in s.fields && "galleryImages" !in s.fields && "images" !in s.fields
    requires "style" in s.fields && s.fields["style"] == Obj([("name", JStr(style))])
    ensures Transform(s).Some?
    ensures Transform(s).value.category == (if style != "" then JStr(style) else JStr("Hotels"))
  {
    ObjGet([("name", JStr(style))], 0);
  }

  /** The map over the server's items: one throwing hotel makes the whole list throw. */
  function TransformAll(items: seq<Json>): (r: Option<seq<ClientHotel>>)
    ensures r.Some? <==> forall i | 0 <= i < |items| :: Transform(items[i]).Some?
    ensures r.Some? ==> |r.value| == |items| && forall i | 0 <= i < |items| :: r.value[i] == Transform(items[i]).value
  {
    MapAll(items, Transform)
  }

  /** The filters a page passes to `useHotels`; `None` is an absent property. */
  datatype HotelsFilter = HotelsFilter(
    search: Option<string>, country: Option<string>, category: Option<string>, style: Option<string>,
    isTrending: Option<bool>, limit: Option<int>, page: Option<int>)

  /** A string filter that is present and not empty, hence truthy. */
  predicate Given(o: Option<string>) { o.Some? && o.value != "" }

  /** A `limit` that is present and not zero, hence truthy. */
  predicate HasLimit(f: HotelsFilter) { f.limit.Some? && f.limit.value != 0 }

  /** The search: name, location or country contains the query, ignoring case. */
  predicate MatchesSearch(h: Hotel, query: string) {
    var q := ToLower(query);
    Contains(ToLower(h.name), q) || Contains(ToLower(h.location), q) || Contains(ToLower(h.country), q)
  }

  predicate SearchOk(f: HotelsFilter, h: Hotel) { Given(f.search) ==> MatchesSearch(h, f.search.value) }
  predicate CountryOk(f: HotelsFilter, h: Hotel) { Given(f.country) ==> ToLower(h.country) == ToLower(f.country.value) }
  predicate CategoryOk(f: HotelsFilter, h: Hotel) { Given(f.category) ==> ToLower(h.category) == ToLower(f.category.value) }
  predicate TrendingOk(f: HotelsFilter, h: Hotel) { f.isTrending.Some? ==> h.isTrending == f.isTrending.value }

  /**
   * What the fallback asks of one hotel, all four conditions at once. `style` and `page`
   * play no part.
   */
  predicate Matches(f: HotelsFilter, h: Hotel) {
    SearchOk(f, h) && CountryOk(f, h) && CategoryOk(f, h) && TrendingOk(f, h)
  }

  /** `if (filters.search)`: keep the hotels the search matches. */
  function SearchStep(xs: seq<Hotel>, f: HotelsFilter): seq<Hotel> {
    if Given(f.search) then Filter(xs, (h: Hotel) => MatchesSearch(h, f.search.value)) else xs
  }

  /** `if (filters.country)`: keep the hotels of that country, ignoring case. */
  function CountryStep(xs: seq<Hotel>, f: HotelsFilter): seq<Hotel> {
    if Given(f.country) then Filter(xs, (h: Hotel) => ToLower(h.country) == ToLower(f.country.value)) else xs
  }

  /** `if (filters.category)`: keep the hotels of that category, ignoring case. */
  function CategoryStep(xs: seq<Hotel>, f: HotelsFilter): seq<Hotel> {
    if Given(f.category) then Filter(xs, (h: Hotel) => ToLower(h.category) == ToLower(f.category.value)) else xs
  }

  /** `if (filters.isTrending !== undefined)`: keep the hotels whose flag is exactly that. */
  function TrendingStep(xs: seq<Hotel>, f: HotelsFilter): seq<Hotel> {
    if f.isTrending.Some? then Filter(xs, (h: Hotel) => h.isTrending == f.isTrending.value) else xs
  }

  /** The static fallback as the hook runs it: one `filter` per given filter, then `slice`. */
  function StaticFallback(all: seq<Hotel>, f: HotelsFilter): (r: seq<Hotel>)
    ensures |r| <= |all|
  {
    var s4 := TrendingStep(CategoryStep(CountryStep(SearchStep(all, f), f), f), f);
    if HasLimit(f) then SliceTo(s4, f.limit.value) else s4
  }

  lemma SearchStepIsFilter(xs: seq<Hotel>, f: HotelsFilter)
    ensures SearchStep(xs, f) == Filter(xs, (h: Hotel) => SearchOk(f, h))
  {
    if Given(f.search) {
      FilterExt(xs, (h: Hotel) => MatchesSearch(h, f.search.value), (h: Hotel) => SearchOk(f, h));
    } else {
      FilterAll(xs, (h: Hotel) => SearchOk(f, h));
    }
  }

  lemma CountryStepIsFilter(xs: seq<Hotel>, f: HotelsFilter)
    ensures CountryStep(xs, f) == Filter(xs, (h: Hotel) => CountryOk(f, h))
  {
    if Given(f.country) {
      FilterExt(xs, (h: Hotel) => ToLower(h.country) == ToLower(f.country.value), (h: Hotel) => CountryOk(f, h));
    } else {
      FilterAll(xs, (h: Hotel) => CountryOk(f, h));
    }
  }

  lemma CategoryStepIsFilter(xs: seq<Hotel>, f: HotelsFilter)
    ensures CategoryStep(xs, f) == Filter(xs, (h: Hotel) => CategoryOk(f, h))
  {
    if Given(f.category) {
      FilterExt(xs, (h: Hotel) => ToLower(h.category) == ToLower(f.category.value), (h: Hotel) => CategoryOk(f, h));
    } else {
      FilterAll(xs, (h: Hotel) => CategoryOk(f, h));
    }
  }

  lemma TrendingStepIsFilter(xs: seq<Hotel>, f: HotelsFilter)
    ensures TrendingStep(xs, f) == Filter(xs, (h: Hotel) => TrendingOk(f, h))
  {
    if f.isTrending.Some? {
      FilterExt(xs, (h: Hotel) => h.isTrending == f.isTrending.value, (h: Hotel) => TrendingOk(f, h));
    } else {
      FilterAll(xs, (h: Hotel) => TrendingOk(f, h));
    }
  }

  /** The four steps together filter by `Matches`. */
  lemma {:induction false} StepsAreOneFilter(all: seq<Hotel>, f: HotelsFilter)
    ensures TrendingStep(CategoryStep(CountryStep(SearchStep(all, f), f), f), f) == Filter(all, (h: Hotel) => Matches(f, h))
  {
    var s1 := SearchStep(all, f);
    var s2 := CountryStep(s1, f);
    var s3 := CategoryStep(s2, f);
    SearchStepIsFilter(all, f);
    CountryStepIsFilter(s1, f);
    CategoryStepIsFilter(s2, f);
    TrendingStepIsFilter(s3, f);
    FilterChain(all, (h: Hotel) => SearchOk(f, h), (h: Hotel) => CountryOk(f, h), (h: Hotel) => CategoryOk(f, h),
                (h: Hotel) => TrendingOk(f, h), (h: Hotel) => Matches(f, h));
  }

  /**
   * The fallback is the reference selection: the catalogue's hotels that match every
   * given filter, in catalogue order, cut to `limit` when one is given.
   */
  lemma StaticFallbackSpec(all: seq<Hotel>, f: HotelsFilter)
    ensures var kept := Filter(all, (h: Hotel) => Matches(f, h));
      StaticFallback(all, f) == if HasLimit(f) then SliceTo(kept, f.limit.value) else kept
  {
    StepsAreOneFilter(all, f);
  }

  /**
   * Consequences for a page: the fallback lists only catalogue hotels, in catalogue
   * order, each matching every given filter; without a limit it lists all of them.
   */
  lemma StaticFallbackSelects(all: seq<Hotel>, f: HotelsFilter)
    ensures IsSubsequence(StaticFallback(all, f), all)
    ensures forall h | h in StaticFallback(all, f) :: Matches(f, h)
    ensures !HasLimit(f) ==> forall h | h in all && Matches(f, h) :: h in StaticFallback(all, f)
  {
    StaticFallbackSpec(all, f);
    var kept := Filter(all, (h: Hotel) => Matches(f, h));
    FilterSpec(all, (h: Hotel) => Matches(f, h));
    if HasLimit(f) {
      SliceToSubsequence(kept, f.limit.value);
      SubsequenceTransitive(SliceTo(kept, f.limit.value), kept, all);
    }
  }

  /** What `useHotels` ends up showing, and the `total` it reports. */
  datatype Listing =
    | FromServer(serverHotels: seq<ClientHotel>, serverTotal: Json)
    | FromStatic(hotels: seq<Hotel>, total: nat)

  /** A 2xx answer whose body was read and is not `null`. */
  predicate OkBody(up: Upstream) {
    up.Answered? && Ok(up.status) && up.data.Some? && !Nullish(up.data.value)
  }

  /** A value that passes `x && x.length > 0` and has `map`: a non-empty array. */
  predicate NonEmptyArray(v: Json) { v.JArr? && |v.items| > 0 }

  /** A value that passes `x && x.length > 0` but has no `map`, so calling it throws. */
  predicate NonEmptyString(v: Json) { v.JStr? && v.s != "" }

  /**
   * `fetchHotels`' choice. A 2xx whose `data.items` is a non-empty array is transformed; a
   * failed fetch, an unreadable body, or a transform that throws lands in the `catch` and
   * shows the whole catalogue unfiltered; everything else gets the filtered fallback.
   */
  function LoadHotels(up: Upstream, all: seq<Hotel>, f: HotelsFilter): (r: Listing)
    ensures r.FromStatic? ==> r.total == |r.hotels|
    ensures up.FetchFailed? || up.data.None? ==> r == FromStatic(all, |all|)
    ensures up.Answered? && up.data.Some? && !Ok(up.status) ==>
      r == FromStatic(StaticFallback(all, f), |StaticFallback(all, f)|)
    ensures r.FromServer? ==> up.Answered? && Ok(up.status) && |r.serverHotels| > 0
    ensures up.Answered? && Ok(up.status) && up.data.Some? && Nullish(up.data.value) ==> r == FromStatic(all, |all|)
    ensures OkBody(up) ==>
      var inner := P(up.data.value, "data");
      var items := OptProp(inner, "items");
      (NonEmptyArray(items) && TransformAll(items.items).Some? ==>
         r == FromServer(TransformAll(items.items).value, Or(P(inner, "total"), JNum(|items.items| as real)))) &&
      (NonEmptyArray(items) && TransformAll(items.items).None? ==> r == FromStatic(all, |all|)) &&
      (NonEmptyString(items) ==> r == FromStatic(all, |all|)) &&
      (!NonEmptyArray(items) && !NonEmptyString(items) ==>
         r == FromStatic(StaticFallback(all, f), |StaticFallback(all, f)|))
  {
    match up
    case FetchFailed => FromStatic(all, |all|)
    case Answered(_, None) => FromStatic(all, |all|)
    case Answered(status, Some(data)) =>
      var fallback := StaticFallback(all, f);
      if !Ok(status) then FromStatic(fallback, |fallback|)
      else if Nullish(data) then FromStatic(all, |all|)
      else
        var inner := P(data, "data");
        var items := OptProp(inner, "items");
        if NonEmptyArray(items) then
          match TransformAll(items.items)
          case None => FromStatic(all, |all|)
          case Some(hotels) => FromServer(hotels, Or(P(inner, "total"), JNum(|hotels| as real)))
        else if NonEmptyString(items) then FromStatic(all, |all|)
        else FromStatic(fallback, |fallback|)
  }

  predicate IsTrending(h: Hotel) { h.isTrending }

  /** `useTrendingHotels`' default `limit`. */
  const DefaultTrendingLimit := 6

  /**
   * The trending fallback, `ALL_HOTELS.filter(h => h.isTrending).slice(0, limit)`: the
   * first `limit` trending hotels, or all but the last `-limit` for a negative limit.
   */
  function TrendingFallback(all: seq<Hotel>, limit: int): (r: seq<Hotel>)
    ensures forall i | 0 <= i < |r| :: r[i].isTrending
    ensures |r| <= |Filter(all, IsTrending)| && r == Filter(all, IsTrending)[..|r|]
    ensures limit >= 0 ==> |r| == Min(limit, |Filter(all, IsTrending)|)
    ensures limit < 0 ==> |r| == Max(0, |Filter(all, IsTrending)| + limit)
  {
    FilterSpec(all, IsTrending);
    SliceTo(Filter(all, IsTrending), limit)
  }

  function Min(a: int, b: int): int { if a <= b then a else b }

  function Max(a: int, b: int): int { if a >= b then a else b }

  /** The trending fallback keeps catalogue order and, for a large enough limit, misses nothing. */
  lemma TrendingFallbackSelects(all: seq<Hotel>, limit: int)
    ensures IsSubsequence(TrendingFallback(all, limit), all)
    ensures limit >= |all| ==> forall h | h in all && h.isTrending :: h in TrendingFallback(all, limit)
  {
    var trending := Filter(all, IsTrending);
    FilterSpec(all, IsTrending);
    SliceToSubsequence(trending, limit);
    SubsequenceTransitive(TrendingFallback(all, limit), trending, all);
  }

  datatype Trending = ServerTrending(serverHotels: seq<ClientHotel>) | StaticTrending(hotels: seq<Hotel>)

  /**
   * `useTrendingHotels(limit)`: a 2xx whose `data` is a non-empty array is transformed;
   * every other outcome, thrown or not, shows the trending fallback.
   */
  function LoadTrending(up: Upstream, all: seq<Hotel>, limit: int): (r: Trending)
    ensures r.StaticTrending? ==> r.hotels == TrendingFallback(all, limit)
    ensures r.ServerTrending? ==> up.Answered? && Ok(up.status) && |r.serverHotels| > 0
    ensures up.FetchFailed? || up.data.None? || !Ok(up.status) ==> r == StaticTrending(TrendingFallback(all, limit))
    ensures r.ServerTrending? <==>
      OkBody(up) && NonEmptyArray(P(up.data.value, "data")) && TransformAll(P(up.data.value, "data").items).Some?
    ensures r.ServerTrending? ==> r.serverHotels == TransformAll(P(up.data.value, "data").items).value
  {
    var fallback := StaticTrending(TrendingFallback(all, limit));
    match up
    case FetchFailed => fallback
    case Answered(_, None) => fallback
    case Answered(status, Some(data)) =>
      if !Ok(status) || Nullish(data) then fallback
      else
        var inner := P(data, "data");
        if NonEmptyArray(inner) then
          match TransformAll(inner.items)
          case None => fallback
          case Some(hotels) => ServerTrending(hotels)
        else fallback
  }

  /** `useTrendingHotels()` with its default limit of six. */
  function LoadTrendingByDefault(up: Upstream, all: seq<Hotel>): (r: Trending)
    ensures r.StaticTrending? ==> |r.hotels| <= DefaultTrendingLimit
    ensures r.StaticTrending? ==>
      |r.hotels| <= |Filter(all, IsTrending)| && r.hotels == Filter(all, IsTrending)[..|r.hotels|]
    ensures r.StaticTrending? && |Filter(all, IsTrending)| >= DefaultTrendingLimit ==> |r.hotels| == DefaultTrendingLimit
  {
    LoadTrending(up, all, DefaultTrendingLimit)
  }
}

=== FILE: http.dfy ===
/**
 * What the Next.js route handlers under src/app/api share: the reply they build with
 * `NextResponse.json(body, { status })`, the upstream service's answer as the handler sees
 * it, the `try`/`catch` that turns every thrown error into a 500, and the
 * `data.error?.message || fallback` pass-through of upstream failures.
 */
module Http {
  import opened Wrappers
  import opened Json
  import Email

  /** `NextResponse.json(body, { status })`; the status defaults to 200. */
  datatype Reply = Reply(status: int, body: Json)

  /**
   * The upstream answer: `FetchFailed` when `fetch` throws, otherwise the status and the
   * body `response.json()` would give (`None` when it would throw on a non-JSON body).
   */
  datatype Upstream = FetchFailed | Answered(status: int, data: Option<Json>)

  /** `response.ok`. */
  predicate Ok(status: int) { 200 <= status <= 299 }

  /** `{ error: message }` with a status. */
  function ErrorReply(status: int, message: string): (r: Reply)
    ensures r.status == status
    ensures Prop(r.body, "error") == Some(JStr(message))
  {
    ObjGet([("error", JStr(message))], 0);
    Reply(status, Obj([("error", JStr(message))]))
  }

  /** The body a handler could destructure: `request.json()` parsed, and not to `null`. */
  predicate Destructurable(body: Option<Json>) {
    body.Some? && !Nullish(body.value)
  }

  /** One property of a destructurable body: `const { key } = body`. */
  function Field(body: Option<Json>, key: string): (v: Json)
    requires Destructurable(body)
    ensures body.value.JObj? && key in body.value.fields ==> v == body.value.fields[key]
    ensures body.value.JObj? && key !in body.value.fields ==> v == JUndefined
  {
    Prop(body.value, key).value
  }

  /**
   * `{ error: data.error?.message || fallback }` with the upstream status, or `None` for the
   * TypeError `data.error` raises when the upstream body is `null`.
   */
  function UpstreamError(status: int, data: Json, fallback: string): (r: Option<Reply>)
    ensures r.None? <==> Nullish(data)
    ensures r.Some? ==> r.value.status == status
    ensures r.Some? ==>
      var message := OptProp(Prop(data, "error").value, "message");
      Prop(r.value.body, "error") == Some(if Truthy(message) then message else JStr(fallback))
  {
    match Prop(data, "error")
    case None => None
    case Some(e) =>
      var message := Or(OptProp(e, "message"), JStr(fallback));
      ObjGet([("error", message)], 0);
      Some(Reply(status, Obj([("error", message)])))
  }

  /** The `catch` block: anything thrown becomes a 500 carrying the handler's own message. */
  function OrCrash(r: Option<Reply>, message: string): (reply: Reply)
    ensures r.Some? ==> reply == r.value
    ensures r.None? ==> reply == ErrorReply(500, message)
  {
    match r
    case Some(reply) => reply
    case None => ErrorReply(500, message)
  }

  /**
   * `/^[^\s@]+@[^\s@]+\.[^\s@]+$/.test(v)` for the values a truthy JSON field can hold:
   * strings are matched as they are; numbers, booleans and objects stringify without an `@`
   * and fail. Arrays are left out (they stringify to their joined elements).
   */
  predicate EmailAccepted(v: Json) {
    v.JStr? && Email.IsEmail(v.s)
  }

  /** A 2xx upstream answer whose body `data.data?.id` can be read, and the id it gives. */
  function CreatedId(data: Json): (r: Option<Json>)
    ensures r.None? <==> Nullish(data)
    ensures r.Some? && data.JObj? && "data" in data.fields ==>
      r.value == OptProp(data.fields["data"], "id")
  {
    match Prop(data, "data")
    case None => None
    case Some(d) => Some(OptProp(d, "id"))
  }

  /** `{ success: true, id: data.data?.id }` with status 201, or the TypeError on a `null` body. */
  function CreatedReply(data: Json): (r: Option<Reply>)
    ensures r.None? <==> Nullish(data)
    ensures r.Some? ==> r.value.status == 201 && Prop(r.value.body, "success") == Some(JBool(true))
    ensures r.Some? ==> Prop(r.value.body, "id") == CreatedId(data)
  {
    match CreatedId(data)
    case None => None
    case Some(id) =>
      ObjGet([("success", JBool(true)), ("id", id)], 0);
      ObjGet([("success", JBool(true)), ("id", id)], 1);
      Some(Reply(201, Obj([("success", JBool(true)), ("id", id)])))
  }

  /**
   * The tail every form route shares once its body has been forwarded: the upstream's
   * error passes through with its status, a 2xx gives 201 with the new record's id, and
   * anything that throws gives 500.
   */
  function FormAnswer(up: Upstream, failure: string): (r: Reply)
    ensures up.Answered? && up.data.Some? && !Nullish(up.data.value) && !Ok(up.status) ==>
      r.status == up.status && r == UpstreamError(up.status, up.data.value, failure).value
    ensures up.Answered? && up.data.Some? && !Nullish(up.data.value) && Ok(up.status) ==>
      r.status == 201 && Prop(r.body, "success") == Some(JBool(true)) && Prop(r.body, "id") == CreatedId(up.data.value)
    ensures up.FetchFailed? || up.data.None? || Nullish(up.data.value) ==> r == ErrorReply(500, failure)
  {
    match up
    case FetchFailed => ErrorReply(500, failure)
    case Answered(status, None) => ErrorReply(500, failure)
    case Answered(status, Some(data)) =>
      if !Ok(status) then OrCrash(UpstreamError(status, data, failure), failure)
      else OrCrash(CreatedReply(data), failure)
  }

  /** The id the service gave the new record (`{ data: { id } }`) is the id the form answers with. */
  lemma FormAnswerEchoesId(status: int, id: Json, failure: string)
    requires Ok(status)
    ensures var r := FormAnswer(Answered(status, Some(JObj(map["data" := JObj(map["id" := id])]))), failure);
      r.status == 201 && Prop(r.body, "id") == Some(id)
  {
  }

  /** A refusal carrying `error.message` is relayed with that message under the upstream's status. */
  lemma UpstreamMessageRelayed(status: int, message: string, fallback: string)
    requires message != ""
    ensures UpstreamError(status, JObj(map["error" := JObj(map["message" := JStr(message)])]), fallback)
      == Some(ErrorReply(status, message))
  {
  }

  /** A refusal without a usable `error.message` carries the route's own fallback message. */
  lemma UpstreamFallbackUsed(status: int, data: Json, fallback: string)
    requires !Nullish(data)
    requires !Truthy(OptProp(Prop(data, "error").value, "message"))
    ensures UpstreamError(status, data, fallback) == Some(ErrorReply(status, fallback))
  {
  }
}

=== FILE: inquiry_route.dfy ===
/**
 * `POST /api/inquiry` (src/app/api/inquiry/route.ts): a question about one hotel, checked
 * and forwarded to the upstream `/hotel-inquiries`.
 */
module InquiryRoute {
  import opened Wrappers
  import opened Json
  import opened Http

  const Required := "Hotel ID, hotel name, name, email, and message are required"
  const InvalidEmail := "Invalid email format"
  const Failed := "Failed to submit inquiry"

  const RequiredFields: seq<string> := ["hotelId", "hotelName", "name", "email", "message"]

  datatype Posted = Posted(forwarded: Option<Json>, reply: Reply)

  /** The five required fields are all truthy; the phone is optional. */
  predicate HasRequired(body: Option<Json>)
    requires Destructurable(body)
  {
    forall i | 0 <= i < |RequiredFields| :: Truthy(Field(body, RequiredFields[i]))
  }

  function ForwardedInquiry(body: Option<Json>): Json
    requires Destructurable(body)
  {
    Obj([
      ("hotelId", Field(body, "hotelId")),
      ("hotelName", Field(body, "hotelName")),
      ("name", Field(body, "name")),
      ("email", Field(body, "email")),
      ("phone", Or(Field(body, "phone"), JUndefined)),
      ("message", Field(body, "message"))
    ])
  }

  function Post(body: Option<Json>, up: Upstream): (r: Posted)
    ensures !Destructurable(body) ==> r == Posted(None, ErrorReply(500, Failed))
    ensures Destructurable(body) && !HasRequired(body) ==> r == Posted(None, ErrorReply(400, Required))
    ensures Destructurable(body) && HasRequired(body) && !EmailAccepted(Field(body, "email")) ==>
      r == Posted(None, ErrorReply(400, InvalidEmail))
    ensures r.forwarded.Some? <==> Destructurable(body) && HasRequired(body) && EmailAccepted(Field(body, "email"))
    ensures r.forwarded.Some? ==> r.forwarded.value == ForwardedInquiry(body) && r.reply == FormAnswer(up, Failed)
  {
    if !Destructurable(body) then Posted(None, ErrorReply(500, Failed))
    else if !HasRequired(body) then Posted(None, ErrorReply(400, Required))
    else if !EmailAccepted(Field(body, "email")) then Posted(None, ErrorReply(400, InvalidEmail))
    else Posted(Some(ForwardedInquiry(body)), FormAnswer(up, Failed))
  }

  /** A falsy phone is left out of the forwarded inquiry; any truthy one is kept as sent. */
  lemma PostOptionalPhone(body: Option<Json>, up: Upstream)
    requires Destructurable(body) && HasRequired(body) && EmailAccepted(Field(body, "email"))
    ensures var f := Post(body, up).forwarded.value;
      Prop(f, "phone") == Some(if Truthy(Field(body, "phone")) then Field(body, "phone") else JUndefined)
  {
    var kvs := [
      ("hotelId", Field(body, "hotelId")),
      ("hotelName", Field(body, "hotelName")),
      ("name", Field(body, "name")),
      ("email", Field(body, "email")),
      ("phone", Or(Field(body, "phone"), JUndefined)),
      ("message", Field(body, "message"))
    ];
    ObjGet(kvs, 4);
  }
}

=== FILE: json.dfy ===
/**
 * JSON values as the route handlers see them after `request.json()` / `response.json()`,
 * with the JavaScript operators the handlers apply to them: truthiness, `||`, `??`,
 * property access, optional chaining, and `JSON.stringify` of an object literal (which
 * drops properties whose value is `undefined`).
 */
module Json {
  import opened Wrappers

  /**
   * A JavaScript value built from JSON, plus `undefined` (a missing property). Numbers are
   * `real`; JSON has no NaN or infinities.
   */
  datatype Json =
    | JUndefined
    | JNull
    | JBool(b: bool)
    | JNum(n: real)
    | JStr(s: string)
    | JArr(items: seq<Json>)
    | JObj(fields: map<string, Json>)

  /** `null` or `undefined`: what `??` and `?.` test for. */
  predicate Nullish(v: Json) { v == JUndefined || v == JNull }

  /** JavaScript truthiness: `false`, `0`, `""`, `null` and `undefined` are falsy. */
  predicate Truthy(v: Json) {
    match v
    case JUndefined => false
    case JNull => false
    case JBool(b) => b
    case JNum(n) => n != 0.0
    case JStr(s) => s != ""
    case JArr(_) => true
    case JObj(_) => true
  }

  /** Everything nullish is falsy; the converse fails for `false`, `0` and `""`. */
  lemma NullishIsFalsy(v: Json)
    ensures Nullish(v) ==> !Truthy(v)
    ensures !Truthy(v) && !Nullish(v) <==> v == JBool(false) || v == JNum(0.0) || v == JStr("")
  {
  }

  /** `a || b`. */
  function Or(a: Json, b: Json): (r: Json)
    ensures Truthy(a) ==> r == a
    ensures !Truthy(a) ==> r == b
  {
    if Truthy(a) then a else b
  }

  /** `a ?? b`. */
  function Coalesce(a: Json, b: Json): (r: Json)
    ensures Nullish(a) ==> r == b
    ensures !Nullish(a) ==> r == a
  {
    if Nullish(a) then b else a
  }

  /** `??` and `||` part ways exactly on the falsy values that are not nullish. */
  lemma CoalesceVersusOr(a: Json, b: Json)
    ensures Coalesce(a, b) != Or(a, b) ==> !Truthy(a) && !Nullish(a) && a != b
    ensures !Truthy(a) && !Nullish(a) && a != b ==> Coalesce(a, b) != Or(a, b)
  {
  }

  /**
   * `v.key` (and `const { key } = v`): a TypeError (`None`) when `v` is `null` or
   * `undefined`, `undefined` when an object lacks the key. Keys are taken to be plain
   * property names: no array index, `length`, or `Object.prototype` member.
   */
  function Prop(v: Json, key: string): (r: Option<Json>)
    ensures r.None? <==> Nullish(v)
    ensures v.JObj? ==> r == Some(if key in v.fields then v.fields[key] else JUndefined)
  {
    match v
    case JUndefined => None
    case JNull => None
    case JObj(m) => Some(if key in m then m[key] else JUndefined)
    case _ => Some(JUndefined)
  }

  /** `v?.key`: `undefined` instead of a TypeError when `v` is nullish. */
  function OptProp(v: Json, key: string): (r: Json)
    ensures Nullish(v) ==> r == JUndefined
    ensures !Nullish(v) ==> Some(r) == Prop(v, key)
  {
    if Nullish(v) then JUndefined else Prop(v, key).value
  }

  /** The object an object literal serialises to: later keys win, `undefined` values vanish. */
  function ObjMap(kvs: seq<(string, Json)>): (m: map<string, Json>)
    ensures forall k | k in m :: m[k] != JUndefined
    ensures forall k | k in m :: exists i | 0 <= i < |kvs| :: kvs[i].0 == k
    decreases |kvs|
  {
    if |kvs| == 0 then map[]
    else
      var rest := ObjMap(kvs[..|kvs| - 1]);
      var (k, v) := kvs[|kvs| - 1];
      assert forall i | 0 <= i < |kvs| - 1 :: kvs[..|kvs| - 1][i] == kvs[i];
      if v == JUndefined then rest - {k} else rest[k := v]
  }

  /** `JSON.parse(JSON.stringify({ k1: v1, ... }))`. */
  function Obj(kvs: seq<(string, Json)>): Json {
    JObj(ObjMap(kvs))
  }

  /** The keys of an object literal: those written with a value other than `undefined`. */
  ghost predicate DistinctKeys(kvs: seq<(string, Json)>) {
    forall i, j | 0 <= i < j < |kvs| :: kvs[i].0 != kvs[j].0
  }

  /** With distinct keys, each written pair survives serialisation unless its value is `undefined`. */
  lemma {:induction false} ObjMapLookup(kvs: seq<(string, Json)>, i: nat)
    requires DistinctKeys(kvs) && i < |kvs|
    ensures kvs[i].1 != JUndefined ==> kvs[i].0 in ObjMap(kvs) && ObjMap(kvs)[kvs[i].0] == kvs[i].1
    ensures kvs[i].1 == JUndefined ==> kvs[i].0 !in ObjMap(kvs)
    decreases |kvs|
  {
    var init := kvs[..|kvs| - 1];
    if i < |kvs| - 1 {
      assert forall a, b | 0 <= a < b < |init| :: init[a] == kvs[a] && init[b] == kvs[b];
      assert init[i] == kvs[i];
      ObjMapLookup(init, i);
    } else {
      assert kvs[|kvs| - 1] == kvs[i];
    }
  }

  /** Reading a key back from a serialised object literal with distinct keys. */
  lemma ObjGet(kvs: seq<(string, Json)>, i: nat)
    requires DistinctKeys(kvs) && i < |kvs|
    ensures Prop(Obj(kvs), kvs[i].0) == Some(kvs[i].1)
  {
    ObjMapLookup(kvs, i);
  }
}

=== FILE: lists.dfy ===
/**
 * The array operations the site's list pipelines are built from: `filter`, `slice(0, n)`
 * and the stable `sort` of ECMAScript 2019 with a numeric comparator.
 */
module Lists {
  import opened Wrappers

  /**
   * `xs.map(f)` for an `f` that may throw (`None`): a result only when no element throws,
   * and then the element-wise results.
   */
  function MapAll<A, B>(xs: seq<A>, f: A -> Option<B>): (r: Option<seq<B>>)
    ensures r.Some? <==> forall i | 0 <= i < |xs| :: f(xs[i]).Some?
    ensures r.Some? ==> |r.value| == |xs| && forall i | 0 <= i < |xs| :: r.value[i] == f(xs[i]).value
    decreases |xs|
  {
    if |xs| == 0 then Some([])
    else
      var rest := MapAll(xs[1..], f);
      assert forall i | 0 <= i < |xs| - 1 :: xs[1..][i] == xs[i + 1];
      if f(xs[0]).None? || rest.None? then None else Some([f(xs[0]).value] + rest.value)
  }

  /** `xs.filter(p)`. */
  function Filter<T>(xs: seq<T>, p: T -> bool): (r: seq<T>)
    ensures |r| <= |xs|
    ensures forall i | 0 <= i < |r| :: p(r[i])
  {
    if |xs| == 0 then [] else (if p(xs[0]) then [xs[0]] else []) + Filter(xs[1..], p)
  }

  /** `a` is `b` with some elements dropped and the rest kept in order. */
  ghost predicate IsSubsequence<T>(a: seq<T>, b: seq<T>)
    decreases |b|
  {
    |a| == 0
    || (|b| > 0 && ((a[0] == b[0] && IsSubsequence(a[1..], b[1..])) || IsSubsequence(a, b[1..])))
  }

  /** `filter` keeps exactly the elements satisfying `p`, in their original order. */
  lemma {:induction false} FilterSpec<T>(xs: seq<T>, p: T -> bool)
    ensures IsSubsequence(Filter(xs, p), xs)
    ensures forall x :: x in Filter(xs, p) <==> x in xs && p(x)
    decreases |xs|
  {
    if |xs| > 0 {
      FilterSpec(xs[1..], p);
      var r := Filter(xs, p);
      if p(xs[0]) {
        assert r[1..] == Filter(xs[1..], p);
        assert r[0] == xs[0];
      } else {
        assert r == Filter(xs[1..], p);
      }
      assert xs == [xs[0]] + xs[1..];
    }
  }

  /** `filter` keeps every occurrence of a satisfying element and no occurrence of any other. */
  lemma {:induction false} FilterCounts<T>(xs: seq<T>, p: T -> bool)
    ensures forall x :: multiset(Filter(xs, p))[x] == if p(x) then multiset(xs)[x] else 0
    decreases |xs|
  {
    if |xs| > 0 {
      FilterCounts(xs[1..], p);
      assert xs == [xs[0]] + xs[1..];
      assert multiset(xs) == multiset{xs[0]} + multiset(xs[1..]);
      var head := if p(xs[0]) then [xs[0]] else [];
      assert Filter(xs, p) == head + Filter(xs[1..], p);
      assert multiset(Filter(xs, p)) == multiset(head) + multiset(Filter(xs[1..], p));
    }
  }

  /** A subsequence of a subsequence is a subsequence: filters can be chained. */
  lemma {:induction false} SubsequenceTransitive<T>(a: seq<T>, b: seq<T>, c: seq<T>)
    requires IsSubsequence(a, b) && IsSubsequence(b, c)
    ensures IsSubsequence(a, c)
    decreases |c|
  {
    if |a| > 0 {
      if b[0] == c[0] && IsSubsequence(b[1..], c[1..]) {
        if a[0] == b[0] && IsSubsequence(a[1..], b[1..]) {
          SubsequenceTransitive(a[1..], b[1..], c[1..]);
        } else {
          SubsequenceTransitive(a, b[1..], c[1..]);
        }
      } else {
        SubsequenceTransitive(a, b, c[1..]);
      }
    }
  }

  /** Every prefix of a sequence is a subsequence of it. */
  lemma {:induction false} PrefixIsSubsequence<T>(xs: seq<T>, n: nat)
    requires n <= |xs|
    ensures IsSubsequence(xs[..n], xs)
    decreases n
  {
    if n > 0 {
      PrefixIsSubsequence(xs[1..], n - 1);
      assert xs[..n][1..] == xs[1..][..n - 1];
    }
  }

  /** `xs.slice(0, n)`: a negative end counts back from the end of the array. */
  function SliceTo<T>(xs: seq<T>, n: int): (r: seq<T>)
    ensures |r| <= |xs| && r == xs[..|r|]
    ensures n >= 0 ==> |r| == if n < |xs| then n else |xs|
    ensures n < 0 ==> |r| == if |xs| + n > 0 then |xs| + n else 0
  {
    if n >= 0 then (if n < |xs| then xs[..n] else xs)
    else (if |xs| + n > 0 then xs[..|xs| + n] else [])
  }

  ghost predicate SortedBy<T>(xs: seq<T>, key: T -> real) {
    forall i, j | 0 <= i < j < |xs| :: key(xs[i]) <= key(xs[j])
  }

  /** The elements whose key is `k`, in order: what a stable sort must not reorder. */
  function WithKey<T>(xs: seq<T>, key: T -> real, k: real): seq<T> {
    Filter(xs, HasKey(key, k))
  }

  function HasKey<T>(key: T -> real, k: real): T -> bool {
    x => key(x) == k
  }

  /** The key a descending sort sorts ascending by. */
  function Negated<T>(key: T -> real): T -> real {
    x => -key(x)
  }

  /** Places `x` before the first element whose key is not smaller than its own. */
  function Insert<T>(x: T, xs: seq<T>, key: T -> real): (r: seq<T>)
    ensures |r| == |xs| + 1
    ensures multiset(r) == multiset(xs) + multiset{x}
    ensures SortedBy(xs, key) ==> SortedBy(r, key)
  {
    if |xs| == 0 || key(x) <= key(xs[0]) then [x] + xs
    else
      var rest := Insert(x, xs[1..], key);
      assert xs == [xs[0]] + xs[1..];
      InsertLowerBound(x, xs[1..], rest, key, key(xs[0]));
      [xs[0]] + rest
  }

  /** A bound below `x` and below every element of `xs` stays below every rearrangement. */
  lemma InsertLowerBound<T>(x: T, xs: seq<T>, r: seq<T>, key: T -> real, b: real)
    requires b <= key(x)
    requires multiset(r) == multiset(xs) + multiset{x}
    ensures (forall i | 0 <= i < |xs| :: b <= key(xs[i])) ==> forall i | 0 <= i < |r| :: b <= key(r[i])
  {
    if forall i | 0 <= i < |xs| :: b <= key(xs[i]) {
      forall i | 0 <= i < |r| ensures b <= key(r[i]) {
        assert r[i] in multiset(r);
        if r[i] != x {
          assert r[i] in multiset(xs);
        }
      }
    }
  }

  /**
   * `xs.sort((a, b) => key(a) - key(b))`: ascending by `key`, and stable, since
   * ECMAScript 2019 requires `Array.prototype.sort` to keep equal elements in order.
   */
  function SortBy<T>(xs: seq<T>, key: T -> real): (r: seq<T>)
    ensures multiset(r) == multiset(xs)
    ensures SortedBy(r, key)
  {
    if |xs| == 0 then []
    else
      assert xs == [xs[0]] + xs[1..];
      Insert(xs[0], SortBy(xs[1..], key), key)
  }

  /** Inserting `x` puts it ahead of every element with the same key. */
  lemma {:induction false} InsertWithKey<T>(x: T, xs: seq<T>, key: T -> real, k: real)
    ensures WithKey(Insert(x, xs, key), key, k)
         == (if key(x) == k then [x] else []) + WithKey(xs, key, k)
    decreases |xs|
  {
    if |xs| == 0 || key(x) <= key(xs[0]) {
      assert Insert(x, xs, key) == [x] + xs;
      WithKeyCons(x, xs, key, k);
    } else {
      InsertWithKey(x, xs[1..], key, k);
      InsertPast(x, xs, key);
      assert xs == [xs[0]] + xs[1..];
      InsertWithKeyStep(x, xs[0], xs[1..], Insert(x, xs[1..], key), key, k);
    }
  }

  lemma InsertPast<T>(x: T, xs: seq<T>, key: T -> real)
    requires |xs| > 0 && key(x) > key(xs[0])
    ensures Insert(x, xs, key) == [xs[0]] + Insert(x, xs[1..], key)
  {
  }

  /** The step of `InsertWithKey` past an element `y` whose key is smaller than `x`'s. */
  lemma InsertWithKeyStep<T>(x: T, y: T, tail: seq<T>, rest: seq<T>, key: T -> real, k: real)
    requires key(x) > key(y)
    requires WithKey(rest, key, k) == (if key(x) == k then [x] else []) + WithKey(tail, key, k)
    ensures WithKey([y] + rest, key, k) == (if key(x) == k then [x] else []) + WithKey([y] + tail, key, k)
  {
    WithKeyCons(y, rest, key, k);
    WithKeyCons(y, tail, key, k);
  }

  lemma WithKeyCons<T>(y: T, ys: seq<T>, key: T -> real, k: real)
    ensures WithKey([y] + ys, key, k) == (if key(y) == k then [y] else []) + WithKey(ys, key, k)
  {
    assert ([y] + ys)[1..] == ys;
    assert HasKey(key, k)(y) == (key(y) == k);
  }

  /** The sort is stable: for every key, the elements with that key keep their order. */
  lemma {:induction false} SortByStable<T>(xs: seq<T>, key: T -> real, k: real)
    ensures WithKey(SortBy(xs, key), key, k) == WithKey(xs, key, k)
    decreases |xs|
  {
    if |xs| > 0 {
      SortByStable(xs[1..], key, k);
      InsertWithKey(xs[0], SortBy(xs[1..], key), key, k);
    }
  }

  /** `xs.sort((a, b) => key(b) - key(a))`: descending by `key`, stable. */
  function SortByDescending<T>(xs: seq<T>, key: T -> real): (r: seq<T>)
    ensures multiset(r) == multiset(xs)
    ensures forall i, j | 0 <= i < j < |r| :: key(r[i]) >= key(r[j])
  {
    var r := SortBy(xs, Negated(key));
    assert forall i, j | 0 <= i < j < |r| :: -key(r[i]) <= -key(r[j]);
    r
  }

  /** The descending sort is stable too: elements with equal keys keep their order. */
  lemma SortByDescendingStable<T>(xs: seq<T>, key: T -> real, k: real)
    ensures WithKey(SortByDescending(xs, key), key, k) == WithKey(xs, key, k)
  {
    var r := SortByDescending(xs, key);
    SortByStable(xs, Negated(key), -k);
    FilterExt(r, HasKey(Negated(key), -k), HasKey(key, k));
    FilterExt(xs, HasKey(Negated(key), -k), HasKey(key, k));
  }

  /** No element of a descending sort's input ranks above its head. */
  lemma {:induction false} SortByDescendingHead<T>(xs: seq<T>, key: T -> real, x: T)
    requires x in xs
    ensures |SortByDescending(xs, key)| > 0 && key(SortByDescending(xs, key)[0]) >= key(x)
  {
    var r := SortByDescending(xs, key);
    assert x in multiset(xs);
    assert x in r;
  }

  /** The first element of a filter is the first element satisfying the predicate. */
  lemma {:induction false} FilterHead<T>(xs: seq<T>, p: T -> bool, i: nat)
    requires i < |xs| && p(xs[i]) && forall j | 0 <= j < i :: !p(xs[j])
    ensures |Filter(xs, p)| > 0 && Filter(xs, p)[0] == xs[i]
    decreases i
  {
    if i > 0 {
      assert forall j | 0 <= j < i - 1 :: xs[1..][j] == xs[j + 1];
      FilterHead(xs[1..], p, i - 1);
    }
  }

  /**
   * Stability at the top: the head of a descending sort is the first element, in input
   * order, whose key is the largest.
   */
  lemma {:induction false} SortByDescendingFirstMax<T>(xs: seq<T>, key: T -> real, i: nat)
    requires i < |xs|
    requires forall j | 0 <= j < |xs| :: key(xs[j]) <= key(xs[i])
    requires forall j | 0 <= j < i :: key(xs[j]) < key(xs[i])
    ensures SortByDescending(xs, key)[0] == xs[i]
  {
    var neg := x => -key(x);
    var r := SortBy(xs, neg);
    assert r == SortByDescending(xs, key);
    var top := key(xs[i]);
    TopKeyOfSort(xs, key, i);
    SortByStable(xs, neg, -top);
    WithKeyHead(r, neg, -top, 0);
    WithKeyHead(xs, neg, -top, i);
  }

  /** The first element with a key is the head of the elements with that key. */
  lemma WithKeyHead<T>(xs: seq<T>, key: T -> real, k: real, i: nat)
    requires i < |xs| && key(xs[i]) == k && forall j | 0 <= j < i :: key(xs[j]) != k
    ensures |WithKey(xs, key, k)| > 0 && WithKey(xs, key, k)[0] == xs[i]
  {
    FilterHead(xs, x => key(x) == k, i);
  }

  /** The head of a descending sort carries the largest key. */
  lemma {:induction false} TopKeyOfSort<T>(xs: seq<T>, key: T -> real, i: nat)
    requires i < |xs|
    requires forall j | 0 <= j < |xs| :: key(xs[j]) <= key(xs[i])
    ensures |SortByDescending(xs, key)| > 0 && key(SortByDescending(xs, key)[0]) == key(xs[i])
  {
    var r := SortByDescending(xs, key);
    SortByDescendingHead(xs, key, xs[i]);
    assert r[0] in multiset(xs);
    var k :| 0 <= k < |xs| && xs[k] == r[0];
  }
  /** Filtering twice is filtering once by both predicates. */
  lemma {:induction false} FilterFilter<T>(xs: seq<T>, p: T -> bool, q: T -> bool)
    ensures Filter(Filter(xs, p), q) == Filter(xs, x => p(x) && q(x))
    decreases |xs|
  {
    var pq := x => p(x) && q(x);
    if |xs| > 0 {
      FilterFilter(xs[1..], p, q);
      var fp := Filter(xs, p);
      if p(xs[0]) {
        assert fp == [xs[0]] + Filter(xs[1..], p);
        assert fp[0] == xs[0] && fp[1..] == Filter(xs[1..], p);
        assert Filter(fp, q) == (if q(xs[0]) then [xs[0]] else []) + Filter(fp[1..], q);
      } else {
        assert fp == Filter(xs[1..], p);
      }
      assert Filter(xs, pq) == (if pq(xs[0]) then [xs[0]] else []) + Filter(xs[1..], pq);
    }
  }

  /** A second filter whose predicate implies the first's is all that counts. */
  lemma {:induction false} FilterOfImplied<T>(xs: seq<T>, p: T -> bool, q: T -> bool)
    requires forall i | 0 <= i < |xs| :: q(xs[i]) ==> p(xs[i])
    ensures Filter(Filter(xs, p), q) == Filter(xs, q)
    decreases |xs|
  {
    if |xs| > 0 {
      assert forall i | 0 <= i < |xs| - 1 :: xs[1..][i] == xs[i + 1];
      FilterOfImplied(xs[1..], p, q);
      var fp := Filter(xs, p);
      if p(xs[0]) {
        assert fp == [xs[0]] + Filter(xs[1..], p);
        assert fp[0] == xs[0] && fp[1..] == Filter(xs[1..], p);
      } else {
        assert fp == Filter(xs[1..], p);
      }
    }
  }

  /** Predicates that agree on every element filter alike. */
  lemma {:induction false} FilterExt<T>(xs: seq<T>, p: T -> bool, q: T -> bool)
    requires forall i | 0 <= i < |xs| :: p(xs[i]) == q(xs[i])
    ensures Filter(xs, p) == Filter(xs, q)
    decreases |xs|
  {
    if |xs| > 0 {
      assert forall i | 0 <= i < |xs| - 1 :: xs[1..][i] == xs[i + 1];
      FilterExt(xs[1..], p, q);
    }
  }

  /** A filter every element passes changes nothing. */
  lemma {:induction false} FilterAll<T>(xs: seq<T>, p: T -> bool)
    requires forall i | 0 <= i < |xs| :: p(xs[i])
    ensures Filter(xs, p) == xs
    decreases |xs|
  {
    if |xs| > 0 {
      assert forall i | 0 <= i < |xs| - 1 :: xs[1..][i] == xs[i + 1];
      FilterAll(xs[1..], p);
    }
  }

  /** `slice(0, n)` keeps a prefix, so the order of what it keeps is the input's. */
  lemma SliceToSubsequence<T>(xs: seq<T>, n: int)
    ensures IsSubsequence(SliceTo(xs, n), xs)
  {
    PrefixIsSubsequence(xs, |SliceTo(xs, n)|);
  }
  /** Four filters in a row are one filter by their conjunction. */
  lemma FilterChain<T>(xs: seq<T>, p1: T -> bool, p2: T -> bool, p3: T -> bool, p4: T -> bool, all: T -> bool)
    requires forall x :: all(x) == (p1(x) && p2(x) && p3(x) && p4(x))
    ensures Filter(Filter(Filter(Filter(xs, p1), p2), p3), p4) == Filter(xs, all)
  {
    var p12 := x => p1(x) && p2(x);
    var p123 := x => p12(x) && p3(x);
    FilterFilter(xs, p1, p2);
    FilterFilter(xs, p12, p3);
    FilterFilter(xs, p123, p4);
    FilterExt(xs, x => p123(x) && p4(x), all);
  }

  /**
   * Taking the first `n` of a descending sort keeps the top of the ranking: no element
   * left out ranks above one kept.
   */
  lemma {:induction false} TopOfDescending<T>(xs: seq<T>, key: T -> real, n: nat, x: T, i: nat)
    requires x in xs && x !in SliceTo(SortByDescending(xs, key), n)
    requires i < |SliceTo(SortByDescending(xs, key), n)|
    ensures key(x) <= key(SliceTo(SortByDescending(xs, key), n)[i])
  {
    var s := SortByDescending(xs, key);
    var top := SliceTo(s, n);
    assert x in multiset(xs);
    assert x in multiset(s);
    var k :| 0 <= k < |s| && s[k] == x;
    assert forall j | 0 <= j < |top| :: top[j] == s[j];
    assert k >= |top|;
    assert top[i] == s[i];
  }

  /** The index of the first element satisfying `p`, or `|xs|` when there is none. */
  function IndexWhere<T>(xs: seq<T>, p: T -> bool): (r: nat)
    ensures r <= |xs|
    ensures r < |xs| ==> p(xs[r])
    ensures forall j | 0 <= j < r :: !p(xs[j])
  {
    if |xs| == 0 then 0
    else if p(xs[0]) then 0
    else 1 + IndexWhere(xs[1..], p)
  }
}

=== FILE: location_info.dfy ===
/**
 * `GET /api/location-info` (src/app/api/location-info/route.ts): the place, local time,
 * sun-or-moon sentence and picture shown for the visitor's coordinates. The clock, the
 * reverse geocoder and the text generator are inputs; the route is a pure function of them.
 */
module LocationInfo {
  import opened Wrappers
  import opened Text
  import opened Lists
  import opened LocationTables

  const Unknown := "Your Location"
  const Earth := "Earth"
  const StatementFallback := "A beautiful moment in time."
  const LandmarkLimit := 50
  const StatementLimit := 100

  /** `getSunMoonStatement(hour)`; `None` is NaN, for which every comparison is false. */
  function SunMoonStatement(hour: Option<int>): (r: string)
    ensures hour.Some? && 5 <= hour.value < 7 <==> r == "The sun is rising."
    ensures hour.Some? && 7 <= hour.value < 12 <==> r == "The morning sun is shining."
    ensures hour.Some? && 12 <= hour.value < 14 <==> r == "The sun is at its peak."
    ensures hour.Some? && 14 <= hour.value < 17 <==> r == "The afternoon sun is warm."
    ensures hour.Some? && 17 <= hour.value < 19 <==> r == "Golden hour has begun."
    ensures hour.Some? && 19 <= hour.value < 21 <==> r == "The sun has just set."
    ensures hour.Some? && 21 <= hour.value < 23 <==> r == "The night sky is awakening."
    ensures hour.Some? && (hour.value >= 23 || hour.value < 2) <==> r == "The stars are shining bright."
    ensures hour.Some? && 2 <= hour.value < 5 <==> r == "The moon watches over the city."
    ensures r == StatementFallback <==> hour.None?
  {
    match hour
    case None => StatementFallback
    case Some(h) =>
      if 5 <= h < 7 then "The sun is rising."
      else if 7 <= h < 12 then "The morning sun is shining."
      else if 12 <= h < 14 then "The sun is at its peak."
      else if 14 <= h < 17 then "The afternoon sun is warm."
      else if 17 <= h < 19 then "Golden hour has begun."
      else if 19 <= h < 21 then "The sun has just set."
      else if 21 <= h < 23 then "The night sky is awakening."
      else if h >= 23 || h < 2 then "The stars are shining bright."
      else if 2 <= h < 5 then "The moon watches over the city."
      else StatementFallback
  }

  /** `table[key]`, for a table whose keys are distinct and whose values are non-empty. */
  function Lookup(table: seq<(string, string)>, key: string): (r: Option<string>)
    ensures r.Some? <==> exists i | 0 <= i < |table| :: table[i].0 == key
    ensures r.Some? ==> exists i | 0 <= i < |table| :: table[i] == (key, r.value)
  {
    var i := IndexWhere(table, (e: (string, string)) => e.0 == key);
    if i < |table| then Some(table[i].1) else None
  }

  /** `getScenicImageUrl(city, country)`: the city's picture, else the country's, else the default. */
  function ScenicImage(t: Tables, city: string, country: string): (r: string)
    ensures Lookup(t.cityImages, city).Some? ==> r == Lookup(t.cityImages, city).value
    ensures Lookup(t.cityImages, city).None? && Lookup(t.countryImages, country).Some? ==>
      r == Lookup(t.countryImages, country).value
    ensures Lookup(t.cityImages, city).None? && Lookup(t.countryImages, country).None? ==> r == DefaultScenicImage
  {
    match Lookup(t.cityImages, city)
    case Some(url) => url
    case None => Lookup(t.countryImages, country).GetOr(DefaultScenicImage)
  }

  /**
   * `!lat && !lng` on the results of `parseFloat`, where `None` is NaN: the default location
   * is used when both coordinates are zero or unreadable.
   */
  predicate Falsy(x: Option<real>) {
    x.None? || x.value == 0.0
  }

  predicate UseDefault(lat: Option<real>, lng: Option<real>) {
    Falsy(lat) && Falsy(lng)
  }

  /** `localTime.split(':')[0]`: the text before the first colon, or all of it. */
  function BeforeColon(time: string): (r: string)
    ensures IsPrefixOf(r, time) && ':' !in r
    ensures |r| < |time| ==> time[|r|] == ':'
  {
    time[..IndexWhere(time, (c: char) => c == ':')]
  }

  /** `.replace(/"/g, '')`. */
  function RemoveQuotes(s: string): (r: string)
    ensures '"' !in r
    ensures forall c | c != '"' :: c in r <==> c in s
  {
    FilterSpec(s, (c: char) => c != '"');
    Filter(s, (c: char) => c != '"')
  }

  /** What the reverse geocoder gave: its string address fields when it answered. */
  datatype Geocode = GeoThrew | GeoRefused | GeoFound(address: map<string, string>)

  /**
   * What the text generator gave. The landmark question is asked first; if it throws
   * nothing changes, and if only the second question throws the picture it chose stays.
   */
  datatype Generated =
    | GeneratorOff
    | LandmarkThrew
    | StatementThrew(landmark: string)
    | Answered(landmarkText: string, statementText: string)

  datatype Clock = Clock(parisTime: string, localTime: string, localHour: int)

  datatype Request = Unreadable | Coordinates(lat: Option<real>, lng: Option<real>)

  datatype Place = Place(city: string, country: string, imageUrl: string)

  datatype LocationReply = LocationReply(
    location: string,
    city: string,
    country: string,
    time: string,
    hour: Option<int>,
    sunMoonStatus: string,
    imageUrl: string,
    isDefault: bool)

  const CityKeys: seq<string> := ["city", "town", "village", "municipality", "county", "state"]

  /** An address field that is present and truthy. */
  predicate Present(address: map<string, string>, key: string) {
    key in address && address[key] != ""
  }

  /** `address?.city || address?.town || … || 'Your Location'`. */
  function CityOf(address: map<string, string>): (r: string)
    ensures r != ""
    ensures (forall k | k in CityKeys :: !Present(address, k)) ==> r == Unknown
    ensures forall i | 0 <= i < |CityKeys| && Present(address, CityKeys[i]) ::
      exists j | 0 <= j <= i :: Present(address, CityKeys[j]) && r == address[CityKeys[j]]
  {
    var i := IndexWhere(CityKeys, (k: string) => Present(address, k));
    if i < |CityKeys| then address[CityKeys[i]] else Unknown
  }

  /** The first field in the chain that is present decides the city. */
  lemma CityOfFirstPresent(address: map<string, string>, i: nat)
    requires i < |CityKeys| && Present(address, CityKeys[i])
    requires forall j | 0 <= j < i :: !Present(address, CityKeys[j])
    ensures CityOf(address) == address[CityKeys[i]]
  {
    var k := IndexWhere(CityKeys, (key: string) => Present(address, key));
    assert k == i;
  }

  /** A city is replaced only by its English name, and only when the table lists it. */
  function Translated(t: Tables, city: string): (r: string)
    ensures Lookup(t.cityTranslations, city).Some? ==> r == Lookup(t.cityTranslations, city).value
    ensures Lookup(t.cityTranslations, city).None? ==> r == city
  {
    Lookup(t.cityTranslations, city).GetOr(city)
  }

  /** The place the geocoder's answer gives, or the placeholders when it gave none. */
  function Geocoded(t: Tables, geo: Geocode): (r: Place)
    ensures !geo.GeoFound? ==> r == Place(Unknown, Earth, DefaultScenicImage)
    ensures geo.GeoFound? ==> r.city == Translated(t, CityOf(geo.address))
    ensures geo.GeoFound? ==> r.country == if Present(geo.address, "country") then geo.address["country"] else Earth
    ensures geo.GeoFound? ==> r.imageUrl == ScenicImage(t, r.city, r.country)
  {
    match geo
    case GeoFound(address) =>
      var city := Translated(t, CityOf(address));
      var country := if Present(address, "country") then address["country"] else Earth;
      Place(city, country, ScenicImage(t, city, country))
    case _ => Place(Unknown, Earth, DefaultScenicImage)
  }

  /** `landmarkLower.includes(keyLower) || keyLower.includes(landmarkLower)`. */
  predicate LandmarkMatches(landmark: string, key: string) {
    Contains(ToLower(landmark), ToLower(key)) || Contains(ToLower(key), ToLower(landmark))
  }

  /** The trimmed answer with its double quotes removed. */
  function CleanLandmark(text: string): string {
    RemoveQuotes(Trim(text))
  }

  /**
   * The picture after the landmark answer: an empty or overlong landmark changes nothing;
   * otherwise the first table entry that matches wins, then the country's picture, and
   * failing both the picture stays.
   */
  function LandmarkImage(t: Tables, text: string, country: string, current: string): (r: string)
    ensures var l := CleanLandmark(text);
      l == [] || |l| >= LandmarkLimit ==> r == current
    ensures var l := CleanLandmark(text);
      var i := IndexWhere(t.landmarkImages, (e: (string, string)) => LandmarkMatches(l, e.0));
      && (l != [] && |l| < LandmarkLimit && i < |t.landmarkImages| ==> r == t.landmarkImages[i].1)
      && (l != [] && |l| < LandmarkLimit && i == |t.landmarkImages| ==> r == Lookup(t.countryImages, country).GetOr(current))
  {
    var l := CleanLandmark(text);
    if l == [] || |l| >= LandmarkLimit then current
    else
      var i := IndexWhere(t.landmarkImages, (e: (string, string)) => LandmarkMatches(l, e.0));
      if i < |t.landmarkImages| then t.landmarkImages[i].1
      else Lookup(t.countryImages, country).GetOr(current)
  }

  /** The landmark picture chosen is that of the first entry in table order that matches. */
  lemma LandmarkFirstMatchWins(t: Tables, text: string, country: string, current: string, i: nat)
    requires var l := CleanLandmark(text); l != [] && |l| < LandmarkLimit
    requires i < |t.landmarkImages| && LandmarkMatches(CleanLandmark(text), t.landmarkImages[i].0)
    requires forall j | 0 <= j < i :: !LandmarkMatches(CleanLandmark(text), t.landmarkImages[j].0)
    ensures LandmarkImage(t, text, country, current) == t.landmarkImages[i].1
  {
    var l := CleanLandmark(text);
    var k := IndexWhere(t.landmarkImages, (e: (string, string)) => LandmarkMatches(l, e.0));
    assert k == i;
  }

  /**
   * The generated sentence replaces the computed one when, trimmed, it is non-empty and
   * shorter than 100 characters; its double quotes are then removed.
   */
  function GeneratedStatement(text: string, computed: string): (r: string)
    ensures Trim(text) == [] || |Trim(text)| >= StatementLimit ==> r == computed
    ensures Trim(text) != [] && |Trim(text)| < StatementLimit ==> r == RemoveQuotes(Trim(text)) && |r| < StatementLimit
  {
    var t := Trim(text);
    if t != [] && |t| < StatementLimit then RemoveQuotes(t) else computed
  }

  /** The picture and sentence after the generator, for a non-default location. */
  function Enhanced(t: Tables, place: Place, gen: Generated, computed: string): (r: (string, string))
    ensures gen.GeneratorOff? || gen.LandmarkThrew? ==> r == (place.imageUrl, computed)
    ensures gen.StatementThrew? ==> r == (LandmarkImage(t, gen.landmark, place.country, place.imageUrl), computed)
    ensures gen.Answered? ==> r == (LandmarkImage(t, gen.landmarkText, place.country, place.imageUrl),
                                    GeneratedStatement(gen.statementText, computed))
  {
    match gen
    case GeneratorOff => (place.imageUrl, computed)
    case LandmarkThrew => (place.imageUrl, computed)
    case StatementThrew(landmark) => (LandmarkImage(t, landmark, place.country, place.imageUrl), computed)
    case Answered(landmark, statement) =>
      (LandmarkImage(t, landmark, place.country, place.imageUrl), GeneratedStatement(statement, computed))
  }

  /** The hour read from the Paris clock text. */
  function ParisHour(clock: Clock): Option<int> {
    ParseInt(BeforeColon(clock.parisTime))
  }

  /** The answer for the default location, also the answer when anything outside the services fails. */
  function Paris(clock: Clock): (r: LocationReply)
    ensures r.city == DefaultCity && r.country == DefaultCountry && r.imageUrl == DefaultImage && r.isDefault
    ensures r.location == r.city + ", " + r.country && r.sunMoonStatus == SunMoonStatement(r.hour)
  {
    LocationReply(DefaultCity + ", " + DefaultCountry, DefaultCity, DefaultCountry, clock.parisTime,
      ParisHour(clock), SunMoonStatement(ParisHour(clock)), DefaultImage, true)
  }

  function Get(t: Tables, req: Request, clock: Clock, geo: Geocode, gen: Generated): (r: LocationReply)
    ensures req.Unreadable? ==> r == Paris(clock)
    ensures req.Coordinates? ==> (r.isDefault <==> UseDefault(req.lat, req.lng))
    ensures r.location == r.city + ", " + r.country
    ensures req.Coordinates? && UseDefault(req.lat, req.lng) ==> r == Paris(clock)
    ensures req.Coordinates? && !UseDefault(req.lat, req.lng) ==>
      && r.city == Geocoded(t, geo).city
      && r.country == Geocoded(t, geo).country
      && (r.imageUrl, r.sunMoonStatus) == Enhanced(t, Geocoded(t, geo), gen, SunMoonStatement(Some(clock.localHour)))
      && r.time == clock.localTime
      && r.hour == Some(clock.localHour)
  {
    match req
    case Unreadable => Paris(clock)
    case Coordinates(lat, lng) =>
      if UseDefault(lat, lng) then Paris(clock)
      else
        var place := Geocoded(t, geo);
        var hour := Some(clock.localHour);
        var (image, status) := Enhanced(t, place, gen, SunMoonStatement(hour));
        LocationReply(place.city + ", " + place.country, place.city, place.country, clock.localTime,
          hour, status, image, false)
  }

  /** With both coordinates zero or unreadable, the services are not consulted. */
  lemma DefaultIgnoresServices(t: Tables, lat: Option<real>, lng: Option<real>, clock: Clock,
                               geo: Geocode, gen: Generated, geo': Geocode, gen': Generated)
    requires UseDefault(lat, lng)
    ensures Get(t, Coordinates(lat, lng), clock, geo, gen) == Get(t, Coordinates(lat, lng), clock, geo', gen')
    ensures Get(t, Coordinates(lat, lng), clock, geo, gen) == Get(t, Unreadable, clock, geo, gen)
  {
  }

  /**
   * Away from the default, without a generator, the city comes from the geocoder's chain,
   * translated, and the picture follows the city, then the country.
   */
  lemma GeocodedWithoutGenerator(t: Tables, lat: Option<real>, lng: Option<real>, clock: Clock, address: map<string, string>)
    requires !UseDefault(lat, lng)
    ensures var r := Get(t, Coordinates(lat, lng), clock, GeoFound(address), GeneratorOff);
      && r.city == Translated(t, CityOf(address))
      && r.imageUrl == ScenicImage(t, r.city, r.country)
      && r.sunMoonStatus == SunMoonStatement(Some(clock.localHour))
      && r.sunMoonStatus != StatementFallback
  {
    var place := Geocoded(t, GeoFound(address));
    var computed := SunMoonStatement(Some(clock.localHour));
    assert computed != StatementFallback;
    assert Enhanced(t, place, GeneratorOff, computed) == (place.imageUrl, computed);
  }
}

=== FILE: location_tables.dfy ===
/**
 * The lookup tables of the location route (src/app/api/location-info/route.ts), in the
 * order they are written there. Each is a list of key/value pairs with distinct keys; a
 * JavaScript property read `table[key]` is `LocationInfo.Lookup(table, key)`. The route's
 * functions take the tables as a `Tables` value and are applied to `Site`.
 */
module LocationTables {
  datatype Tables = Tables(
    cityImages: seq<(string, string)>,
    countryImages: seq<(string, string)>,
    cityTranslations: seq<(string, string)>,
    landmarkImages: seq<(string, string)>)

  /** The city pictures (`locationImages`), consulted first. */
  const CityImages: seq<(string, string)> := [
    ("Paris", "https://images.unsplash.com/photo-1502602898657-3e91760cbb34?w=1920&q=80"),
    ("London", "https://images.unsplash.com/photo-1513635269975-59663e0ac1ad?w=1920&q=80"),
    ("New York", "https://images.unsplash.com/photo-1485738422979-f5c462d49f74?w=1920&q=80"),
    ("Tokyo", "https://images.unsplash.com/photo-1493976040374-85c8e12f0c0e?w=1920&q=80"),
    ("Rome", "https://images.unsplash.com/photo-1552832230-c0197dd311b5?w=1920&q=80"),
    ("Dubai", "https://images.unsplash.com/photo-1512453979798-5ea266f8880c?w=1920&q=80"),
    ("Sydney", "https://images.unsplash.com/photo-1506973035872-a4ec16b8e8d9?w=1920&q=80"),
    ("Barcelona", "https://images.unsplash.com/photo-1583422409516-2895a77efded?w=1920&q=80"),
    ("Amsterdam", "https://images.unsplash.com/photo-1534351590666-13e3e96b5017?w=1920&q=80"),
    ("Berlin", "https://images.unsplash.com/photo-1467269204594-9661b134dd2b?w=1920&q=80"),
    ("Vienna", "https://images.unsplash.com/photo-1516550893923-42d28e5677af?w=1920&q=80"),
    ("Prague", "https://images.unsplash.com/photo-1519677100203-a0e668c92439?w=1920&q=80"),
    ("Budapest", "https://images.unsplash.com/photo-1551867633-194f125bddfa?w=1920&q=80"),
    ("Athens", "https://images.unsplash.com/photo-1555993539-1732b0258235?w=1920&q=80"),
    ("Istanbul", "https://images.unsplash.com/photo-1541432901042-2d8bd64b4a9b?w=1920&q=80"),
    ("Cairo", "https://images.unsplash.com/photo-1539650116574-8efeb43e2750?w=1920&q=80"),
    ("Marrakech", "https://images.unsplash.com/photo-1539020140153-e479b8c22e70?w=1920&q=80"),
    ("Cape Town", "https://images.unsplash.com/photo-1580060839134-75a5edca2e99?w=1920&q=80"),
    ("Rio de Janeiro", "https://images.unsplash.com/photo-1483729558449-99ef09a8c325?w=1920&q=80"),
    ("Buenos Aires", "https://images.unsplash.com/photo-1589909202802-8f4aadce1849?w=1920&q=80"),
    ("Mexico City", "https://images.unsplash.com/photo-1518638150340-f706e86654de?w=1920&q=80"),
    ("Toronto", "https://images.unsplash.com/photo-1503614472-8c93d56e92ce?w=1920&q=80"),
    ("Beijing", "https://images.unsplash.com/photo-1508804185872-d7badad00f7d?w=1920&q=80"),
    ("Shanghai", "https://images.unsplash.com/photo-1474181487882-5abf3f0ba6c2?w=1920&q=80"),
    ("Mumbai", "https://images.unsplash.com/photo-1529253355930-ddbe423a2ac7?w=1920&q=80"),
    ("Delhi", "https://images.unsplash.com/photo-1564507592333-c60657eea523?w=1920&q=80"),
    ("Bangkok", "https://images.unsplash.com/photo-1563492065599-3520f775eeed?w=1920&q=80"),
    ("Singapore", "https://images.unsplash.com/photo-1525625293386-3f8f99389edd?w=1920&q=80"),
    ("Hong Kong", "https://images.unsplash.com/photo-1536599018102-9f803c140fc1?w=1920&q=80"),
    ("Seoul", "https://images.unsplash.com/photo-1538485399081-7191377e8241?w=1920&q=80"),
    ("Lisbon", "https://images.unsplash.com/photo-1555881400-74d7acaacd8b?w=1920&q=80"),
    ("Madrid", "https://images.unsplash.com/photo-1539037116277-4db20889f2d4?w=1920&q=80"),
    ("Milan", "https://images.unsplash.com/photo-1476900164809-ff19b8ae5968?w=1920&q=80"),
    ("Venice", "https://images.unsplash.com/photo-1523906834658-6e24ef2386f9?w=1920&q=80"),
    ("Florence", "https://images.unsplash.com/photo-1543429776-2782fc8e319c?w=1920&q=80"),
    ("Moscow", "https://images.unsplash.com/photo-1513326738677-b964603b136d?w=1920&q=80"),
    ("St Petersburg", "https://images.unsplash.com/photo-1548834925-e48f8a27ae6f?w=1920&q=80"),
    ("Santorini", "https://images.unsplash.com/photo-1570077188670-e3a8d69ac5ff?w=1920&q=80"),
    ("Reykjavik", "https://images.unsplash.com/photo-1520769945061-0a448c463865?w=1920&q=80"),
    ("Stockholm", "https://images.unsplash.com/photo-1509356843151-3e7d96241e11?w=1920&q=80"),
    ("Copenhagen", "https://images.unsplash.com/photo-1513622470522-26c3c8a854bc?w=1920&q=80"),
    ("Oslo", "https://images.unsplash.com/photo-1531366936337-7c912a4589a7?w=1920&q=80"),
    ("Helsinki", "https://images.unsplash.com/photo-1538332576228-eb5b4c4de6f5?w=1920&q=80"),
    ("Dublin", "https://images.unsplash.com/photo-1590089415225-401ed6f9db8e?w=1920&q=80"),
    ("Edinburgh", "https://images.unsplash.com/photo-1506377585622-bedcbb5f7f8c?w=1920&q=80"),
    ("Warsaw", "https://images.unsplash.com/photo-1519197924294-4ba991a11128?w=1920&q=80"),
    ("Zurich", "https://images.unsplash.com/photo-1530122037265-a5f1f91d3b99?w=1920&q=80"),
    ("Geneva", "https://images.unsplash.com/photo-1573108037329-37aa135a142e?w=1920&q=80"),
    ("Brussels", "https://images.unsplash.com/photo-1491557345352-5929e343eb89?w=1920&q=80"),
    ("Dubrovnik", "https://images.unsplash.com/photo-1555990538-1e6e9a8a9d52?w=1920&q=80"),
    ("Bali", "https://images.unsplash.com/photo-1537996194471-e657df975ab4?w=1920&q=80"),
    ("Hanoi", "https://images.unsplash.com/photo-1557750255-c76072a7aad1?w=1920&q=80"),
    ("Manila", "https://images.unsplash.com/photo-1518509562904-e7ef99cdcc86?w=1920&q=80"),
    ("Kuala Lumpur", "https://images.unsplash.com/photo-1596422846543-75c6fc197f07?w=1920&q=80"),
    ("Auckland", "https://images.unsplash.com/photo-1507699622108-4be3abd695ad?w=1920&q=80"),
    ("Tel Aviv", "https://images.unsplash.com/photo-1552423314-cf29ab68ad73?w=1920&q=80"),
    ("Riyadh", "https://images.unsplash.com/photo-1586724237569-f3d0c1dee8c6?w=1920&q=80"),
    ("Los Angeles", "https://images.unsplash.com/photo-1534190760961-74e8c1c5c3da?w=1920&q=80"),
    ("San Francisco", "https://images.unsplash.com/photo-1501594907352-04cda38ebc29?w=1920&q=80"),
    ("Chicago", "https://images.unsplash.com/photo-1494522855154-9297ac14b55f?w=1920&q=80"),
    ("Miami", "https://images.unsplash.com/photo-1533106497176-45ae19e68ba2?w=1920&q=80"),
    ("Las Vegas", "https://images.unsplash.com/photo-1581351721010-8cf859cb14a4?w=1920&q=80"),
    ("Washington", "https://images.unsplash.com/photo-1501466044931-62695aada8e9?w=1920&q=80"),
    ("Boston", "https://images.unsplash.com/photo-1501979376754-2ff867a4f659?w=1920&q=80"),
    ("Seattle", "https://images.unsplash.com/photo-1502175353174-a7a70e73b362?w=1920&q=80"),
    ("Vancouver", "https://images.unsplash.com/photo-1559511260-66a68eae2be0?w=1920&q=80"),
    ("Montreal", "https://images.unsplash.com/photo-1519178614-68673b201f36?w=1920&q=80")
  ]

  /** The country pictures (`countryImages`), the fallback when the city has none. */
  const CountryImages: seq<(string, string)> := [
    ("France", "https://images.unsplash.com/photo-1502602898657-3e91760cbb34?w=1920&q=80"),
    ("Italy", "https://images.unsplash.com/photo-1552832230-c0197dd311b5?w=1920&q=80"),
    ("Spain", "https://images.unsplash.com/photo-1583422409516-2895a77efded?w=1920&q=80"),
    ("United Kingdom", "https://images.unsplash.com/photo-1513635269975-59663e0ac1ad?w=1920&q=80"),
    ("Germany", "https://images.unsplash.com/photo-1467269204594-9661b134dd2b?w=1920&q=80"),
    ("Japan", "https://images.unsplash.com/photo-1493976040374-85c8e12f0c0e?w=1920&q=80"),
    ("United States", "https://images.unsplash.com/photo-1485738422979-f5c462d49f74?w=1920&q=80"),
    ("Australia", "https://images.unsplash.com/photo-1506973035872-a4ec16b8e8d9?w=1920&q=80"),
    ("Greece", "https://images.unsplash.com/photo-1570077188670-e3a8d69ac5ff?w=1920&q=80"),
    ("Netherlands", "https://images.unsplash.com/photo-1534351590666-13e3e96b5017?w=1920&q=80"),
    ("Switzerland", "https://images.unsplash.com/photo-1530122037265-a5f1f91d3b99?w=1920&q=80"),
    ("Portugal", "https://images.unsplash.com/photo-1555881400-74d7acaacd8b?w=1920&q=80"),
    ("Austria", "https://images.unsplash.com/photo-1516550893923-42d28e5677af?w=1920&q=80"),
    ("Belgium", "https://images.unsplash.com/photo-1491557345352-5929e343eb89?w=1920&q=80"),
    ("Sweden", "https://images.unsplash.com/photo-1509356843151-3e7d96241e11?w=1920&q=80"),
    ("Norway", "https://images.unsplash.com/photo-1531366936337-7c912a4589a7?w=1920&q=80"),
    ("Denmark", "https://images.unsplash.com/photo-1513622470522-26c3c8a854bc?w=1920&q=80"),
    ("Finland", "https://images.unsplash.com/photo-1538332576228-eb5b4c4de6f5?w=1920&q=80"),
    ("Ireland", "https://images.unsplash.com/photo-1590089415225-401ed6f9db8e?w=1920&q=80"),
    ("Poland", "https://images.unsplash.com/photo-1519197924294-4ba991a11128?w=1920&q=80"),
    ("Czech Republic", "https://images.unsplash.com/photo-1519677100203-a0e668c92439?w=1920&q=80"),
    ("Czechia", "https://images.unsplash.com/photo-1519677100203-a0e668c92439?w=1920&q=80"),
    ("Hungary", "https://images.unsplash.com/photo-1551867633-194f125bddfa?w=1920&q=80"),
    ("Croatia", "https://images.unsplash.com/photo-1555990538-1e6e9a8a9d52?w=1920&q=80"),
    ("Turkey", "https://images.unsplash.com/photo-1541432901042-2d8bd64b4a9b?w=1920&q=80"),
    ("Egypt", "https://images.unsplash.com/photo-1539650116574-8efeb43e2750?w=1920&q=80"),
    ("Morocco", "https://images.unsplash.com/photo-1539020140153-e479b8c22e70?w=1920&q=80"),
    ("South Africa", "https://images.unsplash.com/photo-1580060839134-75a5edca2e99?w=1920&q=80"),
    ("Brazil", "https://images.unsplash.com/photo-1483729558449-99ef09a8c325?w=1920&q=80"),
    ("Argentina", "https://images.unsplash.com/photo-1589909202802-8f4aadce1849?w=1920&q=80"),
    ("Mexico", "https://images.unsplash.com/photo-1518638150340-f706e86654de?w=1920&q=80"),
    ("Canada", "https://images.unsplash.com/photo-1503614472-8c93d56e92ce?w=1920&q=80"),
    ("China", "https://images.unsplash.com/photo-1508804185872-d7badad00f7d?w=1920&q=80"),
    ("India", "https://images.unsplash.com/photo-1564507592333-c60657eea523?w=1920&q=80"),
    ("Thailand", "https://images.unsplash.com/photo-1563492065599-3520f775eeed?w=1920&q=80"),
    ("Vietnam", "https://images.unsplash.com/photo-1557750255-c76072a7aad1?w=1920&q=80"),
    ("Singapore", "https://images.unsplash.com/photo-1525625293386-3f8f99389edd?w=1920&q=80"),
    ("Indonesia", "https://images.unsplash.com/photo-1537996194471-e657df975ab4?w=1920&q=80"),
    ("Malaysia", "https://images.unsplash.com/photo-1596422846543-75c6fc197f07?w=1920&q=80"),
    ("Philippines", "https://images.unsplash.com/photo-1518509562904-e7ef99cdcc86?w=1920&q=80"),
    ("South Korea", "https://images.unsplash.com/photo-1538485399081-7191377e8241?w=1920&q=80"),
    ("New Zealand", "https://images.unsplash.com/photo-1507699622108-4be3abd695ad?w=1920&q=80"),
    ("Iceland", "https://images.unsplash.com/photo-1520769945061-0a448c463865?w=1920&q=80"),
    ("Russia", "https://images.unsplash.com/photo-1513326738677-b964603b136d?w=1920&q=80"),
    ("United Arab Emirates", "https://images.unsplash.com/photo-1512453979798-5ea266f8880c?w=1920&q=80"),
    ("Israel", "https://images.unsplash.com/photo-1552423314-cf29ab68ad73?w=1920&q=80"),
    ("Saudi Arabia", "https://images.unsplash.com/photo-1586724237569-f3d0c1dee8c6?w=1920&q=80")
  ]

  /** Local city names that are replaced by their English names (`cityTranslations`). */
  const CityTranslations: seq<(string, string)> := [
    ("Moskva", "Moscow"),
    ("Roma", "Rome"),
    ("Milano", "Milan"),
    ("Firenze", "Florence"),
    ("Venezia", "Venice"),
    ("Napoli", "Naples"),
    ("München", "Munich"),
    ("Köln", "Cologne"),
    ("Wien", "Vienna"),
    ("Zürich", "Zurich"),
    ("Genève", "Geneva"),
    ("Bruxelles", "Brussels"),
    ("Athina", "Athens"),
    ("Praha", "Prague"),
    ("Warszawa", "Warsaw"),
    ("Lisboa", "Lisbon"),
    ("Bucuresti", "Bucharest"),
    ("Moskau", "Moscow"),
    ("Pékin", "Beijing"),
    ("Le Caire", "Cairo")
  ]

  /** Landmark pictures (`landmarkImages`), searched in this order. */
  const LandmarkImages: seq<(string, string)> := [
    ("Eiffel Tower", "https://images.unsplash.com/photo-1502602898657-3e91760cbb34?w=1920&q=80"),
    ("Big Ben", "https://images.unsplash.com/photo-1513635269975-59663e0ac1ad?w=1920&q=80"),
    ("Tower Bridge", "https://images.unsplash.com/photo-1513635269975-59663e0ac1ad?w=1920&q=80"),
    ("Statue of Liberty", "https://images.unsplash.com/photo-1485738422979-f5c462d49f74?w=1920&q=80"),
    ("Empire State Building", "https://images.unsplash.com/photo-1534430480872-3498386e7856?w=1920&q=80"),
    ("Colosseum", "https://images.unsplash.com/photo-1552832230-c0197dd311b5?w=1920&q=80"),
    ("Burj Khalifa", "https://images.unsplash.com/photo-1512453979798-5ea266f8880c?w=1920&q=80"),
    ("Sydney Opera House", "https://images.unsplash.com/photo-1506973035872-a4ec16b8e8d9?w=1920&q=80"),
    ("Sagrada Familia", "https://images.unsplash.com/photo-1583422409516-2895a77efded?w=1920&q=80"),
    ("Brandenburg Gate", "https://images.unsplash.com/photo-1467269204594-9661b134dd2b?w=1920&q=80"),
    ("Acropolis", "https://images.unsplash.com/photo-1555993539-1732b0258235?w=1920&q=80"),
    ("Parthenon", "https://images.unsplash.com/photo-1555993539-1732b0258235?w=1920&q=80"),
    ("Charles Bridge", "https://images.unsplash.com/photo-1519677100203-a0e668c92439?w=1920&q=80"),
    ("Pyramids of Giza", "https://images.unsplash.com/photo-1539650116574-8efeb43e2750?w=1920&q=80"),
    ("Great Pyramid", "https://images.unsplash.com/photo-1539650116574-8efeb43e2750?w=1920&q=80"),
    ("Taj Mahal", "https://images.unsplash.com/photo-1564507592333-c60657eea523?w=1920&q=80"),
    ("Great Wall", "https://images.unsplash.com/photo-1508804185872-d7badad00f7d?w=1920&q=80"),
    ("Great Wall of China", "https://images.unsplash.com/photo-1508804185872-d7badad00f7d?w=1920&q=80"),
    ("Mount Fuji", "https://images.unsplash.com/photo-1493976040374-85c8e12f0c0e?w=1920&q=80"),
    ("Tokyo Tower", "https://images.unsplash.com/photo-1536098561742-ca998e48cbcc?w=1920&q=80"),
    ("Golden Gate Bridge", "https://images.unsplash.com/photo-1501594907352-04cda38ebc29?w=1920&q=80"),
    ("Christ the Redeemer", "https://images.unsplash.com/photo-1483729558449-99ef09a8c325?w=1920&q=80"),
    ("Machu Picchu", "https://images.unsplash.com/photo-1526392060635-9d6019884377?w=1920&q=80"),
    ("Petra", "https://images.unsplash.com/photo-1579606032821-4e6161c81571?w=1920&q=80"),
    ("Santorini", "https://images.unsplash.com/photo-1570077188670-e3a8d69ac5ff?w=1920&q=80"),
    ("Blue Domes", "https://images.unsplash.com/photo-1570077188670-e3a8d69ac5ff?w=1920&q=80"),
    ("Hagia Sophia", "https://images.unsplash.com/photo-1541432901042-2d8bd64b4a9b?w=1920&q=80"),
    ("Blue Mosque", "https://images.unsplash.com/photo-1541432901042-2d8bd64b4a9b?w=1920&q=80"),
    ("Kremlin", "https://images.unsplash.com/photo-1513326738677-b964603b136d?w=1920&q=80"),
    ("Red Square", "https://images.unsplash.com/photo-1513326738677-b964603b136d?w=1920&q=80"),
    ("Petronas Towers", "https://images.unsplash.com/photo-1596422846543-75c6fc197f07?w=1920&q=80"),
    ("Marina Bay Sands", "https://images.unsplash.com/photo-1525625293386-3f8f99389edd?w=1920&q=80"),
    ("Table Mountain", "https://images.unsplash.com/photo-1580060839134-75a5edca2e99?w=1920&q=80"),
    ("CN Tower", "https://images.unsplash.com/photo-1503614472-8c93d56e92ce?w=1920&q=80"),
    ("Niagara Falls", "https://images.unsplash.com/photo-1489447068241-b3490214e879?w=1920&q=80"),
    ("Space Needle", "https://images.unsplash.com/photo-1502175353174-a7a70e73b362?w=1920&q=80"),
    ("Hollywood Sign", "https://images.unsplash.com/photo-1534190760961-74e8c1c5c3da?w=1920&q=80"),
    ("Las Vegas Strip", "https://images.unsplash.com/photo-1581351721010-8cf859cb14a4?w=1920&q=80"),
    ("Grand Canyon", "https://images.unsplash.com/photo-1474044159687-1ee9f3a51722?w=1920&q=80"),
    ("Stonehenge", "https://images.unsplash.com/photo-1599833975787-5c143f373c30?w=1920&q=80"),
    ("Edinburgh Castle", "https://images.unsplash.com/photo-1506377585622-bedcbb5f7f8c?w=1920&q=80"),
    ("Louvre", "https://images.unsplash.com/photo-1499856871958-5b9627545d1a?w=1920&q=80"),
    ("Notre Dame", "https://images.unsplash.com/photo-1478391679764-b2d8b3cd1e94?w=1920&q=80"),
    ("Arc de Triomphe", "https://images.unsplash.com/photo-1509439581779-6298f75bf6e5?w=1920&q=80"),
    ("Duomo", "https://images.unsplash.com/photo-1476900164809-ff19b8ae5968?w=1920&q=80"),
    ("Milan Cathedral", "https://images.unsplash.com/photo-1476900164809-ff19b8ae5968?w=1920&q=80"),
    ("Leaning Tower of Pisa", "https://images.unsplash.com/photo-1543429776-2782fc8e319c?w=1920&q=80"),
    ("Venice Grand Canal", "https://images.unsplash.com/photo-1523906834658-6e24ef2386f9?w=1920&q=80"),
    ("Rialto Bridge", "https://images.unsplash.com/photo-1523906834658-6e24ef2386f9?w=1920&q=80"),
    ("Vatican", "https://images.unsplash.com/photo-1531572753322-ad063cecc140?w=1920&q=80"),
    ("St Peters Basilica", "https://images.unsplash.com/photo-1531572753322-ad063cecc140?w=1920&q=80"),
    ("Trevi Fountain", "https://images.unsplash.com/photo-1552832230-c0197dd311b5?w=1920&q=80"),
    ("Neuschwanstein Castle", "https://images.unsplash.com/photo-1534313314376-a72289b6181e?w=1920&q=80"),
    ("Matterhorn", "https://images.unsplash.com/photo-1530122037265-a5f1f91d3b99?w=1920&q=80"),
    ("Swiss Alps", "https://images.unsplash.com/photo-1530122037265-a5f1f91d3b99?w=1920&q=80"),
    ("Northern Lights", "https://images.unsplash.com/photo-1520769945061-0a448c463865?w=1920&q=80"),
    ("Aurora Borealis", "https://images.unsplash.com/photo-1520769945061-0a448c463865?w=1920&q=80"),
    ("Angkor Wat", "https://images.unsplash.com/photo-1551618428-4d46edab3e6c?w=1920&q=80"),
    ("Bali Temple", "https://images.unsplash.com/photo-1537996194471-e657df975ab4?w=1920&q=80"),
    ("Ha Long Bay", "https://images.unsplash.com/photo-1557750255-c76072a7aad1?w=1920&q=80"),
    ("Forbidden City", "https://images.unsplash.com/photo-1508804185872-d7badad00f7d?w=1920&q=80"),
    ("Victoria Harbour", "https://images.unsplash.com/photo-1536599018102-9f803c140fc1?w=1920&q=80"),
    ("Gyeongbokgung Palace", "https://images.unsplash.com/photo-1538485399081-7191377e8241?w=1920&q=80"),
    ("Fushimi Inari", "https://images.unsplash.com/photo-1478436127897-769e1b3f0f36?w=1920&q=80"),
    ("Sensoji Temple", "https://images.unsplash.com/photo-1545569341-9eb8b30979d9?w=1920&q=80"),
    ("Shibuya Crossing", "https://images.unsplash.com/photo-1542051841857-5f90071e7989?w=1920&q=80"),
    ("Opera House", "https://images.unsplash.com/photo-1506973035872-a4ec16b8e8d9?w=1920&q=80"),
    ("Harbour Bridge", "https://images.unsplash.com/photo-1506973035872-a4ec16b8e8d9?w=1920&q=80"),
    ("Uluru", "https://images.unsplash.com/photo-1529108190281-9a4f620bc2d8?w=1920&q=80"),
    ("Milford Sound", "https://images.unsplash.com/photo-1507699622108-4be3abd695ad?w=1920&q=80")
  ]

  const Site := Tables(CityImages, CountryImages, CityTranslations, LandmarkImages)

  const DefaultScenicImage := "https://images.unsplash.com/photo-1469474968028-56623f02e42e?w=1920&q=80"

  /** The default location, Paris. */
  const DefaultCity := "Paris"
  const DefaultCountry := "France"
  const DefaultImage := "https://images.unsplash.com/photo-1502602898657-3e91760cbb34?w=1920&q=80"
}

=== FILE: navbar.dfy ===
/**
 * The navigation bar's logo choice (src/components/Navbar.tsx): once the page is scrolled
 * the bar has its own dark background and shows the white logo; otherwise the background
 * colour behind the bar is read, and a light one selects the dark logo.
 */
module Navbar {
  import opened Wrappers
  import opened Text

  const ScrollThreshold := 50.0

  /** `window.scrollY > 50`. */
  predicate Scrolled(scrollY: real) {
    scrollY > ScrollThreshold
  }

  datatype Rgb = Rgb(r: nat, g: nat, b: nat)

  /** `\s*` followed by `\d+`: the digits and what follows them. */
  function SpacedNumber(s: string): (r: Option<(string, string)>)
    ensures r.Some? ==> |r.value.0| > 0 && AllDigits(r.value.0) && |r.value.1| < |s|
  {
    var t := TrimStart(s);
    var ds := LeadingDigits(t);
    if ds == [] then None else Some((ds, t[|ds|..]))
  }

  /** `,\s*\d+` */
  function CommaNumber(s: string): (r: Option<(string, string)>)
    ensures r.Some? ==> |r.value.0| > 0 && AllDigits(r.value.0) && |r.value.1| < |s|
  {
    if |s| > 0 && s[0] == ',' then SpacedNumber(s[1..]) else None
  }

  /** `rgba?\(`: what follows the opening, if `s` starts with one. */
  function AfterOpening(s: string): (r: Option<string>)
    ensures r.Some? ==> |r.value| < |s|
  {
    if !IsPrefixOf("rgb", s) then None
    else
      var t := if |s| > 3 && s[3] == 'a' then s[4..] else s[3..];
      if |t| == 0 || t[0] != '(' then None else Some(t[1..])
  }

  /** The three digit runs of `(\d+),\s*(\d+),\s*(\d+)` at the start of `u`. */
  function ComponentDigits(u: string): (r: Option<(string, string, string)>)
    ensures r.Some? ==> AllDigits(r.value.0) && AllDigits(r.value.1) && AllDigits(r.value.2)
  {
    var d1 := LeadingDigits(u);
    if d1 == [] then None
    else match TwoMore(u[|d1|..])
      case None => None
      case Some((g, b)) => Some((d1, g, b))
  }

  /** `,\s*(\d+),\s*(\d+)`: the second and third digit runs. */
  function TwoMore(v: string): (r: Option<(string, string)>)
    ensures r.Some? ==> AllDigits(r.value.0) && AllDigits(r.value.1)
  {
    match CommaNumber(v)
    case None => None
    case Some((g, w)) =>
      match CommaNumber(w)
      case None => None
      case Some((b, _)) => Some((g, b))
  }

  /** The colour those digit runs denote. */
  function Components(u: string): (r: Option<Rgb>) {
    match ComponentDigits(u)
    case None => None
    case Some((d1, d2, d3)) => Some(Rgb(DecimalValue(d1), DecimalValue(d2), DecimalValue(d3)))
  }

  /**
   * `rgba?\((\d+),\s*(\d+),\s*(\d+)` tried at the start of `s`. Each `\d+` is greedy and
   * cannot give digits back to what follows it, and neither can `\s*`, so the match at a
   * given position is unique when there is one.
   */
  function MatchHere(s: string): (r: Option<Rgb>) {
    match AfterOpening(s)
    case None => None
    case Some(u) => Components(u)
  }

  /** `bgColor.match(…)`: the leftmost position where the pattern matches. */
  function RgbMatch(s: string): (r: Option<Rgb>)
    ensures r.None? <==> forall i | 0 <= i <= |s| :: MatchHere(s[i..]).None?
    ensures r.Some? ==> exists i | 0 <= i <= |s| ::
      && MatchHere(s[i..]) == r
      && forall j | 0 <= j < i :: MatchHere(s[j..]).None?
    decreases |s|
  {
    if MatchHere(s).Some? then
      assert s[0..] == s;
      MatchHere(s)
    else if |s| == 0 then
      assert forall i | 0 <= i <= |s| :: s[i..] == s;
      None
    else
      assert s[0..] == s;
      assert forall i | 1 <= i <= |s| :: s[i..] == s[1..][i - 1..];
      var r := RgbMatch(s[1..]);
      LeftmostAfterFirst(s, r);
      r
  }

  /** A leftmost match in `s[1..]` is one in `s` when `s` does not match at its start. */
  lemma LeftmostAfterFirst(s: string, r: Option<Rgb>)
    requires |s| > 0 && MatchHere(s).None?
    requires r.Some? ==> exists k | 0 <= k <= |s| - 1 ::
      && MatchHere(s[1..][k..]) == r
      && forall j | 0 <= j < k :: MatchHere(s[1..][j..]).None?
    ensures r.Some? ==> exists i | 0 <= i <= |s| ::
      && MatchHere(s[i..]) == r
      && forall j | 0 <= j < i :: MatchHere(s[j..]).None?
  {
    if r.Some? {
      var k :| 0 <= k <= |s| - 1 && MatchHere(s[1..][k..]) == r && forall j | 0 <= j < k :: MatchHere(s[1..][j..]).None?;
      assert s[1..][k..] == s[k + 1..];
      assert s[0..] == s;
      forall j | 0 <= j < k + 1 ensures MatchHere(s[j..]).None? {
        if j > 0 {
          assert s[1..][j - 1..] == s[j..];
        }
      }
    }
  }

  /** `(r * 299 + g * 587 + b * 114) / 1000 > 128`, the perceived brightness test. */
  predicate Light(c: Rgb) {
    (c.r * 299 + c.g * 587 + c.b * 114) as real / 1000.0 > 128.0
  }

  /** The brightness test is the exact integer comparison `299r + 587g + 114b > 128000`. */
  lemma LightIsIntegerTest(c: Rgb)
    ensures Light(c) <==> 299 * c.r + 587 * c.g + 114 * c.b > 128000
  {
    var n := c.r * 299 + c.g * 587 + c.b * 114;
    assert n as real / 1000.0 > 128.0 <==> n as real > 128000.0;
  }

  /** What sampling the background found. */
  datatype Sample =
    | NoNavbar                       // no `nav` element: nothing is decided
    | NothingBehind                  // `elementFromPoint` found no element
    | Behind(backgroundColor: string)

  /** `detectBackgroundBrightness`: the next value of `useDarkLogo`. */
  function DarkLogo(scrolled: bool, sample: Sample, current: bool): (r: bool)
    ensures scrolled ==> !r
    ensures !scrolled && sample.NoNavbar? ==> r == current
    ensures !scrolled && sample.NothingBehind? ==> !r
    ensures !scrolled && sample.Behind? ==>
      (r <==> RgbMatch(sample.backgroundColor).Some? && Light(RgbMatch(sample.backgroundColor).value))
  {
    if scrolled then false
    else match sample
      case NoNavbar => current
      case NothingBehind => false
      case Behind(colour) =>
        match RgbMatch(colour)
        case None => false
        case Some(c) => Light(c)
  }

  /**
   * The logo after a scroll event: the scroll handler sets `scrolled`, and the detection that
   * follows decides from it. Past 50 pixels the white logo is shown whatever lies behind.
   */
  function LogoAfterScroll(scrollY: real, sample: Sample, current: bool): (r: bool)
    ensures scrollY > 50.0 ==> !r
    ensures scrollY <= 50.0 ==> r == DarkLogo(false, sample, current)
  {
    DarkLogo(Scrolled(scrollY), sample, current)
  }

  /** The form `getComputedStyle` writes a colour in: `rgb(r, g, b` or `rgba(r, g, b`. */
  function Computed(c: Rgb, alpha: bool): string {
    (if alpha then "rgba(" else "rgb(")
      + NatToString(c.r) + ", " + NatToString(c.g) + ", " + NatToString(c.b)
  }

  /** One space before a non-space is all `trimStart` removes. */
  lemma TrimOneSpace(x: string)
    requires |x| > 0 && !IsSpace(x[0])
    ensures TrimStart(" " + x) == x
  {
    assert (" " + x)[1..] == x;
  }

  /** One space, a run of digits, and something that is not a digit. */
  lemma SpacedDigits(ds: string, rest: string)
    requires |ds| >= 1 && AllDigits(ds)
    requires rest == [] || !IsDigit(rest[0])
    ensures SpacedNumber(" " + ds + rest) == Some((ds, rest))
  {
    var x := ds + rest;
    assert " " + ds + rest == " " + x;
    assert x[0] == ds[0];
    TrimOneSpace(x);
    LeadingDigitsBeforeNonDigit(ds, rest);
    assert x[|ds|..] == rest;
  }

  /** `, ` then a run of digits. */
  lemma CommaDigits(ds: string, rest: string)
    requires |ds| >= 1 && AllDigits(ds)
    requires rest == [] || !IsDigit(rest[0])
    ensures CommaNumber(", " + ds + rest) == Some((ds, rest))
  {
    assert (", " + ds + rest)[1..] == " " + ds + rest;
    SpacedDigits(ds, rest);
  }

  /** The opening `rgb(` or `rgba(`. */
  lemma OpeningOf(alpha: bool, u: string)
    ensures AfterOpening((if alpha then "rgba(" else "rgb(") + u) == Some(u)
  {
    var s := (if alpha then "rgba(" else "rgb(") + u;
    if alpha {
      assert s == "rgba" + ("(" + u);
      assert s[4..] == "(" + u;
    } else {
      assert s == "rgb" + ("(" + u);
      assert s[3..] == "(" + u;
    }
    assert IsPrefixOf("rgb", s);
  }

  /** Three digit runs separated as `getComputedStyle` separates them. */
  lemma ComponentsOfDigits(d1: string, d2: string, d3: string, rest: string)
    requires |d1| >= 1 && AllDigits(d1) && |d2| >= 1 && AllDigits(d2) && |d3| >= 1 && AllDigits(d3)
    requires rest == [] || !IsDigit(rest[0])
    ensures ComponentDigits(d1 + ", " + d2 + ", " + d3 + rest) == Some((d1, d2, d3))
  {
    var tail := ", " + d2 + (", " + d3 + rest);
    var u := d1 + tail;
    assert u == d1 + ", " + d2 + ", " + d3 + rest;
    LeadingDigitsBeforeNonDigit(d1, tail);
    assert u[|d1|..] == tail;
    TwoMoreOfDigits(d2, d3, rest);
  }

  /** The second and third runs, each after a comma and a space. */
  lemma TwoMoreOfDigits(d2: string, d3: string, rest: string)
    requires |d2| >= 1 && AllDigits(d2) && |d3| >= 1 && AllDigits(d3)
    requires rest == [] || !IsDigit(rest[0])
    ensures TwoMore(", " + d2 + (", " + d3 + rest)) == Some((d2, d3))
  {
    CommaDigits(d2, ", " + d3 + rest);
    CommaDigits(d3, rest);
  }

  /** The pattern matches three digit runs written as `getComputedStyle` writes them. */
  lemma MatchDigits(alpha: bool, d1: string, d2: string, d3: string, rest: string)
    requires |d1| >= 1 && AllDigits(d1) && |d2| >= 1 && AllDigits(d2) && |d3| >= 1 && AllDigits(d3)
    requires rest == [] || !IsDigit(rest[0])
    ensures MatchHere((if alpha then "rgba(" else "rgb(") + d1 + ", " + d2 + ", " + d3 + rest)
         == Some(Rgb(DecimalValue(d1), DecimalValue(d2), DecimalValue(d3)))
  {
    var u := d1 + ", " + d2 + ", " + d3 + rest;
    assert (if alpha then "rgba(" else "rgb(") + d1 + ", " + d2 + ", " + d3 + rest
        == (if alpha then "rgba(" else "rgb(") + u;
    OpeningOf(alpha, u);
    ComponentsOfDigits(d1, d2, d3, rest);
  }

  /** A computed colour is read back exactly: the pattern finds its three components. */
  lemma MatchComputed(c: Rgb, alpha: bool, rest: string)
    requires rest == [] || !IsDigit(rest[0])
    ensures RgbMatch(Computed(c, alpha) + rest) == Some(c)
  {
    DecimalRoundTrip(c.r);
    DecimalRoundTrip(c.g);
    DecimalRoundTrip(c.b);
    MatchDigits(alpha, NatToString(c.r), NatToString(c.g), NatToString(c.b), rest);
    var s := Computed(c, alpha) + rest;
    assert s == (if alpha then "rgba(" else "rgb(") + NatToString(c.r) + ", " + NatToString(c.g) + ", " + NatToString(c.b) + rest;
    assert MatchHere(s) == Some(c);
  }

  /**
   * Before scrolling, over an element whose computed colour is `rgb(r, g, b)` or
   * `rgba(r, g, b, a)`, the dark logo is chosen exactly when `299r + 587g + 114b > 128000`.
   */
  lemma DarkLogoOfComputed(c: Rgb, alpha: bool, rest: string, current: bool)
    requires rest == [] || !IsDigit(rest[0])
    ensures DarkLogo(false, Behind(Computed(c, alpha) + rest), current) <==> 299 * c.r + 587 * c.g + 114 * c.b > 128000
  {
    MatchComputed(c, alpha, rest);
    LightIsIntegerTest(c);
  }
}

=== FILE: newsletter_route.dfy ===
/**
 * `POST /api/newsletter` (src/app/api/newsletter/route.ts): checks the address, forwards the
 * subscription upstream, and treats a duplicate subscription as a success.
 */
module NewsletterRoute {
  import opened Wrappers
  import opened Json
  import opened Http

  const EmailRequired := "Email is required"
  const InvalidEmail := "Invalid email format"
  const UpstreamFallback := "Failed to subscribe"
  const Failed := "Failed to subscribe to newsletter"
  const AlreadySubscribed := "You are already subscribed to our newsletter!"
  const Subscribed := "Successfully subscribed to our newsletter!"

  datatype Posted = Posted(forwarded: Option<Json>, reply: Reply)

  /** `{ success: true, message }` with a status. */
  function SuccessReply(status: int, message: string): (r: Reply)
    ensures r.status == status && Prop(r.body, "success") == Some(JBool(true))
  {
    ObjGet([("success", JBool(true)), ("message", JStr(message))], 0);
    Reply(status, Obj([("success", JBool(true)), ("message", JStr(message))]))
  }

  /** The forwarded subscription; falsy names become `undefined` and are left out. */
  function ForwardedSubscription(body: Option<Json>): Json
    requires Destructurable(body)
  {
    Obj([
      ("email", Field(body, "email")),
      ("firstName", Or(Field(body, "firstName"), JUndefined)),
      ("lastName", Or(Field(body, "lastName"), JUndefined))
    ])
  }

  /** `data.error?.code === 'ALREADY_SUBSCRIBED'` on a body that is not `null`. */
  predicate DuplicateCode(data: Json)
    requires !Nullish(data)
  {
    OptProp(Prop(data, "error").value, "code") == JStr("ALREADY_SUBSCRIBED")
  }

  /** The non-2xx branch: 409 is checked before `data.error` is inspected, the error code after. */
  function Refused(status: int, data: Json): (r: Reply)
    ensures status == 409 ==> r == SuccessReply(200, AlreadySubscribed)
    ensures status != 409 && Nullish(data) ==> r == ErrorReply(500, Failed)
    ensures status != 409 && !Nullish(data) && DuplicateCode(data) ==> r == SuccessReply(200, AlreadySubscribed)
    ensures status != 409 && !Nullish(data) && !DuplicateCode(data) ==>
      r.status == status && r == UpstreamError(status, data, UpstreamFallback).value
  {
    if status == 409 then SuccessReply(200, AlreadySubscribed)
    else if Nullish(data) then ErrorReply(500, Failed)
    else if DuplicateCode(data) then SuccessReply(200, AlreadySubscribed)
    else OrCrash(UpstreamError(status, data, UpstreamFallback), Failed)
  }

  /** POST: presence first, then the address's shape. */
  function Post(body: Option<Json>, up: Upstream): (r: Posted)
    ensures !Destructurable(body) ==> r == Posted(None, ErrorReply(500, Failed))
    ensures Destructurable(body) && !Truthy(Field(body, "email")) ==> r == Posted(None, ErrorReply(400, EmailRequired))
    ensures Destructurable(body) && Truthy(Field(body, "email")) && !EmailAccepted(Field(body, "email")) ==>
      r == Posted(None, ErrorReply(400, InvalidEmail))
    ensures r.forwarded.Some? <==> Destructurable(body) && EmailAccepted(Field(body, "email"))
    ensures r.forwarded.Some? ==> r.forwarded.value == ForwardedSubscription(body)
    ensures r.forwarded.Some? && up.Answered? && up.data.Some? && Ok(up.status) ==> r.reply == SuccessReply(201, Subscribed)
    ensures r.forwarded.Some? && up.Answered? && up.data.Some? && !Ok(up.status) ==> r.reply == Refused(up.status, up.data.value)
    ensures r.forwarded.Some? && (up.FetchFailed? || up.data.None?) ==> r.reply == ErrorReply(500, Failed)
  {
    if !Destructurable(body) then Posted(None, ErrorReply(500, Failed))
    else if !Truthy(Field(body, "email")) then Posted(None, ErrorReply(400, EmailRequired))
    else if !EmailAccepted(Field(body, "email")) then Posted(None, ErrorReply(400, InvalidEmail))
    else
      var reply := match up
        case FetchFailed => ErrorReply(500, Failed)
        case Answered(_, None) => ErrorReply(500, Failed)
        case Answered(status, Some(data)) =>
          if Ok(status) then SuccessReply(201, Subscribed) else Refused(status, data);
      Posted(Some(ForwardedSubscription(body)), reply)
  }

  /** Falsy first and last names are left out of the forwarded body; truthy ones are kept. */
  lemma PostOmitsEmptyNames(body: Option<Json>, up: Upstream)
    requires Destructurable(body) && EmailAccepted(Field(body, "email"))
    ensures var f := Post(body, up).forwarded.value;
      && Prop(f, "email") == Some(Field(body, "email"))
      && Prop(f, "firstName") == Some(if Truthy(Field(body, "firstName")) then Field(body, "firstName") else JUndefined)
      && Prop(f, "lastName") == Some(if Truthy(Field(body, "lastName")) then Field(body, "lastName") else JUndefined)
  {
    var kvs := [
      ("email", Field(body, "email")),
      ("firstName", Or(Field(body, "firstName"), JUndefined)),
      ("lastName", Or(Field(body, "lastName"), JUndefined))
    ];
    ObjGet(kvs, 0);
    ObjGet(kvs, 1);
    ObjGet(kvs, 2);
  }

  /** A duplicate subscription, by status or by error code, is answered as a success. */
  lemma DuplicateIsSuccess(body: Option<Json>, status: int, data: Json)
    requires Destructurable(body) && EmailAccepted(Field(body, "email")) && !Ok(status)
    requires status == 409 || (!Nullish(data) && DuplicateCode(data))
    ensures var reply := Post(body, Answered(status, Some(data))).reply;
      reply.status == 200 && Prop(reply.body, "success") == Some(JBool(true))
  {
  }
}

=== FILE: offers.dfy ===
/**
 * The offers page (src/app/offers/page.tsx): a free-text search and an optional
 * experience-type filter over the offers, then a sort by duration or by title, and the
 * experience-type buttons that select or clear a type (`Toggle`).
 */
module Offers {
  import opened Wrappers
  import opened Text
  import opened Lists

  /**
   * A selection that clicking toggles: `selected === t ? null : t`. Clicking the selected
   * item clears the selection; clicking any other item selects it.
   */
  function Toggle<T(==)>(selected: Option<T>, t: T): (r: Option<T>)
    ensures r.None? <==> selected == Some(t)
    ensures r.Some? ==> r.value == t
  {
    if selected == Some(t) then None else Some(t)
  }

  /** Clicking the same item twice restores a selection that was empty or on that item. */
  lemma ToggleTwice<T>(selected: Option<T>, t: T)
    requires selected.None? || selected == Some(t)
    ensures Toggle(Toggle(selected, t), t) == selected
  {
  }

  /** The fields of an offer the page reads, with the hotel's fields flattened. */
  datatype Offer = Offer(
    title: string,
    description: string,
    hotelName: string,
    hotelLocation: string,
    hotelCountry: string,
    experienceType: string,
    duration: int)

  datatype SortOrder = ByDuration | ByTitle

  /** One field contains the query, both lower-cased. */
  predicate FieldMatches(field: string, query: string) {
    Contains(ToLower(field), ToLower(query))
  }

  predicate MatchesSearch(o: Offer, query: string) {
    || FieldMatches(o.title, query)
    || FieldMatches(o.description, query)
    || FieldMatches(o.hotelName, query)
    || FieldMatches(o.hotelLocation, query)
    || FieldMatches(o.hotelCountry, query)
  }

  /** `!selected || offer.experienceType === selected`: `null` and `""` select every type. */
  predicate MatchesType(o: Offer, selected: Option<string>) {
    selected.None? || selected.value == "" || o.experienceType == selected.value
  }

  function Selects(query: string, selected: Option<string>): Offer -> bool {
    (o: Offer) => MatchesSearch(o, query) && MatchesType(o, selected)
  }

  function DurationKey(o: Offer): real {
    o.duration as real
  }

  /**
   * `a.title.localeCompare(b.title)` orders titles by the locale's collation; `rank` is that
   * collation as a key (titles that collate equal get equal ranks).
   */
  function TitleKey(rank: string -> real): Offer -> real {
    (o: Offer) => rank(o.title)
  }

  function SortKey(sortBy: SortOrder, rank: string -> real): Offer -> real {
    if sortBy == ByTitle then TitleKey(rank) else DurationKey
  }

  /** `filteredOffers`: the matching offers, rearranged by the chosen order. */
  function FilteredOffers(offers: seq<Offer>, query: string, selected: Option<string>,
                          sortBy: SortOrder, rank: string -> real): (r: seq<Offer>)
    ensures multiset(r) == multiset(Filter(offers, Selects(query, selected)))
    ensures sortBy == ByDuration ==> forall i, j | 0 <= i < j < |r| :: r[i].duration <= r[j].duration
    ensures sortBy == ByTitle ==> forall i, j | 0 <= i < j < |r| :: rank(r[i].title) <= rank(r[j].title)
  {
    var r := SortBy(Filter(offers, Selects(query, selected)), SortKey(sortBy, rank));
    assert forall i, j | 0 <= i < j < |r| :: SortKey(sortBy, rank)(r[i]) <= SortKey(sortBy, rank)(r[j]);
    r
  }

  /** The list holds exactly the offers that match, each as often as in the input. */
  lemma FilteredOffersSelects(offers: seq<Offer>, query: string, selected: Option<string>,
                              sortBy: SortOrder, rank: string -> real)
    ensures var r := FilteredOffers(offers, query, selected, sortBy, rank);
      && |r| <= |offers|
      && (forall o :: o in r <==> o in offers && MatchesSearch(o, query) && MatchesType(o, selected))
  {
    var kept := Filter(offers, Selects(query, selected));
    var r := FilteredOffers(offers, query, selected, sortBy, rank);
    FilterSpec(offers, Selects(query, selected));
    assert |r| == |multiset(r)| == |multiset(kept)| == |kept|;
    forall o ensures o in r <==> o in kept {
      assert o in r <==> o in multiset(r);
      assert o in kept <==> o in multiset(kept);
    }
  }

  /** With an empty query and no type, every offer is listed. */
  lemma {:induction false} EmptyQueryKeepsAll(offers: seq<Offer>, sortBy: SortOrder, rank: string -> real)
    ensures multiset(FilteredOffers(offers, "", None, sortBy, rank)) == multiset(offers)
  {
    forall i | 0 <= i < |offers| ensures Selects("", None)(offers[i]) {
      ContainsEmpty(ToLower(offers[i].title));
      assert ToLower("") == "";
    }
    FilterAll(offers, Selects("", None));
  }

  /** Offers of equal duration keep the order they arrived in (the sort is stable). */
  lemma SameDurationKeepsOrder(offers: seq<Offer>, query: string, selected: Option<string>,
                               rank: string -> real, d: int)
    ensures WithKey(FilteredOffers(offers, query, selected, ByDuration, rank), DurationKey, d as real)
         == WithKey(Filter(offers, Selects(query, selected)), DurationKey, d as real)
  {
    SortByStable(Filter(offers, Selects(query, selected)), DurationKey, d as real);
  }
}

=== FILE: slugify.dfy ===
/**
 * URL slugs (src/lib/slugify.ts): the string normaliser, the database-id recogniser and
 * the search for the first free `slug`, `slug-2`, `slug-3`, ... against the slugs taken.
 */
module Slug {
  import opened Text
  import Lists

  predicate IsSlugChar(c: char) { IsLowerAlpha(c) || IsDigit(c) || c == '-' }

  predicate NoDoubleHyphen(s: string) {
    forall i | 0 <= i < |s| - 1 :: !(s[i] == '-' && s[i + 1] == '-')
  }

  /** What `slugify` promises: `[a-z0-9-]` only, no `--`, no hyphen at either end. */
  predicate IsSlug(s: string) {
    && (forall i | 0 <= i < |s| :: IsSlugChar(s[i]))
    && NoDoubleHyphen(s)
    && (|s| > 0 ==> s[0] != '-' && s[|s| - 1] != '-')
  }

  /** Unicode combining diacritical marks, U+0300..U+036F. */
  predicate IsCombiningMark(c: char) { '\U{0300}' <= c <= '\U{036F}' }

  predicate IsNotMark(c: char) { !IsCombiningMark(c) }

  /** The class `[a-z0-9\s-]` that the character filter keeps. */
  predicate IsKept(c: char) { IsSlugChar(c) || IsSpace(c) }

  predicate IsHyphen(c: char) { c == '-' }

  /** What separates the words of a slug before the run steps: white space or a hyphen. */
  predicate IsSeparator(c: char) { IsSpace(c) || c == '-' }

  /** `.replace(/[\u0300-\u036f]/g, '')`. */
  function StripCombiningMarks(s: string): (r: string)
    ensures forall i | 0 <= i < |r| :: !IsCombiningMark(r[i])
  {
    Lists.Filter(s, IsNotMark)
  }

  /** Every character other than a mark survives, as often as it occurs and in its order. */
  lemma StripCombiningMarksKeepsOthers(s: string)
    ensures Lists.IsSubsequence(StripCombiningMarks(s), s)
    ensures forall c :: multiset(StripCombiningMarks(s))[c] == if IsCombiningMark(c) then 0 else multiset(s)[c]
  {
    Lists.FilterSpec(s, IsNotMark);
    Lists.FilterCounts(s, IsNotMark);
  }

  /** `.replace(/[^a-z0-9\s-]/g, '')`. */
  function KeepSlugChars(s: string): (r: string)
    ensures forall i | 0 <= i < |r| :: IsKept(r[i])
  {
    Lists.Filter(s, IsKept)
  }

  /** Every `[a-z0-9\s-]` character survives, as often as it occurs and in its order. */
  lemma KeepSlugCharsKeepsClass(s: string)
    ensures Lists.IsSubsequence(KeepSlugChars(s), s)
    ensures forall c :: multiset(KeepSlugChars(s))[c] == if IsKept(c) then multiset(s)[c] else 0
  {
    Lists.FilterSpec(s, IsKept);
    Lists.FilterCounts(s, IsKept);
  }

  /** `.replace(/\s+/g, '-')`: every maximal run of `\s` becomes one hyphen. */
  function CollapseSpaces(s: string): (r: string)
    requires forall i | 0 <= i < |s| :: IsKept(s[i])
    ensures forall i | 0 <= i < |r| :: IsSlugChar(r[i])
  {
    var r := HyphenateSpaces(s);
    assert forall i | 0 <= i < |r| :: IsSlugChar(r[i]) by {
      forall i | 0 <= i < |r| ensures IsSlugChar(r[i]) {
        assert !IsSpace(r[i]);
        if r[i] != '-' {
          var k :| 0 <= k < |s| && s[k] == r[i];
          assert IsKept(s[k]);
        }
      }
    }
    r
  }

  /** `.replace(/-+/g, '-')`: every maximal run of hyphens becomes one hyphen. */
  function CollapseHyphens(s: string): (r: string)
    requires forall i | 0 <= i < |s| :: IsSlugChar(s[i])
    ensures forall i | 0 <= i < |r| :: IsSlugChar(r[i])
    ensures NoDoubleHyphen(r)
  {
    var r := CollapseRuns(s, IsHyphen);
    CollapseRunsClass(s, IsHyphen, r);
    assert forall i | 0 <= i < |r| :: IsSlugChar(r[i]) by {
      forall i | 0 <= i < |r| ensures IsSlugChar(r[i]) {
        if r[i] != '-' {
          var k :| 0 <= k < |s| && s[k] == r[i];
        }
      }
    }
    r
  }

  /**
   * The hyphen step run by run: a stretch without hyphens is kept, the maximal hyphen run
   * after it becomes one hyphen, and the rest is collapsed on its own.
   */
  lemma CollapseHyphensOfRuns(a: string, h: string, b: string)
    requires forall i | 0 <= i < |a| :: IsSlugChar(a[i]) && a[i] != '-'
    requires |h| > 0 && forall i | 0 <= i < |h| :: h[i] == '-'
    requires forall i | 0 <= i < |b| :: IsSlugChar(b[i])
    requires |b| > 0 ==> b[0] != '-'
    ensures forall i | 0 <= i < |a + h + b| :: IsSlugChar((a + h + b)[i])
    ensures CollapseHyphens(a + h + b) == a + "-" + CollapseHyphens(b)
  {
    CollapseRunsOfRuns(a, h, b, IsHyphen);
  }

  /**
   * `.replace(/^-|-$/g, '')`: one hyphen removed at the start and one at the end; a lone
   * `-` is consumed by the first alternative and leaves the empty string.
   */
  function StripEdgeHyphens(s: string): (r: string)
    requires forall i | 0 <= i < |s| :: IsSlugChar(s[i])
    requires NoDoubleHyphen(s)
    ensures IsSlug(r)
    ensures s == r || s == "-" + r || s == r + "-" || s == "-" + r + "-"
  {
    var t := if |s| > 0 && s[0] == '-' then s[1..] else s;
    StripEdgeHyphensSlug(s, t);
    if |t| > 0 && t[|t| - 1] == '-' then t[..|t| - 1] else t
  }

  lemma StripEdgeHyphensSlug(s: string, t: string)
    requires forall i | 0 <= i < |s| :: IsSlugChar(s[i])
    requires NoDoubleHyphen(s)
    requires t == if |s| > 0 && s[0] == '-' then s[1..] else s
    ensures IsSlug(if |t| > 0 && t[|t| - 1] == '-' then t[..|t| - 1] else t)
  {
    if |s| > 1 && s[0] == '-' {
      assert !(s[0] == '-' && s[1] == '-');
    }
    assert NoDoubleHyphen(t);
  }

  /**
   * `slugify(text)`: lower-case, trim, drop combining marks, drop everything outside
   * `[a-z0-9\s-]`, turn whitespace runs into hyphens, collapse hyphen runs, strip the ends.
   */
  function Slugify(text: string): (r: string)
    ensures IsSlug(r)
  {
    Hyphenate(Clean(text))
  }

  /** The character-level steps: case, trimming, diacritics, the `[a-z0-9\s-]` filter. */
  function Clean(text: string): (r: string)
    ensures forall i | 0 <= i < |r| :: IsKept(r[i])
  {
    KeepSlugChars(StripCombiningMarks(Trim(ToLower(text))))
  }

  /**
   * The character steps keep exactly the `[a-z0-9\s-]` characters of the lower-cased,
   * trimmed text, each as often as it occurs and in order: no such character is a
   * combining mark, so the diacritic step removes nothing that the class filter keeps.
   */
  lemma CleanKeepsClass(text: string)
    ensures Clean(text) == Lists.Filter(Trim(ToLower(text)), IsKept)
    ensures Lists.IsSubsequence(Clean(text), Trim(ToLower(text)))
    ensures forall c :: multiset(Clean(text))[c] == if IsKept(c) then multiset(Trim(ToLower(text)))[c] else 0
  {
    var x := Trim(ToLower(text));
    MarksThenClass(x);
    Lists.FilterSpec(x, IsKept);
    Lists.FilterCounts(x, IsKept);
  }

  /** Dropping the marks, then everything outside the class, is dropping everything outside it. */
  lemma MarksThenClass(x: string)
    ensures KeepSlugChars(StripCombiningMarks(x)) == Lists.Filter(x, IsKept)
  {
    Lists.FilterOfImplied(x, IsNotMark, IsKept);
  }

  /** The run-level steps: whitespace runs, hyphen runs, hyphens at the ends. */
  function Hyphenate(kept: string): (r: string)
    requires forall i | 0 <= i < |kept| :: IsKept(kept[i])
    ensures IsSlug(r)
  {
    StripEdgeHyphens(CollapseHyphens(CollapseSpaces(kept)))
  }

  /**
   * The two run steps together turn every maximal run of separators, white space and
   * hyphens mixed, into one hyphen; the last step then drops a hyphen at either end.
   */
  lemma HyphenateCollapsesSeparators(kept: string)
    requires forall i | 0 <= i < |kept| :: IsKept(kept[i])
    ensures var c := CollapseRuns(kept, IsSeparator);
      var r := Hyphenate(kept);
      c == r || c == "-" + r || c == r + "-" || c == "-" + r + "-"
  {
    CollapseBothRuns(kept);
  }

  /** Collapsing the white-space runs, then the hyphen runs, collapses the separator runs. */
  lemma {:induction false} CollapseBothRuns(s: string)
    requires forall i | 0 <= i < |s| :: IsKept(s[i])
    ensures CollapseHyphens(CollapseSpaces(s)) == CollapseRuns(s, IsSeparator)
    decreases |s|
  {
    if |s| > 0 && !IsSeparator(s[0]) {
      var t := s[1..];
      assert s == [s[0]] + t;
      assert forall i | 0 <= i < |t| :: IsKept(t[i]) by {
        forall i | 0 <= i < |t| ensures IsKept(t[i]) { assert t[i] == s[i + 1]; }
      }
      CollapseBothRuns(t);
      CollapseRunsKeepsPrefix([s[0]], t, IsSpace);
      CollapseRunsKeepsPrefix([s[0]], CollapseSpaces(t), IsHyphen);
      CollapseRunsKeepsPrefix([s[0]], t, IsSeparator);
    } else if |s| > 0 {
      SeparatorRunStep(s);
    }
  }

  /** The step of `CollapseBothRuns` for a text that starts with a separator run. */
  lemma {:induction false} SeparatorRunStep(s: string)
    requires forall i | 0 <= i < |s| :: IsKept(s[i])
    requires |s| > 0 && IsSeparator(s[0])
    ensures CollapseHyphens(CollapseSpaces(s)) == CollapseRuns(s, IsSeparator)
    decreases |s|, 0
  {
    var t := DropWhile(s, IsSeparator);
    DropWhileSpec(s, IsSeparator);
    var w := s[..|s| - |t|];
    assert s == w + t;
    assert |w| > 0 && forall i | 0 <= i < |w| :: IsSeparator(w[i]);
    assert forall i | 0 <= i < |t| :: IsKept(t[i]) by {
      forall i | 0 <= i < |t| ensures IsKept(t[i]) { assert t[i] == s[|w| + i]; }
    }
    // The white-space step: the separators become a run of hyphens, the rest is replaced alone.
    CollapseRunsAppend(w, t, IsSpace);
    var h := CollapseRuns(w, IsSpace);
    CollapseRunsClass(w, IsSpace, h);
    assert forall i | 0 <= i < |h| :: h[i] == '-';
    // The hyphen step: that run becomes one hyphen.
    var ht := CollapseSpaces(t);
    CollapseRunsAppend(h, ht, IsHyphen);
    CollapseRunsOfRun(h, IsHyphen);
    CollapseBothRuns(t);
    // The separator collapse in one pass.
    CollapseRunsAppend(w, t, IsSeparator);
    CollapseRunsOfRun(w, IsSeparator);
  }

  lemma StripCombiningMarksOfSlug(s: string)
    requires forall i | 0 <= i < |s| :: IsSlugChar(s[i])
    ensures StripCombiningMarks(s) == s
  {
    Lists.FilterAll(s, IsNotMark);
  }

  lemma KeepSlugCharsOfSlug(s: string)
    requires forall i | 0 <= i < |s| :: IsSlugChar(s[i])
    ensures KeepSlugChars(s) == s
  {
    Lists.FilterAll(s, IsKept);
  }

  lemma CollapseSpacesOfSlug(s: string)
    requires forall i | 0 <= i < |s| :: IsSlugChar(s[i])
    ensures CollapseSpaces(s) == s
  {
    HyphenateSpacesOfNoSpace(s);
  }

  lemma {:induction false} CollapseHyphensOfSlug(s: string)
    requires forall i | 0 <= i < |s| :: IsSlugChar(s[i])
    requires NoDoubleHyphen(s)
    ensures CollapseHyphens(s) == s
    decreases |s|
  {
    if |s| > 0 {
      var t := s[1..];
      assert forall i | 0 <= i < |t| :: t[i] == s[i + 1];
      CollapseHyphensOfSlug(t);
      if s[0] == '-' {
        assert |t| > 0 ==> t[0] != '-';
        assert DropWhile(t, IsHyphen) == t;
        CollapseRunsOfRunStart(s, IsHyphen);
      } else {
        assert s == [s[0]] + t;
        CollapseRunsKeepsPrefix([s[0]], t, IsHyphen);
      }
    }
  }

  lemma ToLowerOfSlugChars(s: string)
    requires forall i | 0 <= i < |s| :: IsSlugChar(s[i]) || s[i] == ' '
    ensures ToLower(s) == s
  {
  }

  lemma TrimOfNoSpace(s: string)
    requires forall i | 0 <= i < |s| :: IsSlugChar(s[i])
    ensures Trim(s) == s
  {
    assert |s| > 0 ==> !IsSpace(s[0]) && !IsSpace(s[|s| - 1]);
    TrimOfNonSpaceEdges(s);
  }

  /** A slug is a fixed point of `slugify`. */
  lemma SlugifyOfSlug(s: string)
    requires IsSlug(s)
    ensures Slugify(s) == s
  {
    CleanOfSlug(s);
    HyphenateOfSlug(s);
  }

  lemma CleanOfSlug(s: string)
    requires forall i | 0 <= i < |s| :: IsSlugChar(s[i])
    ensures Clean(s) == s
  {
    ToLowerOfSlugChars(s);
    TrimOfNoSpace(s);
    StripCombiningMarksOfSlug(s);
    KeepSlugCharsOfSlug(s);
  }

  lemma HyphenateOfSlug(s: string)
    requires IsSlug(s)
    ensures Hyphenate(s) == s
  {
    CollapseSpacesOfSlug(s);
    CollapseHyphensOfSlug(s);
  }

  /** `slugify` is idempotent on its own output. */
  lemma SlugifyIdempotent(text: string)
    ensures Slugify(Slugify(text)) == Slugify(text)
  {
    SlugifyOfSlug(Slugify(text));
  }

  /** Separating two slug words by one space and slugifying joins them with a hyphen. */
  lemma SlugifyTwoWords(a: string, b: string)
    requires IsSlug(a) && IsSlug(b) && |a| > 0 && |b| > 0
    ensures Slugify(a + " " + b) == a + "-" + b
  {
    CleanOfWords(a, b);
    HyphenateOfWords(a, b);
  }

  lemma HyphenateOfWords(a: string, b: string)
    requires IsSlug(a) && IsSlug(b) && |a| > 0 && |b| > 0
    ensures forall i | 0 <= i < |a + " " + b| :: IsKept((a + " " + b)[i])
    ensures Hyphenate(a + " " + b) == a + "-" + b
  {
    CollapseTwoWords(a, b);
    JoinIsSlug(a, b);
    HyphenateOfCollapsed(a + " " + b, a + "-" + b);
  }

  /** Two slug words separated by one space: the space becomes a hyphen. */
  lemma CollapseTwoWords(a: string, b: string)
    requires IsSlug(a) && IsSlug(b) && |b| > 0
    ensures forall i | 0 <= i < |a + " " + b| :: IsKept((a + " " + b)[i])
    ensures CollapseSpaces(a + " " + b) == a + "-" + b
  {
    var s := a + " " + b;
    assert forall i | 0 <= i < |s| :: IsKept(s[i]);
    CollapseSpacesOfWords(a, b);
    CollapseSpacesOfSlug(b);
  }

  /** Once spaces have collapsed to a slug, the hyphen steps change nothing. */
  lemma HyphenateOfCollapsed(s: string, h: string)
    requires forall i | 0 <= i < |s| :: IsKept(s[i])
    requires CollapseSpaces(s) == h && IsSlug(h)
    ensures Hyphenate(s) == h
  {
    CollapseHyphensOfSlug(h);
    StripEdgeHyphensOfSlug(h);
  }

  lemma CleanOfWords(a: string, b: string)
    requires IsSlug(a) && IsSlug(b) && |a| > 0 && |b| > 0
    ensures Clean(a + " " + b) == a + " " + b
  {
    var s := a + " " + b;
    assert forall i | 0 <= i < |s| :: IsSlugChar(s[i]) || s[i] == ' ';
    assert s[0] == a[0] && s[|s| - 1] == b[|b| - 1];
    CleanOfText(s);
  }

  /** Slug characters and spaces, with no space at either end, pass the character steps unchanged. */
  lemma CleanOfText(s: string)
    requires forall i | 0 <= i < |s| :: IsSlugChar(s[i]) || s[i] == ' '
    requires |s| > 0 ==> IsSlugChar(s[0]) && IsSlugChar(s[|s| - 1])
    ensures Clean(s) == s
  {
    ToLowerOfSlugChars(s);
    TrimOfSlugEdges(s);
    StripCombiningMarksOfText(s);
    KeepSlugCharsOfText(s);
  }

  lemma TrimOfSlugEdges(s: string)
    requires |s| > 0 ==> IsSlugChar(s[0]) && IsSlugChar(s[|s| - 1])
    ensures Trim(s) == s
  {
    assert |s| > 0 ==> !IsSpace(s[0]) && !IsSpace(s[|s| - 1]);
    TrimOfNonSpaceEdges(s);
  }

  lemma JoinIsSlug(a: string, b: string)
    requires IsSlug(a) && IsSlug(b) && |a| > 0 && |b| > 0
    ensures IsSlug(a + "-" + b)
  {
    var h := a + "-" + b;
    forall i | 0 <= i < |h| - 1 ensures !(h[i] == '-' && h[i + 1] == '-') {
      if i < |a| - 1 {
        assert h[i] == a[i] && h[i + 1] == a[i + 1];
      } else if i == |a| - 1 {
        assert h[i] == a[i];
      } else if i == |a| {
        assert h[i + 1] == b[0];
      } else {
        assert h[i] == b[i - |a| - 1] && h[i + 1] == b[i - |a|];
      }
    }
  }

  lemma StripCombiningMarksOfText(s: string)
    requires forall i | 0 <= i < |s| :: IsSlugChar(s[i]) || s[i] == ' '
    ensures StripCombiningMarks(s) == s
  {
    Lists.FilterAll(s, IsNotMark);
  }

  lemma KeepSlugCharsOfText(s: string)
    requires forall i | 0 <= i < |s| :: IsSlugChar(s[i]) || s[i] == ' '
    ensures KeepSlugChars(s) == s
  {
    Lists.FilterAll(s, IsKept);
  }

  /** A single space after a space-free word becomes one hyphen. */
  lemma CollapseSpacesOfWords(a: string, b: string)
    requires forall i | 0 <= i < |a| :: IsSlugChar(a[i])
    requires forall i | 0 <= i < |b| :: IsKept(b[i])
    requires |b| > 0 && !IsSpace(b[0])
    ensures CollapseSpaces(a + " " + b) == a + "-" + CollapseSpaces(b)
  {
    HyphenateSpacesOfRuns(a, " ", b);
  }

  lemma StripEdgeHyphensOfSlug(s: string)
    requires IsSlug(s)
    ensures StripEdgeHyphens(s) == s
  {
  }

  /**
   * The example of the doc comment of `slugify`. The text is a parameter fixed by the
   * precondition, so that the solver does not evaluate the pipeline on a literal eagerly.
   */
  lemma SlugifyDocExample(text: string)
    requires text == "Ultimate Mykonos Adventure"
    ensures Slugify(text) == "ultimate-mykonos-adventure"
  {
    var lowered := DocExampleLowered(text);
    DocExampleClean(text, lowered);
    var a, b, c := DocExampleWords(lowered);
    SlugifyOfThreeWords(text, a, b, c);
  }

  lemma DocExampleLowered(text: string) returns (lowered: string)
    requires text == "Ultimate Mykonos Adventure"
    ensures lowered == ToLower(text) && lowered == "ultimate mykonos adventure"
  {
    lowered := ToLower(text);
  }

  lemma DocExampleWords(lowered: string) returns (a: string, b: string, c: string)
    requires lowered == "ultimate mykonos adventure"
    ensures IsSlug(a) && IsSlug(b) && IsSlug(c) && |a| > 0 && |b| > 0 && |c| > 0
    ensures lowered == a + " " + b + " " + c
    ensures a + "-" + b + "-" + c == "ultimate-mykonos-adventure"
  {
    a, b, c := "ultimate", "mykonos", "adventure";
    LettersAreSlug(a);
    LettersAreSlug(b);
    LettersAreSlug(c);
    assert lowered == a + " " + b + " " + c;
  }

  /** Lower-case letters alone form a slug. */
  lemma LettersAreSlug(w: string)
    requires forall i | 0 <= i < |w| :: IsLowerAlpha(w[i])
    ensures IsSlug(w)
  {
  }

  lemma DocExampleClean(text: string, lowered: string)
    requires lowered == ToLower(text) && lowered == "ultimate mykonos adventure"
    ensures Clean(text) == lowered
  {
    assert forall i | 0 <= i < |lowered| :: IsSlugChar(lowered[i]) || lowered[i] == ' ';
    assert !IsSpace(lowered[0]) && !IsSpace(lowered[|lowered| - 1]);
    TrimOfNonSpaceEdges(lowered);
    StripCombiningMarksOfText(lowered);
    KeepSlugCharsOfText(lowered);
  }

  /** Text that cleans to three slug words separated by single spaces slugifies to them hyphenated. */
  lemma SlugifyOfThreeWords(text: string, a: string, b: string, c: string)
    requires IsSlug(a) && IsSlug(b) && IsSlug(c) && |a| > 0 && |b| > 0 && |c| > 0
    requires Clean(text) == a + " " + b + " " + c
    ensures Slugify(text) == a + "-" + b + "-" + c
  {
    HyphenateOfThreeWords(a, b, c);
  }

  /** Three slug words separated by single spaces hyphenate to the words joined by hyphens. */
  lemma HyphenateOfThreeWords(a: string, b: string, c: string)
    requires IsSlug(a) && IsSlug(b) && IsSlug(c) && |a| > 0 && |b| > 0 && |c| > 0
    ensures var s := a + " " + b + " " + c;
      forall i | 0 <= i < |s| :: IsKept(s[i])
    ensures Hyphenate(a + " " + b + " " + c) == a + "-" + b + "-" + c
  {
    var s := a + " " + b + " " + c;
    var rest := b + " " + c;
    var h := a + "-" + b + "-" + c;
    assert s == a + " " + rest;
    assert h == a + "-" + (b + "-" + c);
    CollapseTwoWords(b, c);
    JoinIsSlug(b, c);
    CollapseThreeWords(a, rest, b + "-" + c);
    JoinIsSlug(a, b + "-" + c);
    HyphenateOfCollapsed(s, h);
  }

  /** A slug word, one space, then text whose spaces collapse to `tail`. */
  lemma CollapseThreeWords(a: string, rest: string, tail: string)
    requires IsSlug(a)
    requires forall i | 0 <= i < |rest| :: IsKept(rest[i])
    requires |rest| > 0 && !IsSpace(rest[0]) && CollapseSpaces(rest) == tail
    ensures forall i | 0 <= i < |a + " " + rest| :: IsKept((a + " " + rest)[i])
    ensures CollapseSpaces(a + " " + rest) == a + "-" + tail
  {
    var s := a + " " + rest;
    assert forall i | 0 <= i < |s| :: IsKept(s[i]);
    CollapseSpacesOfWords(a, rest);
  }

  /** `/^c[a-z0-9]{24}$/`: a CUID primary key. */
  predicate IsCuidShape(s: string) {
    |s| == 25 && s[0] == 'c' && forall i | 1 <= i < 25 :: IsLowerAlpha(s[i]) || IsDigit(s[i])
  }

  /** `/^h\d+$/`: a legacy hotel id such as `h199`. */
  predicate IsLegacyHotelId(s: string) {
    |s| >= 2 && s[0] == 'h' && forall i | 1 <= i < |s| :: IsDigit(s[i])
  }

  /** `isCuid(str)`: one left-to-right scan deciding both patterns at once. */
  method IsCuid(s: string) returns (r: bool)
    ensures r <==> IsCuidShape(s) || IsLegacyHotelId(s)
  {
    if |s| < 2 || (s[0] != 'c' && s[0] != 'h') {
      return false;
    }
    var cuidSoFar := s[0] == 'c';
    var legacySoFar := s[0] == 'h';
    var i := 1;
    while i < |s|
      invariant 1 <= i <= |s|
      invariant cuidSoFar <==> s[0] == 'c' && i <= 25 && forall j | 1 <= j < i :: IsLowerAlpha(s[j]) || IsDigit(s[j])
      invariant legacySoFar <==> s[0] == 'h' && forall j | 1 <= j < i :: IsDigit(s[j])
    {
      cuidSoFar := cuidSoFar && i < 25 && (IsLowerAlpha(s[i]) || IsDigit(s[i]));
      legacySoFar := legacySoFar && IsDigit(s[i]);
      i := i + 1;
    }
    r := (cuidSoFar && |s| == 25) || legacySoFar;
  }

  /** The `k`-th name tried: the slug itself, then `slug-2`, `slug-3`, ... */
  function Candidate(slug: string, k: nat): string {
    if k <= 1 then slug else slug + "-" + NatToString(k)
  }

  /** `k` is the first attempt that is not taken. */
  ghost predicate IsFirstFree(slug: string, taken: set<string>, k: nat) {
    && k >= 1
    && Candidate(slug, k) !in taken
    && forall j | 1 <= j < k :: Candidate(slug, j) in taken
  }

  lemma CandidateInjective(slug: string, j: nat, k: nat)
    requires 1 <= j && 1 <= k
    ensures Candidate(slug, j) == Candidate(slug, k) ==> j == k
  {
    var p := slug + "-";
    if j >= 2 && k >= 2 {
      assert Candidate(slug, j)[|p|..] == NatToString(j);
      assert Candidate(slug, k)[|p|..] == NatToString(k);
      NatToStringInjective(j, k);
    } else if j >= 2 {
      assert |Candidate(slug, j)| > |Candidate(slug, k)|;
    } else if k >= 2 {
      assert |Candidate(slug, k)| > |Candidate(slug, j)|;
    }
  }

  /** The attempts 1..n are pairwise distinct, so there are exactly `n` of them. */
  lemma {:induction false} CandidateSetSize(slug: string, n: nat)
    ensures |set k | 1 <= k <= n :: Candidate(slug, k)| == n
    decreases n
  {
    if n > 0 {
      CandidateSetSize(slug, n - 1);
      var prev := set k | 1 <= k <= n - 1 :: Candidate(slug, k);
      var all := set k | 1 <= k <= n :: Candidate(slug, k);
      assert all == prev + {Candidate(slug, n)};
      forall k | 1 <= k <= n - 1 ensures Candidate(slug, k) != Candidate(slug, n) {
        CandidateInjective(slug, k, n);
      }
    }
  }

  /** When the attempts 1..n are all taken, the taken set has at least `n` elements. */
  lemma TakenBound(slug: string, taken: set<string>, n: nat)
    requires forall k | 1 <= k <= n :: Candidate(slug, k) in taken
    ensures n <= |taken|
  {
    CandidateSetSize(slug, n);
    var attempts := set k | 1 <= k <= n :: Candidate(slug, k);
    forall x | x in attempts ensures x in taken {
      var k :| 1 <= k <= n && x == Candidate(slug, k);
    }
    SubsetSize(attempts, taken);
  }

  lemma {:induction false} SubsetSize<T>(a: set<T>, b: set<T>)
    requires a <= b
    ensures |a| <= |b|
    decreases a
  {
    if a != {} {
      var x :| x in a;
      SubsetSize(a - {x}, b - {x});
    }
  }

  /** The counter loop of `generateUniqueSlug`: tries `base`, `base-2`, ... in turn. */
  method FirstFree(base: string, taken: set<string>) returns (slug: string, k: nat)
    ensures IsFirstFree(base, taken, k) && slug == Candidate(base, k)
  {
    slug := base;
    var counter: nat := 2;
    while slug in taken
      invariant counter >= 2
      invariant slug == Candidate(base, counter - 1)
      invariant forall j | 1 <= j < counter - 1 :: Candidate(base, j) in taken
      decreases |taken| - (counter - 1)
    {
      TakenBound(base, taken, counter - 1);
      slug := Candidate(base, counter);
      counter := counter + 1;
    }
    k := counter - 1;
  }

  /**
   * `generateUniqueSlug(baseText, checkExists)` with `checkExists` the membership test of a
   * finite set: the first of `slug`, `slug-2`, `slug-3`, ... that is not taken.
   */
  method GenerateUniqueSlug(baseText: string, taken: set<string>) returns (slug: string)
    ensures slug !in taken
    ensures exists k: nat :: IsFirstFree(Slugify(baseText), taken, k) && slug == Candidate(Slugify(baseText), k)
  {
    var k;
    slug, k := FirstFree(Slugify(baseText), taken);
  }
}

=== FILE: storage.dfy ===
/**
 * The browser's `localStorage` as the site uses it: three keys, the cookie consent, the
 * session id and the personalisation data. The consent helpers and the session-id helper
 * exist twice in the site (src/services/trackingService.ts and
 * src/components/CookieConsentBanner.tsx) with the same behaviour; they are modelled once.
 */
module LocalStorage {
  import opened Wrappers
  import opened Text

  /**
   * A JSON-encoded key: `Absent` when `getItem` gives `null` or the empty string (both are
   * falsy and read as "nothing stored"), `Unparseable` when `JSON.parse` throws.
   */
  datatype Slot<T> = Absent | Unparseable | Parsed(value: T)

  /** `ConsentState`: the three cookie categories and when they were chosen. */
  datatype Consent = Consent(essential: bool, analytics: bool, personalization: bool, timestamp: int)

  /** The two categories other code asks about through `hasConsent(type)`. */
  datatype ConsentKind = Analytics | Personalization

  /** `RecentView`. */
  datatype View = View(hotelId: string, timestamp: int, moodContext: Option<string>)

  /** One property of `moodPreferences: Record<string, number>`, in insertion order. */
  datatype MoodEntry = MoodEntry(moodId: string, count: nat)

  /** `LocalUserData`. */
  datatype UserData = UserData(
    sessionId: string,
    userId: Option<string>,
    moods: seq<MoodEntry>,
    views: seq<View>,
    lastUpdated: int)

  /**
   * The three keys: `natlaupa_cookie_consent`, `natlaupa_session_id` (a plain string, `None`
   * when absent) and `natlaupa_user_data`.
   */
  datatype Store = Store(consent: Slot<Consent>, sessionId: Option<string>, userData: Slot<UserData>)

  /** The consent a fresh visitor starts with in the banner: essential only. */
  const DefaultConsent := Consent(true, false, false, 0)

  /** `getConsentState()`: the stored consent, or `null` when none is stored or it is corrupt. */
  function GetConsentState(st: Store): (r: Option<Consent>)
    ensures r.Some? <==> st.consent.Parsed?
    ensures r.Some? ==> r.value == st.consent.value
  {
    match st.consent
    case Parsed(c) => Some(c)
    case _ => None
  }

  /** The flag of one category in a consent record. */
  function Flag(c: Consent, kind: ConsentKind): bool {
    match kind
    case Analytics => c.analytics
    case Personalization => c.personalization
  }

  /** `hasConsent(type)`: the stored flag, `false` whenever there is no readable consent. */
  function HasConsent(st: Store, kind: ConsentKind): (r: bool)
    ensures r ==> st.consent.Parsed?
    ensures st.consent.Parsed? ==> r == Flag(st.consent.value, kind)
  {
    match GetConsentState(st)
    case Some(c) => Flag(c, kind)
    case None => false
  }

  /** Nothing stored, or something `JSON.parse` rejects, means no consent of either kind. */
  lemma NoStoredConsent(st: Store)
    requires !st.consent.Parsed?
    ensures GetConsentState(st) == None
    ensures !HasConsent(st, Analytics) && !HasConsent(st, Personalization)
  {
  }

  /**
   * The id `getOrCreateSessionId` generates: `sess_<Date.now()>_<random base-36 digits>`.
   * The clock and the random suffix are parameters.
   */
  function NewSessionId(now: nat, random: string): (r: string)
    ensures |r| > 5 && r[..5] == "sess_"
  {
    "sess_" + NatToString(now) + "_" + random
  }

  /** The stored session id when it is a non-empty string. */
  predicate HasSessionId(st: Store) {
    st.sessionId.Some? && st.sessionId.value != ""
  }

  /** `getOrCreateSessionId()`: the stored id, or a new one that is stored before it is returned. */
  function GetOrCreateSessionId(st: Store, now: nat, random: string): (r: (string, Store))
    ensures r.0 != ""
    ensures HasSessionId(st) ==> r.0 == st.sessionId.value && r.1 == st
    ensures !HasSessionId(st) ==> r.1 == st.(sessionId := Some(r.0)) && r.0 == NewSessionId(now, random)
  {
    if HasSessionId(st) then (st.sessionId.value, st)
    else
      var id := NewSessionId(now, random);
      (id, st.(sessionId := Some(id)))
  }

  /** Once an id exists, every later call returns it and writes nothing, whatever the clock says. */
  lemma SessionIdIdempotent(st: Store, now: nat, random: string, now2: nat, random2: string)
    ensures var (id, st1) := GetOrCreateSessionId(st, now, random);
      GetOrCreateSessionId(st1, now2, random2) == (id, st1)
  {
  }
}

=== FILE: text.dfy ===
/**
 * Character classes and string helpers shared by the site's code: JavaScript's `\s`,
 * ASCII case folding, `String.prototype.includes`, `trim`, decimal rendering of
 * counters and `parseInt` without a radix.
 */
module Text {
  import opened Wrappers

  /** JavaScript's `\s` class: the WhiteSpace and LineTerminator code points of ECMA-262. */
  predicate IsSpace(c: char) {
    || c == '\t' || c == '\n' || c == '\U{000B}' || c == '\U{000C}' || c == '\r' || c == ' '
    || c == '\U{00A0}' || c == '\U{1680}' || ('\U{2000}' <= c <= '\U{200A}')
    || c == '\U{2028}' || c == '\U{2029}' || c == '\U{202F}' || c == '\U{205F}'
    || c == '\U{3000}' || c == '\U{FEFF}'
  }

  predicate IsDigit(c: char) { '0' <= c <= '9' }
  predicate IsLowerAlpha(c: char) { 'a' <= c <= 'z' }
  predicate IsUpperAlpha(c: char) { 'A' <= c <= 'Z' }
  predicate IsHexDigit(c: char) { IsDigit(c) || 'a' <= c <= 'f' || 'A' <= c <= 'F' }

  predicate AllDigits(s: string) { forall i | 0 <= i < |s| :: IsDigit(s[i]) }
  predicate AllHexDigits(s: string) { forall i | 0 <= i < |s| :: IsHexDigit(s[i]) }
  predicate NoSpace(s: string) { forall i | 0 <= i < |s| :: !IsSpace(s[i]) }

  /** `toLowerCase` restricted to ASCII: only 'A'..'Z' change. */
  function ToLowerChar(c: char): char {
    if IsUpperAlpha(c) then (c as int + 32) as char else c
  }

  function ToLower(s: string): string {
    seq(|s|, i requires 0 <= i < |s| => ToLowerChar(s[i]))
  }

  /** Lower-casing works character by character, so it distributes over concatenation. */
  lemma ToLowerAppend(x: string, y: string)
    ensures ToLower(x + y) == ToLower(x) + ToLower(y)
  {
  }

  /** Lower-casing leaves no ASCII capital behind, so doing it twice changes nothing. */
  lemma ToLowerIdempotent(s: string)
    ensures forall i | 0 <= i < |ToLower(s)| :: !IsUpperAlpha(ToLower(s)[i])
    ensures ToLower(ToLower(s)) == ToLower(s)
  {
  }

  predicate IsPrefixOf(p: string, s: string) {
    |p| <= |s| && s[..|p|] == p
  }

  /** `hay.includes(needle)`. */
  predicate Contains(hay: string, needle: string) {
    exists i | 0 <= i <= |hay| :: IsPrefixOf(needle, hay[i..])
  }

  lemma ContainsEmpty(hay: string)
    ensures Contains(hay, "")
  {
    assert IsPrefixOf("", hay[0..]);
  }

  /** `trimStart`: drops leading `\s` characters. */
  function TrimStart(s: string): (r: string)
    ensures |r| <= |s| && r == s[|s| - |r|..]
    ensures r == [] || !IsSpace(r[0])
    ensures forall i | 0 <= i < |s| - |r| :: IsSpace(s[i])
  {
    if |s| > 0 && IsSpace(s[0]) then TrimStart(s[1..]) else s
  }

  /** `trimEnd`: drops trailing `\s` characters. */
  function TrimEnd(s: string): (r: string)
    ensures |r| <= |s| && r == s[..|r|]
    ensures r == [] || !IsSpace(r[|r| - 1])
    ensures forall i | |r| <= i < |s| :: IsSpace(s[i])
  {
    if |s| > 0 && IsSpace(s[|s| - 1]) then TrimEnd(s[..|s| - 1]) else s
  }

  /** `trim`. */
  function Trim(s: string): string {
    TrimEnd(TrimStart(s))
  }

  lemma TrimStartOfNonSpace(s: string)
    requires |s| > 0 ==> !IsSpace(s[0])
    ensures TrimStart(s) == s
  {
  }

  lemma TrimEndOfNonSpace(s: string)
    requires |s| > 0 ==> !IsSpace(s[|s| - 1])
    ensures TrimEnd(s) == s
  {
  }

  /** Text that neither starts nor ends with white space is its own `trim`. */
  lemma TrimOfNonSpaceEdges(s: string)
    requires |s| > 0 ==> !IsSpace(s[0]) && !IsSpace(s[|s| - 1])
    ensures Trim(s) == s
  {
    TrimStartOfNonSpace(s);
    TrimEndOfNonSpace(s);
  }

  /** A string is blank after `trim` exactly when every character of it is `\s`. */
  lemma TrimEmptyIffAllSpace(s: string)
    ensures Trim(s) == [] <==> forall i | 0 <= i < |s| :: IsSpace(s[i])
  {
    var t := TrimStart(s);
    if t != [] {
      assert t[0] == s[|s| - |t|];
    }
  }

  /** Drops the leading characters that satisfy `p`. */
  function DropWhile(s: string, p: char -> bool): (r: string)
    ensures |r| <= |s|
  {
    if |s| > 0 && p(s[0]) then DropWhile(s[1..], p) else s
  }

  /** What is dropped is a prefix in the class, and what is left starts outside it. */
  lemma {:induction false} DropWhileSpec(s: string, p: char -> bool)
    ensures var r := DropWhile(s, p); r == s[|s| - |r|..] && (r == [] || !p(r[0]))
    ensures forall i | 0 <= i < |s| - |DropWhile(s, p)| :: p(s[i])
    decreases |s|
  {
    if |s| > 0 && p(s[0]) {
      DropWhileSpec(s[1..], p);
    }
  }

  /**
   * `.replace(/X+/g, '-')` for a character class `X` given by `p`: every maximal run of
   * characters in the class becomes one hyphen and every other character is kept.
   */
  function CollapseRuns(s: string, p: char -> bool): (r: string)
    ensures |s| > 0 ==> |r| > 0 && r[0] == (if p(s[0]) then '-' else s[0])
    decreases |s|
  {
    if |s| == 0 then []
    else if p(s[0]) then "-" + CollapseRuns(DropWhile(s[1..], p), p)
    else [s[0]] + CollapseRuns(s[1..], p)
  }

  /**
   * What survives the replacement: hyphens and characters of the text outside the class,
   * and a hyphen standing for a run is never followed by another character of the class.
   */
  lemma {:induction false} CollapseRunsClass(s: string, p: char -> bool, r: string)
    requires r == CollapseRuns(s, p)
    ensures forall i | 0 <= i < |r| :: r[i] == '-' || (r[i] in s && !p(r[i]))
    ensures forall i | 0 <= i < |r| - 1 :: r[i] == '-' ==> !p(r[i + 1])
    decreases |s|
  {
    if |s| > 0 {
      var t := if p(s[0]) then DropWhile(s[1..], p) else s[1..];
      DropWhileSpec(s[1..], p);
      var rt := CollapseRuns(t, p);
      CollapseRunsClass(t, p, rt);
      assert r == [r[0]] + rt;
      forall i | 0 <= i < |r| ensures r[i] == '-' || (r[i] in s && !p(r[i])) {
        if i > 0 && rt[i - 1] != '-' {
          var k :| 0 <= k < |t| && t[k] == rt[i - 1];
          assert t[k] == s[|s| - |t| + k];
        }
      }
    }
  }

  /** Dropping a class from a concatenation stops at the second part when that starts outside it. */
  lemma {:induction false} DropWhileAppend(x: string, y: string, p: char -> bool)
    requires |y| > 0 ==> !p(y[0])
    ensures DropWhile(x + y, p) == DropWhile(x, p) + y
    decreases |x|
  {
    if |x| > 0 && p(x[0]) {
      assert (x + y)[1..] == x[1..] + y;
      DropWhileAppend(x[1..], y, p);
    } else if |x| == 0 {
      assert x + y == y;
    }
  }

  /** Text with no character of the class passes unchanged. */
  lemma {:induction false} CollapseRunsOfNone(s: string, p: char -> bool)
    requires forall i | 0 <= i < |s| :: !p(s[i])
    ensures CollapseRuns(s, p) == s
    decreases |s|
  {
    if |s| > 0 {
      assert forall i | 0 <= i < |s| - 1 :: s[1..][i] == s[i + 1];
      CollapseRunsOfNone(s[1..], p);
    }
  }

  /** A prefix with no character of the class is kept as it is. */
  lemma {:induction false} CollapseRunsKeepsPrefix(a: string, z: string, p: char -> bool)
    requires forall i | 0 <= i < |a| :: !p(a[i])
    ensures CollapseRuns(a + z, p) == a + CollapseRuns(z, p)
    decreases |a|
  {
    if |a| > 0 {
      assert (a + z)[0] == a[0] && (a + z)[1..] == a[1..] + z;
      assert forall i | 0 <= i < |a| - 1 :: a[1..][i] == a[i + 1];
      CollapseRunsKeepsPrefix(a[1..], z, p);
      assert a + CollapseRuns(z, p) == [a[0]] + (a[1..] + CollapseRuns(z, p));
    } else {
      assert a + z == z;
    }
  }

  /** A whole run becomes a single hyphen. */
  lemma CollapseRunsOfRun(w: string, p: char -> bool)
    requires |w| > 0 && forall i | 0 <= i < |w| :: p(w[i])
    ensures CollapseRuns(w, p) == "-"
  {
  }

  /** Runs never cross a boundary that is followed by a character outside the class. */
  lemma {:induction false} CollapseRunsAppend(x: string, y: string, p: char -> bool)
    requires |y| > 0 ==> !p(y[0])
    ensures CollapseRuns(x + y, p) == CollapseRuns(x, p) + CollapseRuns(y, p)
    decreases |x|
  {
    if |x| == 0 {
      assert x + y == y;
    } else if p(x[0]) {
      var t := DropWhile(x[1..], p);
      CollapseRunsAppend(t, y, p);
      AppendAfterRun(x, y, p, t);
    } else {
      CollapseRunsAppend(x[1..], y, p);
      AppendAfterOther(x, y, p);
    }
  }

  /** A text that starts inside the class gives a hyphen, then the replacement after the run. */
  lemma CollapseRunsOfRunStart(s: string, p: char -> bool)
    requires |s| > 0 && p(s[0])
    ensures CollapseRuns(s, p) == "-" + CollapseRuns(DropWhile(s[1..], p), p)
  {
  }

  lemma RunStartAppend(x: string, y: string, p: char -> bool)
    requires |x| > 0 && p(x[0])
    ensures CollapseRuns(x + y, p) == "-" + CollapseRuns(DropWhile(x[1..] + y, p), p)
  {
    var xy := x + y;
    assert xy[1..] == x[1..] + y;
    CollapseRunsOfRunStart(xy, p);
  }

  /** The step of `CollapseRunsAppend` for a text that starts with a run. */
  lemma AppendAfterRun(x: string, y: string, p: char -> bool, t: string)
    requires |x| > 0 && p(x[0]) && t == DropWhile(x[1..], p)
    requires |y| > 0 ==> !p(y[0])
    requires CollapseRuns(t + y, p) == CollapseRuns(t, p) + CollapseRuns(y, p)
    ensures CollapseRuns(x + y, p) == CollapseRuns(x, p) + CollapseRuns(y, p)
  {
    RunStartAppend(x, y, p);
    DropWhileAppend(x[1..], y, p);
    CollapseRunsOfRunStart(x, p);
    ConsAssoc('-', CollapseRuns(t, p), CollapseRuns(y, p));
  }

  /** The step of `CollapseRunsAppend` for a text that starts outside the class. */
  lemma AppendAfterOther(x: string, y: string, p: char -> bool)
    requires |x| > 0 && !p(x[0])
    requires CollapseRuns(x[1..] + y, p) == CollapseRuns(x[1..], p) + CollapseRuns(y, p)
    ensures CollapseRuns(x + y, p) == CollapseRuns(x, p) + CollapseRuns(y, p)
  {
    var xy := x + y;
    assert CollapseRuns(xy, p) == [x[0]] + CollapseRuns(x[1..] + y, p) by {
      assert xy[0] == x[0] && xy[1..] == x[1..] + y;
    }
    assert CollapseRuns(x, p) == [x[0]] + CollapseRuns(x[1..], p);
    ConsAssoc(x[0], CollapseRuns(x[1..], p), CollapseRuns(y, p));
  }

  lemma ConsAssoc(c: char, a: string, b: string)
    ensures [c] + (a + b) == ([c] + a) + b
  {
  }

  /**
   * The replacement run by run: a stretch outside the class is kept, the maximal run that
   * follows it becomes one hyphen, and the rest is replaced on its own.
   */
  lemma CollapseRunsOfRuns(a: string, w: string, b: string, p: char -> bool)
    requires forall i | 0 <= i < |a| :: !p(a[i])
    requires |w| > 0 && forall i | 0 <= i < |w| :: p(w[i])
    requires |b| > 0 ==> !p(b[0])
    ensures CollapseRuns(a + w + b, p) == a + "-" + CollapseRuns(b, p)
  {
    CollapseRunsAppend(a + w, b, p);
    CollapseRunsKeepsPrefix(a, w, p);
    CollapseRunsOfRun(w, p);
  }

  /** `.replace(/\s+/g, '-')`: every maximal run of `\s` becomes one hyphen. */
  function HyphenateSpaces(s: string): (r: string)
    ensures NoSpace(r)
    ensures forall i | 0 <= i < |r| :: r[i] == '-' || r[i] in s
  {
    CollapseRunsClass(s, IsSpace, CollapseRuns(s, IsSpace));
    CollapseRuns(s, IsSpace)
  }

  /** With no `\s` to replace, the replacement changes nothing. */
  lemma HyphenateSpacesOfNoSpace(s: string)
    requires NoSpace(s)
    ensures HyphenateSpaces(s) == s
  {
    CollapseRunsOfNone(s, IsSpace);
  }

  /**
   * A space-free word followed by a maximal run of `\s`, of any length and mix of white-space
   * characters, gives the word, one hyphen, and the rest replaced on its own.
   */
  lemma HyphenateSpacesOfRuns(a: string, w: string, b: string)
    requires NoSpace(a)
    requires |w| > 0 && forall i | 0 <= i < |w| :: IsSpace(w[i])
    requires |b| > 0 ==> !IsSpace(b[0])
    ensures HyphenateSpaces(a + w + b) == a + "-" + HyphenateSpaces(b)
  {
    CollapseRunsOfRuns(a, w, b, IsSpace);
  }

  function DigitChar(d: nat): char
    requires d < 10
  {
    ('0' as int + d) as char
  }

  /** Decimal rendering of a natural number, as template literals print counters. */
  function NatToString(n: nat): string
    decreases n
  {
    if n < 10 then [DigitChar(n)] else NatToString(n / 10) + [DigitChar(n % 10)]
  }

  function DigitValue(c: char): nat
    requires IsDigit(c)
  {
    c as int - '0' as int
  }

  /** The value of a run of decimal digits, most significant first. */
  function DecimalValue(s: string): nat
    requires AllDigits(s)
  {
    if |s| == 0 then 0 else DecimalValue(s[..|s| - 1]) * 10 + DigitValue(s[|s| - 1])
  }

  function HexDigitValue(c: char): nat
    requires IsHexDigit(c)
  {
    if IsDigit(c) then DigitValue(c)
    else if 'a' <= c <= 'f' then c as int - 'a' as int + 10
    else c as int - 'A' as int + 10
  }

  function HexValue(s: string): nat
    requires AllHexDigits(s)
  {
    if |s| == 0 then 0 else HexValue(s[..|s| - 1]) * 16 + HexDigitValue(s[|s| - 1])
  }

  /** Reading back a rendered number gives the number: rendering is a decimal encoding. */
  lemma {:induction false} DecimalRoundTrip(n: nat)
    ensures |NatToString(n)| >= 1 && AllDigits(NatToString(n))
    ensures DecimalValue(NatToString(n)) == n
    ensures NatToString(n)[0] == '0' ==> n == 0
    decreases n
  {
    if n >= 10 {
      DecimalRoundTrip(n / 10);
      var s := NatToString(n / 10) + [DigitChar(n % 10)];
      assert s[..|s| - 1] == NatToString(n / 10);
    }
  }

  /** Distinct counters render to distinct strings. */
  lemma NatToStringInjective(a: nat, b: nat)
    ensures NatToString(a) == NatToString(b) ==> a == b
  {
    DecimalRoundTrip(a);
    DecimalRoundTrip(b);
  }

  /** The longest prefix of `s` whose characters are decimal digits. */
  function LeadingDigits(s: string): (r: string)
    ensures AllDigits(r) && IsPrefixOf(r, s)
    ensures |r| < |s| ==> !IsDigit(s[|r|])
  {
    if |s| > 0 && IsDigit(s[0]) then [s[0]] + LeadingDigits(s[1..]) else []
  }

  /** The longest prefix of `s` whose characters are hexadecimal digits. */
  function LeadingHexDigits(s: string): (r: string)
    ensures AllHexDigits(r) && IsPrefixOf(r, s)
    ensures |r| < |s| ==> !IsHexDigit(s[|r|])
  {
    if |s| > 0 && IsHexDigit(s[0]) then [s[0]] + LeadingHexDigits(s[1..]) else []
  }

  /** The digits after the sign: a `0x`/`0X` prefix selects base 16, otherwise base 10. */
  function ParseUnsigned(u: string): Option<nat> {
    if |u| >= 2 && u[0] == '0' && (u[1] == 'x' || u[1] == 'X') then
      var ds := LeadingHexDigits(u[2..]);
      if ds == [] then None else Some(HexValue(ds))
    else
      var ds := LeadingDigits(u);
      if ds == [] then None else Some(DecimalValue(ds))
  }

  /**
   * `parseInt(s)` with no radix: leading `\s` skipped, one optional sign, then the longest
   * run of digits is read. `None` is NaN.
   */
  function ParseInt(s: string): Option<int> {
    ParseSigned(TrimStart(s))
  }

  /** One optional sign, then the unsigned reading. */
  function ParseSigned(t: string): Option<int> {
    var negative := |t| > 0 && t[0] == '-';
    var u := if |t| > 0 && (t[0] == '-' || t[0] == '+') then t[1..] else t;
    match ParseUnsigned(u)
    case None => None
    case Some(m) =>
      var v: int := if negative then -(m as int) else m;
      Some(v)
  }

  lemma LeadingDigitsOfDigits(s: string)
    requires AllDigits(s)
    ensures LeadingDigits(s) == s
  {
    if |s| > 0 {
      LeadingDigitsOfDigits(s[1..]);
    }
  }

  lemma ParseUnsignedOfDigits(s: string)
    requires |s| >= 1 && AllDigits(s)
    ensures ParseUnsigned(s) == Some(DecimalValue(s))
  {
    LeadingDigitsOfDigits(s);
  }

  /** Without white space or a sign in front, `parseInt` is the unsigned reading. */
  lemma ParseIntUnsigned(u: string, m: nat)
    requires |u| > 0 && !IsSpace(u[0]) && u[0] != '-' && u[0] != '+'
    requires ParseUnsigned(u) == Some(m)
    ensures ParseInt(u) == Some(m as int)
  {
    TrimStartOfNonSpace(u);
  }

  /** A minus sign in front negates the unsigned reading. */
  lemma ParseIntNegated(u: string, m: nat)
    requires ParseUnsigned(u) == Some(m)
    ensures ParseInt("-" + u) == Some(-(m as int))
  {
    var t := "-" + u;
    assert t[0] == '-' && !IsSpace(t[0]);
    TrimStartOfNonSpace(t);
    assert t[1..] == u;
  }

  /** A string that starts with a digit and reads as `m`: `parseInt` gives `m`, or `-m` after a minus. */
  lemma ParseIntOfUnsigned(u: string, m: nat)
    requires |u| > 0 && IsDigit(u[0]) && ParseUnsigned(u) == Some(m)
    ensures ParseInt(u) == Some(m as int)
    ensures ParseInt("-" + u) == Some(-(m as int))
  {
    ParseIntUnsigned(u, m);
    ParseIntNegated(u, m);
  }

  /** A rendered counter starts with a digit and reads back as the counter. */
  lemma ParseUnsignedOfRendered(n: nat)
    ensures |NatToString(n)| > 0 && IsDigit(NatToString(n)[0])
    ensures ParseUnsigned(NatToString(n)) == Some(n)
  {
    DecimalRoundTrip(n);
    ParseUnsignedOfDigits(NatToString(n));
  }

  /** `parseInt` reads back every rendered counter, with or without a minus sign. */
  lemma ParseIntOfRendered(n: nat)
    ensures ParseInt(NatToString(n)) == Some(n as int)
    ensures ParseInt("-" + NatToString(n)) == Some(-(n as int))
  {
    ParseUnsignedOfRendered(n);
    ParseIntOfUnsigned(NatToString(n), n);
  }

  lemma {:induction false} LeadingDigitsBeforeNonDigit(s: string, rest: string)
    requires AllDigits(s)
    requires rest == [] || !IsDigit(rest[0])
    ensures LeadingDigits(s + rest) == s
    decreases |s|
  {
    if |s| == 0 {
      assert s + rest == rest;
    } else {
      assert (s + rest)[1..] == s[1..] + rest;
      LeadingDigitsBeforeNonDigit(s[1..], rest);
      assert s == [s[0]] + s[1..];
    }
  }

  /** A rendered counter followed by neither a digit nor an `x` reads back as the counter. */
  lemma ParseUnsignedOfRenderedThen(n: nat, rest: string)
    requires rest == [] || (!IsDigit(rest[0]) && rest[0] != 'x' && rest[0] != 'X')
    ensures |NatToString(n) + rest| > 0 && IsDigit((NatToString(n) + rest)[0])
    ensures ParseUnsigned(NatToString(n) + rest) == Some(n)
  {
    var s := NatToString(n);
    DecimalRoundTrip(n);
    var t := s + rest;
    assert t[0] == s[0];
    LeadingDigitsBeforeNonDigit(s, rest);
    if |t| >= 2 && t[0] == '0' {
      assert t[1] == rest[0];
    }
  }

  /** `parseInt` stops at the first character after a rendered counter that is not a digit. */
  lemma ParseIntOfRenderedThen(n: nat, rest: string)
    requires rest == [] || (!IsDigit(rest[0]) && rest[0] != 'x' && rest[0] != 'X')
    ensures ParseInt(NatToString(n) + rest) == Some(n as int)
  {
    ParseUnsignedOfRenderedThen(n, rest);
    ParseIntUnsigned(NatToString(n) + rest, n);
  }

  /** `parseInt` of a string with no digit at all is NaN. */
  lemma ParseIntOfBlank(s: string)
    requires forall i | 0 <= i < |s| :: IsSpace(s[i])
    ensures ParseInt(s) == None
  {
    assert TrimStart(s) == [];
  }
}

=== FILE: track_route.dfy ===
/**
 * `/api/track` (src/app/api/track/route.ts): POST records one interaction upstream, GET asks
 * for interaction statistics and falls back to an empty report when the upstream wants an
 * administrator. The clock is the parameter `nowMs`; `toISOString` is the parameter `iso`.
 */
module TrackRoute {
  import opened Wrappers
  import opened Text
  import opened Json
  import opened Http
  import Tracking

  const ValidActions: seq<string> := ["view", "click", "inquiry", "bookmark", "mood_select"]

  /** The 400 message: the valid actions joined with ", ". */
  const InvalidAction := "Invalid action. Must be one of: view, click, inquiry, bookmark, mood_select"
  const SessionRequired := "Session ID is required"
  const RecordFailed := "Failed to record interaction"
  const StatsFailed := "Failed to fetch interaction statistics"
  const ConsentDisabled := "Tracking disabled by user consent preferences"

  /** `VALID_ACTIONS.includes(action)`: strict equality, so only a string can match. */
  predicate ValidAction(action: Json) {
    action.JStr? && action.s in ValidActions
  }

  datatype Posted = Posted(forwarded: Option<Json>, reply: Reply)

  /** The forwarded interaction; falsy `userId` and `moodContext` become `undefined` and vanish. */
  function ForwardedInteraction(body: Option<Json>): Json
    requires Destructurable(body)
  {
    Obj([
      ("sessionId", Field(body, "sessionId")),
      ("userId", Or(Field(body, "userId"), JUndefined)),
      ("hotelId", Field(body, "hotelId")),
      ("action", Field(body, "action")),
      ("moodContext", Or(Field(body, "moodContext"), JUndefined))
    ])
  }

  /** The 200 the handler gives instead of the upstream's 403. */
  function ConsentDisabledReply(): Reply {
    Reply(200, Obj([("success", JBool(false)), ("message", JStr(ConsentDisabled))]))
  }

  /** `{ success: true, interactionId: data.data?.id }`, or the TypeError on a `null` body. */
  function RecordedReply(data: Json): (r: Option<Reply>)
    ensures r.None? <==> Nullish(data)
    ensures r.Some? ==> r.value.status == 200
  {
    match Prop(data, "data")
    case None => None
    case Some(d) => Some(Reply(200, Obj([("success", JBool(true)), ("interactionId", OptProp(d, "id"))])))
  }

  /**
   * POST: the session id is checked first, the action second; `hotelId` is not checked.
   * An upstream 403 (the visitor refused tracking) is answered with 200 and
   * `success: false`; other failures pass their status through.
   */
  function Post(body: Option<Json>, up: Upstream): (r: Posted)
    ensures !Destructurable(body) ==> r == Posted(None, ErrorReply(500, RecordFailed))
    ensures Destructurable(body) && !Truthy(Field(body, "sessionId")) ==>
      r == Posted(None, ErrorReply(400, SessionRequired))
    ensures Destructurable(body) && Truthy(Field(body, "sessionId")) && !ValidAction(Field(body, "action")) ==>
      r == Posted(None, ErrorReply(400, InvalidAction))
    ensures r.forwarded.Some? <==>
      Destructurable(body) && Truthy(Field(body, "sessionId")) && ValidAction(Field(body, "action"))
    ensures r.forwarded.Some? ==> r.forwarded.value == ForwardedInteraction(body)
    ensures r.forwarded.Some? && up.Answered? && up.data.Some? && up.status == 403 ==>
      r.reply == ConsentDisabledReply()
    ensures r.forwarded.Some? && up.Answered? && up.data.Some? && !Nullish(up.data.value) ==>
      r.reply.status == (if Ok(up.status) || up.status == 403 then 200 else up.status)
    ensures r.forwarded.Some? && up.Answered? && up.data.Some? && !Nullish(up.data.value) && !Ok(up.status) && up.status != 403 ==>
      r.reply == UpstreamError(up.status, up.data.value, RecordFailed).value
    ensures r.forwarded.Some? && (up.FetchFailed? || up.data.None?) ==> r.reply == ErrorReply(500, RecordFailed)
  {
    if !Destructurable(body) then Posted(None, ErrorReply(500, RecordFailed))
    else if !Truthy(Field(body, "sessionId")) then Posted(None, ErrorReply(400, SessionRequired))
    else if !ValidAction(Field(body, "action")) then Posted(None, ErrorReply(400, InvalidAction))
    else
      var reply := match up
        case FetchFailed => ErrorReply(500, RecordFailed)
        case Answered(_, None) => ErrorReply(500, RecordFailed)
        case Answered(status, Some(data)) =>
          if !Ok(status) then
            if status == 403 then ConsentDisabledReply()
            else OrCrash(UpstreamError(status, data, RecordFailed), RecordFailed)
          else OrCrash(RecordedReply(data), RecordFailed);
      Posted(Some(ForwardedInteraction(body)), reply)
  }

  /** Falsy `userId` and `moodContext` are left out of the forwarded body; truthy ones are kept. */
  lemma PostDropsFalsyOptionals(body: Option<Json>, up: Upstream)
    requires Destructurable(body) && Truthy(Field(body, "sessionId")) && ValidAction(Field(body, "action"))
    ensures var f := Post(body, up).forwarded.value;
      && Prop(f, "userId") == Some(if Truthy(Field(body, "userId")) then Field(body, "userId") else JUndefined)
      && Prop(f, "moodContext") == Some(if Truthy(Field(body, "moodContext")) then Field(body, "moodContext") else JUndefined)
      && Prop(f, "hotelId") == Some(Field(body, "hotelId"))
      && Prop(f, "action") == Some(Field(body, "action"))
  {
    var kvs := [
      ("sessionId", Field(body, "sessionId")),
      ("userId", Or(Field(body, "userId"), JUndefined)),
      ("hotelId", Field(body, "hotelId")),
      ("action", Field(body, "action")),
      ("moodContext", Or(Field(body, "moodContext"), JUndefined))
    ];
    ObjGet(kvs, 1);
    ObjGet(kvs, 2);
    ObjGet(kvs, 3);
    ObjGet(kvs, 4);
  }

  /** The fields of one event, in the order the tracking service writes them. */
  function EventPairs(e: Tracking.Event): seq<(string, Json)> {
    [
      ("action", JStr(e.action)),
      ("hotelId", JStr(e.hotelId)),
      ("moodContext", if e.moodContext.Some? then JStr(e.moodContext.value) else JUndefined),
      ("sessionId", JStr(e.sessionId))
    ]
  }

  /** The serialised event, key by key: `moodContext` is dropped when it is `undefined`. */
  lemma EventPairsMap(e: Tracking.Event)
    ensures e.moodContext.Some? ==> (ObjMap(EventPairs(e)) ==
      map["action" := JStr(e.action), "hotelId" := JStr(e.hotelId),
          "moodContext" := JStr(e.moodContext.value), "sessionId" := JStr(e.sessionId)])
    ensures e.moodContext.None? ==> (ObjMap(EventPairs(e)) ==
      map["action" := JStr(e.action), "hotelId" := JStr(e.hotelId), "sessionId" := JStr(e.sessionId)])
  {
    var kvs := EventPairs(e);
    assert kvs[..0] == [];
    assert kvs[..1][..0] == [];
    assert kvs[..2][..1] == kvs[..1];
    assert kvs[..3][..2] == kvs[..2];
    assert kvs[..4][..3] == kvs[..3];
    assert kvs[..4] == kvs;
    assert ObjMap(kvs[..1]) == map["action" := JStr(e.action)];
    assert ObjMap(kvs[..2]) == map["action" := JStr(e.action), "hotelId" := JStr(e.hotelId)];
  }

  /** The JSON the tracking service posts for one event (`moodContext` omitted when absent). */
  function EventBody(e: Tracking.Event): (j: Json)
    ensures j == Obj(EventPairs(e))
    ensures j.JObj?
    ensures j.fields.Keys == {"action", "hotelId", "sessionId"} + (if e.moodContext.Some? then {"moodContext"} else {})
    ensures "action" in j.fields && j.fields["action"] == JStr(e.action)
    ensures "hotelId" in j.fields && j.fields["hotelId"] == JStr(e.hotelId)
    ensures "sessionId" in j.fields && j.fields["sessionId"] == JStr(e.sessionId)
    ensures e.moodContext.Some? ==> "moodContext" in j.fields && j.fields["moodContext"] == JStr(e.moodContext.value)
  {
    EventPairsMap(e);
    if e.moodContext.Some? then
      JObj(map["action" := JStr(e.action), "hotelId" := JStr(e.hotelId),
               "moodContext" := JStr(e.moodContext.value), "sessionId" := JStr(e.sessionId)])
    else
      JObj(map["action" := JStr(e.action), "hotelId" := JStr(e.hotelId), "sessionId" := JStr(e.sessionId)])
  }

  /**
   * Every event the tracking service sends (`view`, `click`, `mood_select`) under a
   * non-empty session id passes both checks and is forwarded.
   */
  lemma ServiceEventsForwarded(e: Tracking.Event, up: Upstream)
    requires e.action in {"view", "click", "mood_select"} && e.sessionId != ""
    ensures Post(Some(EventBody(e)), up).forwarded.Some?
  {
  }

  /** The query string of the GET: `hotelId` and `sessionId` only when non-empty, `days` always. */
  function StatsQuery(hotelId: Option<string>, sessionId: Option<string>, days: string): (q: seq<(string, string)>)
    ensures |q| >= 1 && q[|q| - 1] == ("days", days)
    ensures (exists i | 0 <= i < |q| :: q[i].0 == "hotelId") <==> hotelId.Some? && hotelId.value != ""
    ensures (exists i | 0 <= i < |q| :: q[i].0 == "sessionId") <==> sessionId.Some? && sessionId.value != ""
    ensures forall i | 0 <= i < |q| && q[i].0 == "hotelId" :: q[i].1 == hotelId.value
    ensures forall i | 0 <= i < |q| && q[i].0 == "sessionId" :: q[i].1 == sessionId.value
  {
    var h := if hotelId.Some? && hotelId.value != "" then [("hotelId", hotelId.value)] else [];
    var s := if sessionId.Some? && sessionId.value != "" then [("sessionId", sessionId.value)] else [];
    var q := h + s + [("days", days)];
    assert h != [] ==> q[0].0 == "hotelId";
    assert s != [] ==> q[|h|].0 == "sessionId";
    q
  }

  /** The largest time value a `Date` holds, in milliseconds either side of the epoch. */
  const MaxTime := 8_640_000_000_000_000
  const MsPerDay := 86_400_000

  /** A time value `toISOString` can render; beyond it the `Date` is invalid and it throws. */
  predicate ValidTime(t: int) { -MaxTime <= t <= MaxTime }

  /** `setDate(getDate() - days)` on the current time, counted as whole days of milliseconds. */
  function DaysBefore(nowMs: int, days: int): int {
    nowMs - days * MsPerDay
  }

  /** The body for an unauthorised stats request: an empty report over the requested period. */
  function EmptyStats(start: string, end: string, days: int): Json {
    Obj([
      ("period", Obj([("start", JStr(start)), ("end", JStr(end)), ("days", JNum(days as real))])),
      ("stats", Obj([
        ("byAction", Obj([])),
        ("uniqueSessions", JNum(0.0)),
        ("topHotels", JArr([])),
        ("moodDistribution", Obj([]))
      ]))
    ])
  }

  /** The 401/403 branch: `days` days before now, or the throw of an invalid `Date`. */
  function Unauthorised(days: string, nowMs: int, iso: int -> string): (r: Reply)
    ensures ParseInt(days).None? ==> r == ErrorReply(500, StatsFailed)
    ensures ParseInt(days).Some? && ValidTime(nowMs) && ValidTime(DaysBefore(nowMs, ParseInt(days).value)) ==>
      r == Reply(200, EmptyStats(iso(DaysBefore(nowMs, ParseInt(days).value)), iso(nowMs), ParseInt(days).value))
    ensures ParseInt(days).Some? && !(ValidTime(nowMs) && ValidTime(DaysBefore(nowMs, ParseInt(days).value))) ==>
      r == ErrorReply(500, StatsFailed)
    ensures r.status == 200 || r == ErrorReply(500, StatsFailed)
  {
    match ParseInt(days)
    case None => ErrorReply(500, StatsFailed)
    case Some(d) => UnauthorisedOver(d, nowMs, iso)
  }

  /** The unauthorised report over `d` days: the two `toISOString` calls throw outside the `Date` range. */
  function UnauthorisedOver(d: int, nowMs: int, iso: int -> string): (r: Reply)
    ensures ValidTime(nowMs) && ValidTime(DaysBefore(nowMs, d)) ==>
      r == Reply(200, EmptyStats(iso(DaysBefore(nowMs, d)), iso(nowMs), d))
    ensures !(ValidTime(nowMs) && ValidTime(DaysBefore(nowMs, d))) ==> r == ErrorReply(500, StatsFailed)
  {
    if ValidTime(nowMs) && ValidTime(DaysBefore(nowMs, d)) then Reply(200, EmptyStats(iso(DaysBefore(nowMs, d)), iso(nowMs), d))
    else ErrorReply(500, StatsFailed)
  }

  datatype Fetched = Fetched(query: seq<(string, string)>, reply: Reply)

  /**
   * GET: `days` defaults to "7". A 401 or 403 is answered without reading the upstream
   * body; anything else needs a JSON body, and a 2xx returns `data.data || data`.
   */
  function Get(hotelId: Option<string>, sessionId: Option<string>, days: Option<string>,
               up: Upstream, nowMs: int, iso: int -> string): (r: Fetched)
    ensures var d := if days.Some? && days.value != "" then days.value else "7";
      r.query == StatsQuery(hotelId, sessionId, d)
    ensures up.Answered? && (up.status == 401 || up.status == 403) ==>
      r.reply == Unauthorised(if days.Some? && days.value != "" then days.value else "7", nowMs, iso)
    ensures up.Answered? && up.status != 401 && up.status != 403 && up.data.Some? && !Nullish(up.data.value) ==>
      r.reply.status == (if Ok(up.status) then 200 else up.status)
    ensures up.Answered? && up.status != 401 && up.status != 403 && up.data.Some? && !Nullish(up.data.value) && !Ok(up.status) ==>
      r.reply == UpstreamError(up.status, up.data.value, StatsFailed).value
    ensures up.FetchFailed? || (up.status != 401 && up.status != 403 && up.data.None?) ==>
      r.reply == ErrorReply(500, StatsFailed)
    ensures up.Answered? && Ok(up.status) && up.status != 401 && up.status != 403 && up.data.Some? && !Nullish(up.data.value) ==>
      r.reply == Reply(200, Or(Prop(up.data.value, "data").value, up.data.value))
    ensures up.Answered? && Ok(up.status) && up.data.Some? && Nullish(up.data.value) ==>
      r.reply == ErrorReply(500, StatsFailed)
  {
    var d := if days.Some? && days.value != "" then days.value else "7";
    var reply := match up
      case FetchFailed => ErrorReply(500, StatsFailed)
      case Answered(status, body) =>
        if status == 401 || status == 403 then Unauthorised(d, nowMs, iso)
        else match body
          case None => ErrorReply(500, StatsFailed)
          case Some(data) =>
            if !Ok(status) then OrCrash(UpstreamError(status, data, StatsFailed), StatsFailed)
            else match Prop(data, "data")
              case None => ErrorReply(500, StatsFailed)
              case Some(inner) => Reply(200, Or(inner, data));
    Fetched(StatsQuery(hotelId, sessionId, d), reply)
  }

  /**
   * A successful GET unwraps the service's envelope: a truthy `data.data` is answered on
   * its own, and a body without one is answered whole.
   */
  lemma GetSuccessBody(hotelId: Option<string>, sessionId: Option<string>, days: Option<string>,
                       status: int, data: Json, nowMs: int, iso: int -> string)
    requires Ok(status) && data.JObj?
    ensures var reply := Get(hotelId, sessionId, days, Answered(status, Some(data)), nowMs, iso).reply;
      && reply.status == 200
      && ("data" in data.fields && Truthy(data.fields["data"]) ==> reply.body == data.fields["data"])
      && ("data" !in data.fields ==> reply.body == data)
  {
  }

  /** The unauthorised report over a readable period: its dates, its length and its empty statistics. */
  lemma EmptyStatsContents(start: string, end: string, days: int)
    ensures var body := EmptyStats(start, end, days);
      && Prop(body, "period").Some? && Prop(body, "stats").Some?
      && Prop(Prop(body, "period").value, "start") == Some(JStr(start))
      && Prop(Prop(body, "period").value, "end") == Some(JStr(end))
      && Prop(Prop(body, "period").value, "days") == Some(JNum(days as real))
      && Prop(Prop(body, "stats").value, "byAction") == Some(JObj(map[]))
      && Prop(Prop(body, "stats").value, "uniqueSessions") == Some(JNum(0.0))
      && Prop(Prop(body, "stats").value, "topHotels") == Some(JArr([]))
      && Prop(Prop(body, "stats").value, "moodDistribution") == Some(JObj(map[]))
  {
    var period := [("start", JStr(start)), ("end", JStr(end)), ("days", JNum(days as real))];
    var stats := [("byAction", Obj([])), ("uniqueSessions", JNum(0.0)), ("topHotels", JArr([])), ("moodDistribution", Obj([]))];
    ObjGet([("period", Obj(period)), ("stats", Obj(stats))], 0);
    ObjGet([("period", Obj(period)), ("stats", Obj(stats))], 1);
    PeriodContents(start, end, days);
    StatsContents();
  }

  /** The `period` object reads back its three fields. */
  lemma PeriodContents(start: string, end: string, days: int)
    ensures var period := Obj([("start", JStr(start)), ("end", JStr(end)), ("days", JNum(days as real))]);
      && Prop(period, "start") == Some(JStr(start))
      && Prop(period, "end") == Some(JStr(end))
      && Prop(period, "days") == Some(JNum(days as real))
  {
    var period := [("start", JStr(start)), ("end", JStr(end)), ("days", JNum(days as real))];
    ObjGet(period, 0);
    ObjGet(period, 1);
    ObjGet(period, 2);
  }

  /** The `stats` object reads back its four empty fields. */
  lemma StatsContents()
    ensures var stats := Obj([("byAction", Obj([])), ("uniqueSessions", JNum(0.0)), ("topHotels", JArr([])), ("moodDistribution", Obj([]))]);
      && Prop(stats, "byAction") == Some(JObj(map[]))
      && Prop(stats, "uniqueSessions") == Some(JNum(0.0))
      && Prop(stats, "topHotels") == Some(JArr([]))
      && Prop(stats, "moodDistribution") == Some(JObj(map[]))
  {
    var stats := [("byAction", Obj([])), ("uniqueSessions", JNum(0.0)), ("topHotels", JArr([])), ("moodDistribution", Obj([]))];
    ObjGet(stats, 0);
    ObjGet(stats, 1);
    ObjGet(stats, 2);
    ObjGet(stats, 3);
    assert ObjMap([]) == map[];
  }

  /** With no `days` parameter an unauthorised request reports a seven-day period. */
  lemma GetDefaultsToSevenDays(hotelId: Option<string>, sessionId: Option<string>, status: int,
                               data: Option<Json>, nowMs: int, iso: int -> string)
    requires status == 401 || status == 403
    requires ValidTime(nowMs) && ValidTime(DaysBefore(nowMs, 7))
    ensures var r := Get(hotelId, sessionId, None, Answered(status, data), nowMs, iso);
      && r.query[|r.query| - 1] == ("days", "7")
      && r.reply == Reply(200, EmptyStats(iso(DaysBefore(nowMs, 7)), iso(nowMs), 7))
  {
    UnauthorisedSevenDays(nowMs, iso);
  }

  /** The default period: the empty report from seven days before now until now. */
  lemma UnauthorisedSevenDays(nowMs: int, iso: int -> string)
    requires ValidTime(nowMs) && ValidTime(DaysBefore(nowMs, 7))
    ensures Unauthorised("7", nowMs, iso) == Reply(200, EmptyStats(iso(DaysBefore(nowMs, 7)), iso(nowMs), 7))
  {
    ParseSeven();
  }

  lemma ParseSeven()
    ensures ParseInt("7") == Some(7)
  {
    ParseIntOfRendered(7);
    assert NatToString(7) == "7";
  }

  /** A `days` value `parseInt` cannot read makes the unauthorised branch throw: 500. */
  lemma GetUnreadableDays(days: string, status: int, data: Option<Json>, nowMs: int, iso: int -> string)
    requires days != "" && (status == 401 || status == 403)
    requires forall i | 0 <= i < |days| :: IsSpace(days[i])
    ensures Get(None, None, Some(days), Answered(status, data), nowMs, iso).reply == ErrorReply(500, StatsFailed)
  {
    ParseIntOfBlank(days);
  }
}

=== FILE: tracking.dfy ===
/**
 * The client-side tracking service (src/services/trackingService.ts): consent-gated updates
 * of the personalisation data kept in `localStorage`, the events it sends to `/api/track`,
 * and the normalised mood preferences read back from it. `Date.now()` is the parameter
 * `now`, the random part of a new session id is `random`.
 */
module Tracking {
  import opened Wrappers
  import opened Text
  import opened Lists
  import opened LocalStorage

  /** `recentViews` is cut to this many entries. */
  const MaxRecentViews := 50

  /** An event for `sendTrackingEvent`, the body of a `POST /api/track`. */
  datatype Event = Event(action: string, hotelId: string, moodContext: Option<string>, sessionId: string)

  /** `MoodPreference`. */
  datatype MoodPreference = MoodPreference(moodId: string, score: real)

  /** `getLocalUserData()`: the stored data, or fresh empty data that is stored at once. */
  function GetLocalUserData(st: Store, now: nat, random: string): (r: (UserData, Store))
    ensures st.userData.Parsed? ==> r == (st.userData.value, st)
    ensures !st.userData.Parsed? ==>
      && r.0.moods == [] && r.0.views == [] && r.0.userId == None && r.0.lastUpdated == now
      && r.0.sessionId == GetOrCreateSessionId(st, now, random).0
      && r.1.userData == Parsed(r.0)
    ensures r.1.consent == st.consent
  {
    match st.userData
    case Parsed(d) => (d, st)
    case _ =>
      var (sid, st1) := GetOrCreateSessionId(st, now, random);
      var d := UserData(sid, None, [], [], now);
      (d, st1.(userData := Parsed(d)))
  }

  /** The recent views the service works from: those stored, or none. */
  function StoredViews(st: Store): seq<View> {
    if st.userData.Parsed? then st.userData.value.views else []
  }

  function StoredMoods(st: Store): seq<MoodEntry> {
    if st.userData.Parsed? then st.userData.value.moods else []
  }

  /** `saveLocalUserData(data)`: stamps the data with the clock and stores it. */
  function Save(st: Store, d: UserData, now: nat): (r: Store)
    ensures r.userData == Parsed(d.(lastUpdated := now))
    ensures r.consent == st.consent && r.sessionId == st.sessionId
  {
    st.(userData := Parsed(d.(lastUpdated := now)))
  }

  /** The event sent after a local update, only when analytics consent also holds. */
  function EventIf(st: Store, e: Event): (r: seq<Event>)
    ensures |r| <= 1
    ensures r != [] <==> HasConsent(st, Analytics)
    ensures r != [] ==> r[0] == e
  {
    if HasConsent(st, Analytics) then [e] else []
  }

  /** `trackHotelView` moves the hotel to the front of `recentViews`: the new list. */
  function ViewedList(views: seq<View>, v: View): (r: seq<View>)
    ensures 1 <= |r| <= MaxRecentViews
    ensures r[0] == v
    ensures forall i | 1 <= i < |r| :: r[i].hotelId != v.hotelId
    ensures r[1..] == SliceTo(Filter(views, (w: View) => w.hotelId != v.hotelId), MaxRecentViews - 1)
  {
    var rest := Filter(views, (w: View) => w.hotelId != v.hotelId);
    var r := SliceTo([v] + rest, MaxRecentViews);
    assert r[1..] == SliceTo(rest, MaxRecentViews - 1);
    r
  }

  /**
   * `trackHotelView(hotelId, moodContext)`: without personalisation consent nothing is
   * stored and nothing is sent.
   */
  function TrackHotelView(st: Store, hotelId: string, moodContext: Option<string>, now: nat, random: string)
    : (r: (Store, seq<Event>))
    ensures !HasConsent(st, Personalization) ==> r == (st, [])
    ensures HasConsent(st, Personalization) ==>
      && r.0.userData.Parsed?
      && r.0.userData.value.views == ViewedList(StoredViews(st), View(hotelId, now, moodContext))
      && r.0.userData.value.moods == StoredMoods(st)
      && r.1 == EventIf(st, Event("view", hotelId, moodContext, r.0.userData.value.sessionId))
    ensures r.0.consent == st.consent
  {
    if !HasConsent(st, Personalization) then (st, [])
    else
      var (d, st1) := GetLocalUserData(st, now, random);
      var d1 := d.(views := ViewedList(d.views, View(hotelId, now, moodContext)));
      var st2 := Save(st1, d1, now);
      (st2, EventIf(st2, Event("view", hotelId, moodContext, d.sessionId)))
  }

  /**
   * After a view the hotel heads the list exactly once, the list holds at most 50 entries,
   * and the rest are the earlier entries for other hotels, in their earlier order.
   */
  lemma TrackHotelViewList(st: Store, hotelId: string, moodContext: Option<string>, now: nat, random: string)
    requires HasConsent(st, Personalization)
    ensures var views := TrackHotelView(st, hotelId, moodContext, now, random).0.userData.value.views;
      && 1 <= |views| <= MaxRecentViews
      && views[0].hotelId == hotelId
      && (forall i | 1 <= i < |views| :: views[i].hotelId != hotelId)
      && IsSubsequence(views[1..], StoredViews(st))
      && (forall w | w in StoredViews(st) && w.hotelId != hotelId && |StoredViews(st)| < MaxRecentViews :: w in views)
  {
    var stored := StoredViews(st);
    var v := View(hotelId, now, moodContext);
    var views := ViewedList(stored, v);
    var p := (w: View) => w.hotelId != hotelId;
    var rest := Filter(stored, p);
    FilterSpec(stored, p);
    PrefixIsSubsequence(rest, |SliceTo(rest, MaxRecentViews - 1)|);
    SubsequenceTransitive(views[1..], rest, stored);
    if |stored| < MaxRecentViews {
      assert SliceTo(rest, MaxRecentViews - 1) == rest;
      forall w | w in stored && w.hotelId != hotelId ensures w in views {
        assert w in rest;
        var k :| 0 <= k < |rest| && rest[k] == w;
        assert views[1 + k] == w;
      }
    }
  }

  /** `findIndex(v => v.hotelId === hotelId)`, with `None` for `-1`. */
  function FindView(views: seq<View>, hotelId: string): (r: Option<nat>)
    ensures r.None? <==> forall i | 0 <= i < |views| :: views[i].hotelId != hotelId
    ensures r.Some? ==>
      && r.value < |views| && views[r.value].hotelId == hotelId
      && forall i | 0 <= i < r.value :: views[i].hotelId != hotelId
  {
    if |views| == 0 then None
    else if views[0].hotelId == hotelId then Some(0)
    else match FindView(views[1..], hotelId)
      case None => None
      case Some(i) => Some(i + 1)
  }

  /**
   * `trackHotelClick`'s new list: a hotel already listed only has its timestamp refreshed
   * where it stands; any other hotel is put in front and the list cut to 50.
   */
  function ClickedList(views: seq<View>, v: View): (r: seq<View>)
    ensures FindView(views, v.hotelId).Some? ==>
      var i := FindView(views, v.hotelId).value;
      |r| == |views| && r[i] == views[i].(timestamp := v.timestamp)
      && forall j | 0 <= j < |views| && j != i :: r[j] == views[j]
    ensures FindView(views, v.hotelId).None? ==> r == SliceTo([v] + views, MaxRecentViews)
  {
    match FindView(views, v.hotelId)
    case Some(i) => views[i := views[i].(timestamp := v.timestamp)]
    case None => SliceTo([v] + views, MaxRecentViews)
  }

  /** `trackHotelClick(hotelId, moodContext)`. */
  function TrackHotelClick(st: Store, hotelId: string, moodContext: Option<string>, now: nat, random: string)
    : (r: (Store, seq<Event>))
    ensures !HasConsent(st, Personalization) ==> r == (st, [])
    ensures HasConsent(st, Personalization) ==>
      && r.0.userData.Parsed?
      && r.0.userData.value.views == ClickedList(StoredViews(st), View(hotelId, now, moodContext))
      && r.0.userData.value.moods == StoredMoods(st)
      && r.1 == EventIf(st, Event("click", hotelId, moodContext, r.0.userData.value.sessionId))
    ensures r.0.consent == st.consent
  {
    if !HasConsent(st, Personalization) then (st, [])
    else
      var (d, st1) := GetLocalUserData(st, now, random);
      var d1 := d.(views := ClickedList(d.views, View(hotelId, now, moodContext)));
      var st2 := Save(st1, d1, now);
      (st2, EventIf(st2, Event("click", hotelId, moodContext, d.sessionId)))
  }

  /** A click on a listed hotel reorders nothing and keeps the length; only that entry's time moves. */
  lemma ClickKeepsOrder(views: seq<View>, v: View)
    requires exists i | 0 <= i < |views| :: views[i].hotelId == v.hotelId
    ensures |ClickedList(views, v)| == |views|
    ensures forall j | 0 <= j < |views| :: ClickedList(views, v)[j].hotelId == views[j].hotelId
  {
  }

  /** `moodPreferences[moodId]`, with an absent property read as 0 (`|| 0`). */
  function MoodCount(moods: seq<MoodEntry>, moodId: string): nat {
    if |moods| == 0 then 0
    else if moods[0].moodId == moodId then moods[0].count
    else MoodCount(moods[1..], moodId)
  }

  /** No mood id occurs twice: the keys of a JavaScript object. */
  predicate DistinctMoods(moods: seq<MoodEntry>) {
    forall i, j | 0 <= i < j < |moods| :: moods[i].moodId != moods[j].moodId
  }

  /** `moodPreferences[moodId] = (moodPreferences[moodId] || 0) + 1`: a new key goes last. */
  function IncrementMood(moods: seq<MoodEntry>, moodId: string): (r: seq<MoodEntry>)
    ensures MoodCount(r, moodId) == MoodCount(moods, moodId) + 1
    ensures forall m | m != moodId :: MoodCount(r, m) == MoodCount(moods, m)
    ensures |r| == |moods| || (|r| == |moods| + 1 && r[|moods|] == MoodEntry(moodId, 1))
    ensures forall i | 0 <= i < |moods| :: r[i].moodId == moods[i].moodId
  {
    if |moods| == 0 then [MoodEntry(moodId, 1)]
    else if moods[0].moodId == moodId then [moods[0].(count := moods[0].count + 1)] + moods[1..]
    else
      var rest := IncrementMood(moods[1..], moodId);
      assert ([moods[0]] + rest)[1..] == rest;
      [moods[0]] + rest
  }

  /** Counting a mood keeps the mood ids distinct. */
  lemma {:induction false} IncrementMoodDistinct(moods: seq<MoodEntry>, moodId: string)
    requires DistinctMoods(moods)
    ensures DistinctMoods(IncrementMood(moods, moodId))
  {
    var r := IncrementMood(moods, moodId);
    if |r| == |moods| + 1 {
      MoodAppendedMeansAbsent(moods, moodId);
      forall i, j | 0 <= i < j < |r| ensures r[i].moodId != r[j].moodId {
        if j < |moods| {
          assert r[i].moodId == moods[i].moodId && r[j].moodId == moods[j].moodId;
        } else {
          assert r[j].moodId == moodId && r[i].moodId == moods[i].moodId;
        }
      }
    } else {
      forall i, j | 0 <= i < j < |r| ensures r[i].moodId != r[j].moodId {
        assert r[i].moodId == moods[i].moodId && r[j].moodId == moods[j].moodId;
      }
    }
  }

  /** A mood that is present is counted at its first occurrence. */
  lemma {:induction false} MoodCountFound(moods: seq<MoodEntry>, i: nat)
    requires i < |moods| && DistinctMoods(moods)
    ensures MoodCount(moods, moods[i].moodId) == moods[i].count
    decreases i
  {
    if i > 0 {
      assert moods[0].moodId != moods[i].moodId;
      assert moods[1..][i - 1] == moods[i];
      MoodCountFound(moods[1..], i - 1);
    }
  }

  /** Only a mood absent from the list is appended. */
  lemma {:induction false} MoodAppendedMeansAbsent(moods: seq<MoodEntry>, moodId: string)
    requires |IncrementMood(moods, moodId)| == |moods| + 1
    ensures forall i | 0 <= i < |moods| :: moods[i].moodId != moodId
    decreases |moods|
  {
    if |moods| > 0 {
      MoodAppendedMeansAbsent(moods[1..], moodId);
      forall i | 1 <= i < |moods| ensures moods[i].moodId != moodId {
        assert moods[1..][i - 1] == moods[i];
      }
    }
  }

  /** `trackMoodSelection(moodId)`; the event carries the mood in both `hotelId` and `moodContext`. */
  function TrackMoodSelection(st: Store, moodId: string, now: nat, random: string): (r: (Store, seq<Event>))
    ensures !HasConsent(st, Personalization) ==> r == (st, [])
    ensures HasConsent(st, Personalization) ==>
      && r.0.userData.Parsed?
      && MoodCount(r.0.userData.value.moods, moodId) == MoodCount(StoredMoods(st), moodId) + 1
      && (forall m | m != moodId :: MoodCount(r.0.userData.value.moods, m) == MoodCount(StoredMoods(st), m))
      && r.0.userData.value.views == StoredViews(st)
      && r.1 == EventIf(st, Event("mood_select", moodId, Some(moodId), r.0.userData.value.sessionId))
    ensures r.0.consent == st.consent
  {
    if !HasConsent(st, Personalization) then (st, [])
    else
      var (d, st1) := GetLocalUserData(st, now, random);
      var d1 := d.(moods := IncrementMood(d.moods, moodId));
      var st2 := Save(st1, d1, now);
      (st2, EventIf(st2, Event("mood_select", moodId, Some(moodId), d.sessionId)))
  }

  /** `Math.max(...counts)`. */
  function MaxCount(moods: seq<MoodEntry>): (r: nat)
    requires |moods| > 0
    ensures forall i | 0 <= i < |moods| :: moods[i].count <= r
    ensures exists i | 0 <= i < |moods| :: moods[i].count == r
  {
    if |moods| == 1 then moods[0].count
    else
      var m := MaxCount(moods[1..]);
      assert forall i | 1 <= i < |moods| :: moods[i] == moods[1..][i - 1];
      if moods[0].count >= m then moods[0].count else m
  }

  /** `score / maxScore`, or 0 when every count is 0. */
  function Normalise(moods: seq<MoodEntry>, max: nat): (r: seq<MoodPreference>)
    requires forall i | 0 <= i < |moods| :: moods[i].count <= max
    ensures |r| == |moods|
    ensures forall i | 0 <= i < |r| :: r[i].moodId == moods[i].moodId && 0.0 <= r[i].score <= 1.0
    ensures forall i | 0 <= i < |r| :: r[i].score == 1.0 <==> max > 0 && moods[i].count == max
  {
    seq(|moods|, i requires 0 <= i < |moods| => MoodPreference(moods[i].moodId, Ratio(moods[i].count, max)))
  }

  /** One count against the maximum: within [0, 1], and 1 exactly for the maximum itself. */
  function Ratio(count: nat, max: nat): (r: real)
    requires count <= max
    ensures 0.0 <= r <= 1.0
    ensures r == 1.0 <==> max > 0 && count == max
  {
    if max > 0 then
      QuotientBounds(count as real, max as real);
      count as real / max as real
    else 0.0
  }

  /** A quotient of a part by a positive whole lies in [0, 1] and is 1 only for the whole. */
  lemma QuotientBounds(c: real, m: real)
    requires 0.0 <= c <= m && m > 0.0
    ensures 0.0 <= c / m <= 1.0
    ensures c / m == 1.0 <==> c == m
  {
    var q := c / m;
    assert q * m == c;
  }

  function Score(p: MoodPreference): real { p.score }

  /** The normalised preferences of a mood table, best first (stable for equal scores). */
  function MoodScores(moods: seq<MoodEntry>): (r: seq<MoodPreference>)
    ensures |r| == |moods|
    ensures forall i | 0 <= i < |r| :: 0.0 <= r[i].score <= 1.0
    ensures forall i, j | 0 <= i < j < |r| :: r[i].score >= r[j].score
    ensures |moods| > 0 ==> multiset(r) == multiset(Normalise(moods, MaxCount(moods)))
  {
    if |moods| == 0 then []
    else
      var n := Normalise(moods, MaxCount(moods));
      var r := SortByDescending(n, Score);
      assert |r| == |multiset(r)| == |multiset(n)| == |n|;
      forall i | 0 <= i < |r| ensures 0.0 <= r[i].score <= 1.0 {
        assert r[i] in multiset(n);
      }
      r
  }

  /** When some mood has been counted, the best score is exactly 1. */
  lemma {:induction false} TopScoreIsOne(moods: seq<MoodEntry>)
    requires |moods| > 0 && MaxCount(moods) > 0
    ensures MoodScores(moods)[0].score == 1.0
  {
    var n := Normalise(moods, MaxCount(moods));
    var i :| 0 <= i < |moods| && moods[i].count == MaxCount(moods);
    SortByDescendingHead(n, Score, n[i]);
  }

  /** `getUserMoodPreferences()`: reading may itself create and store the user data. */
  function GetUserMoodPreferences(st: Store, now: nat, random: string): (r: (seq<MoodPreference>, Store))
    ensures r.0 == MoodScores(StoredMoods(st))
    ensures StoredMoods(st) == [] ==> r.0 == []
  {
    var (d, st1) := GetLocalUserData(st, now, random);
    (MoodScores(d.moods), st1)
  }

  /** `getTopMood()`: the first preference's mood, `null` when there are none. */
  function GetTopMood(st: Store, now: nat, random: string): (r: Option<string>)
    ensures r.None? <==> StoredMoods(st) == []
    ensures r.Some? ==> r.value == MoodScores(StoredMoods(st))[0].moodId
  {
    var (prefs, _) := GetUserMoodPreferences(st, now, random);
    if |prefs| > 0 then Some(prefs[0].moodId) else None
  }

  /**
   * Since the sort is stable, the top mood is the first mood, in insertion order, whose
   * count is the maximum.
   */
  lemma {:induction false} TopMoodIsFirstMax(moods: seq<MoodEntry>, i: nat)
    requires i < |moods| && moods[i].count == MaxCount(moods)
    requires forall j | 0 <= j < i :: moods[j].count < MaxCount(moods)
    ensures MoodScores(moods)[0].moodId == moods[i].moodId
  {
    var n := Normalise(moods, MaxCount(moods));
    forall j | 0 <= j < |n| ensures n[j].score <= n[i].score {
      if MaxCount(moods) > 0 {
        assert n[i].score == 1.0;
      }
    }
    SortByDescendingFirstMax(n, Score, i);
  }

  /** `getTopMood()` over the stored moods: the first of them, in insertion order, with the top count. */
  lemma GetTopMoodIsFirstMax(st: Store, now: nat, random: string, i: nat)
    requires i < |StoredMoods(st)| && StoredMoods(st)[i].count == MaxCount(StoredMoods(st))
    requires forall j | 0 <= j < i :: StoredMoods(st)[j].count < MaxCount(StoredMoods(st))
    ensures GetTopMood(st, now, random) == Some(StoredMoods(st)[i].moodId)
  {
    TopMoodIsFirstMax(StoredMoods(st), i);
  }

  /** `getRecentViews`' default `limit`. */
  const DefaultRecentViews := 10

  /** `getRecentViews(limit = 10)`. */
  function GetRecentViews(st: Store, limit: int, now: nat, random: string): (r: (seq<View>, Store))
    ensures r.0 == SliceTo(StoredViews(st), limit)
  {
    var (d, st1) := GetLocalUserData(st, now, random);
    (SliceTo(d.views, limit), st1)
  }

  /** `getRecentViews()`: the ten most recent stored views, or all of them when fewer are stored. */
  function GetRecentViewsByDefault(st: Store, now: nat, random: string): (r: (seq<View>, Store))
    ensures |r.0| <= |StoredViews(st)| && r.0 == StoredViews(st)[..|r.0|]
    ensures |r.0| == if |StoredViews(st)| < DefaultRecentViews then |StoredViews(st)| else DefaultRecentViews
  {
    GetRecentViews(st, DefaultRecentViews, now, random)
  }

  /** `clearTrackingData()`: forgets the user data and the session id, keeps the consent. */
  function ClearTrackingData(st: Store): (r: Store)
    ensures r.consent == st.consent
    ensures r.userData == Absent && r.sessionId == None
  {
    st.(userData := Absent, sessionId := None)
  }

  /** After clearing, the next tracked view starts from an empty list under a new session id. */
  lemma ClearThenView(st: Store, hotelId: string, now: nat, random: string)
    requires HasConsent(st, Personalization)
    ensures var (st1, _) := TrackHotelView(ClearTrackingData(st), hotelId, None, now, random);
      && st1.userData.value.views == [View(hotelId, now, None)]
      && st1.userData.value.sessionId == NewSessionId(now, random)
  {
    var cleared := ClearTrackingData(st);
    assert HasConsent(cleared, Personalization);
    assert StoredViews(cleared) == [];
    var v := View(hotelId, now, None);
    assert ViewedList([], v) == [v];
  }
}

=== FILE: wrappers.dfy ===
/** Optional values: the model's stand-in for `undefined`/`null` results of the site's code. */
module Wrappers {

  datatype Option<+T> = None | Some(value: T) {

    /** The carried value, or `default` when there is none. */
    function GetOr(default: T): T {
      match this
      case Some(v) => v
      case None => default
    }
  }
}
